=== FILE: README.md ===
# Locket backend: accounts, friendships, posts and notifications in Dafny

This project models the REST core of the Locket (Picket) photo-sharing backend: the
Express routes under `/api/auth`, `/api/friends`, `/api/friendship`, `/api/posts`,
`/api/notifications` and `/api/user/avatar`, the User and Friendship Mongoose models
they drive, and the express-validator chains in front of them. It then proves what the
routes promise about these records.

The database is a set of collections. Each is a sequence of documents in natural
(insertion) order:
- `findOne` is the first match;
- `find` is the matches in order;
- `findByIdAndUpdate` maps over the documents with the id;
- `$addToSet` and `$pull` are `Table.AddToSet` and `Table.Pull`.

Every route is a pure function from the state and the request fields to a `Reply`.
- `Done(status, data)` carries the new state when the route writes.
- `Fail(status, message)` carries the JSON `message` and writes nothing.

Other modelling choices:
- A request id is `Missing`, `Malformed` (rejected by `ObjectId.isValid`, so a
  `findById` throws a CastError) or `Given(id)`.
- bcrypt is idealised: a `Hashed(t)` value matches exactly the candidate `t`.
- `Date.now()`, the random six-digit draw, the random reset token and new ObjectIds
  are parameters.

Modules follow the source files:

| module | file | source |
|---|---|---|
| `Wrappers`, `Table`, `Text`, `Http`, `Pagination` | wrappers, table, text, http, pagination | Option/Result, collection operations, JavaScript string semantics, replies, `skip`/`limit` paging |
| `UserModel` | user_model.dfy | models/User.js |
| `FriendshipModel`, `FriendshipInvariants` | friendship_model.dfy, friendship_invariants.dfy | models/Friendship.js |
| `FriendshipRoutes` | friendship_routes.dfy | routes/friendship.js |
| `FriendsRoutes` | friends_routes.dfy | routes/friends.js |
| `RouteConsistency` | route_consistency.dfy | both friendship route files together |
| `Posts` | posts.dfy | routes/posts.js |
| `Notifications` | notifications.dfy | routes/notifications.js |
| `Validation` | validation.dfy | middleware/validation.js |
| `Auth` | auth.dfy | routes/auth.js |
| `Avatar` | avatar.dfy | routes/user.js |

## Model

| member | source | states |
|---|---|---|
| Table.FindFirst | models/Friendship.js:38-43 | the index found satisfies the filter and no earlier document does; `None` exactly when no document does |
| Table.Select | routes/friendship.js:93 | the result holds exactly the documents satisfying the filter, each as many times as the collection holds it |
| Table.SelectOne | routes/friendship.js:93 | a single document is selected exactly when it satisfies the filter |
| Table.SelectConcat | routes/friendship.js:93 | selecting from two runs of documents gives the selection from the first followed by the selection from the second, so `find` keeps natural order |
| Table.SelectUpdate | routes/notifications.js:131 | replacing one document changes the number of matches by what the old and the new document contribute |
| Table.SelectAppend | routes/friends.js:155-160 | a document appended to the collection is selected last, if it matches |
| Table.RemoveAt | models/Friendship.js:130 | `findByIdAndDelete` removes the one document and keeps the others in order |
| Table.UpdateWhere | models/User.js:171-174 | each matching document is replaced by its update; every other document is unchanged |
| Table.AddToSet | models/Friendship.js:82-87 | `$addToSet` adds the value to the array's members; an array that holds it is unchanged; no duplicate is created |
| Table.Pull | models/Friendship.js:154-159 | `$pull` removes exactly the value from the array's members; it creates no duplicate |
| Table.PullUndoesAddToSet | models/Friendship.js:82-87 | pulling a value just added to an array that lacked it restores the array |
| Text.TrimShape | middleware/validation.js:19 | trimming leaves a contiguous piece of the input with only white space around it, and the piece neither starts nor ends with white space |
| Text.Trim | middleware/validation.js:19 | the trimmed text is no longer than the input and neither starts nor ends with white space |
| Text.TrimIdempotent | middleware/validation.js:57 | trimming a trimmed string changes nothing |
| Text.Utf16Length | models/User.js:10-11 | JavaScript `length` lies between the number of code points and twice that |
| Text.Utf16LengthOfBmp | models/User.js:10-11 | for code points of the Basic Multilingual Plane, `length` is the number of code points |
| Text.ValidatorLength | middleware/validation.js:20 | `isLength` counts no more than the code points |
| Text.ValidatorLengthPlain | middleware/validation.js:20 | without presentation selectors, `isLength` counts every code point |
| Text.ToLower | models/User.js:17 | lower-casing leaves no upper-case ASCII letter, shifts each upper-case letter by 32 and keeps every other character |
| Text.DecimalRoundTrip | models/User.js:166 | `toString()` of a number reads back as the same number |
| Text.DecimalLength | models/User.js:166 | a number of k digits is written with exactly k characters |
| Text.Decimal | models/User.js:166 | `toString()` of a number is a non-empty string of decimal digits |
| UserModel.Save | models/User.js:110-118 | a saved password is always hashed; an already hashed one is kept; `friendsCount` follows the array exactly when the friends were modified; nothing else changes |
| UserModel.SaveHashesOnce | models/User.js:112-113 | saving a saved document again changes nothing: a hash is never re-hashed |
| UserModel.SavedPasswordMatches | models/User.js:121-123 | after a password is assigned and saved, `comparePassword` accepts that password and no other |
| UserModel.ComparePassword | models/User.js:121-123 | a candidate matches exactly the hash of the same text; a plain-text value matches nothing |
| UserModel.SatisfiesSchema | models/User.js:4-11 | a username the schema accepts has 2 to 20 characters, since its JavaScript length is 3 to 20 |
| UserModel.ToJson | models/User.js:126-134 | `toJSON` never shows the password or the two codes with their expiries, and shows every other field as stored |
| UserModel.ToJsonIgnoresSecrets | models/User.js:126-134 | users that differ only in their secrets have the same `toJSON` |
| UserModel.PublicProfile | models/User.js:137-152 | the public profile shows only the twelve listed fields; never the email, password or friends array |
| UserModel.PublicProfileIsRestriction | models/User.js:137-152 | the public profile is the full object cut down to the public fields |
| UserModel.PublicProfileIgnoresPrivate | models/User.js:137-152 | changing any non-public field leaves the public profile unchanged |
| UserModel.SixDigitCode | models/User.js:166 | the code is six digits whose value is 100000 plus the draw, so it lies in 100000..999999 |
| UserModel.FindUser | routes/auth.js:163 | `findById` gives the first user with the id, and `None` exactly when no user has it |
| UserModel.UpdateUser | routes/auth.js:232-234 | `findByIdAndUpdate` applies the update to the users with the id and leaves every other user unchanged |
| UserModel.CreateEmailVerificationToken | models/User.js:164-177 | the returned code is six digits; the user with the id stores that code, expiring ten minutes from now; no other user changes |
| UserModel.CreatePasswordResetToken | models/User.js:180-191 | the same for the reset token fields; the routes never call it, and `Auth.IssuedResetCodeResets` shows what its code allows |
| FriendshipModel.FindPair | models/Friendship.js:38-43 | the `$or` lookup gives the first record joining the two users in either direction; `None` exactly when no record joins them |
| FriendshipModel.FindDirected | models/Friendship.js:29 | the first record from the requester to the recipient, in that direction only; `None` exactly when there is none |
| FriendshipModel.FindById | models/Friendship.js:63 | the first record with the id; `None` exactly when none has it |
| FriendshipModel.AddFriend | models/Friendship.js:82-84 | the owner's friends gain the friend; an array without duplicates stays without; every other field and every other user is unchanged |
| FriendshipModel.PullFriend | models/Friendship.js:154-156 | the owner's friends lose the friend; every other field and every other user is unchanged |
| FriendshipModel.CreateFriendship | models/Friendship.js:36-59 | an existing record of the pair, in either direction, is refused first. A self-request is refused next, then a message over 200 units once trimmed. Otherwise exactly one pending record is appended, with the trimmed message |
| FriendshipModel.ApplyAccept | models/Friendship.js:77-87 | the record becomes accepted; each party's friends gain exactly the other; arrays without duplicates stay without; no other field changes |
| FriendshipModel.AcceptFriendship | models/Friendship.js:62-90 | not found, not the recipient and not pending are refused, in that order; otherwise the acceptance writes happen |
| FriendshipModel.DeclineFriendship | models/Friendship.js:93-111 | not found, not the recipient and not pending are refused, in that order. Only the recipient declines a pending record; the record stays, marked declined; users are untouched |
| FriendshipModel.CancelFriendship | models/Friendship.js:114-132 | not found, not the requester and not pending are refused, in that order. Only the requester cancels a pending record, which is deleted; users are untouched |
| FriendshipModel.RemoveFriendship | models/Friendship.js:135-165 | the first record joining the pair is deleted whatever its status, and exactly the pair is pulled from both friends arrays; refused only when no record joins them |
| FriendshipModel.FriendsList | models/Friendship.js:168-182 | one entry per accepted record involving the user, in natural order: the other party, or null exactly where that account is gone. The named entries are exactly the friends whose accounts exist. The listing throws exactly when such a record's requester account is gone |
| FriendshipModel.FriendsListOf | models/Friendship.js:168-182 | the same listing over the two collections: `find` the accepted records, then map each to its entry, so the length is the number of those records and entry i belongs to record i |
| FriendshipModel.ListedFriend | models/Friendship.js:176-181 | the entry of one record is the other party when that account exists, and null otherwise |
| FriendshipModel.ListedFriendsMeaning | models/Friendship.js:168-182 | a list of entries, one per accepted record, holds null exactly for a record whose other party is gone, and names exactly the friends whose accounts exist |
| FriendshipModel.ListedNulls | models/Friendship.js:168-182 | an entry of the list is null exactly when some accepted record involving the user has a missing other party |
| FriendshipModel.ListedFriendOf | models/Friendship.js:168-182 | an id is listed exactly when it is a friend of the user whose account exists |
| FriendshipModel.PendingReceived | models/Friendship.js:185-190 | exactly the pending records addressed to the user |
| FriendshipModel.PendingSent | routes/friendship.js:104 | exactly the pending records the user sent |
| FriendshipModel.CreatedRequestIsPending | models/Friendship.js:185-190 | a request just created is the last entry of the recipient's received list and of the requester's sent list |
| FriendshipModel.AcceptedRequestLeavesPending | models/Friendship.js:62-90 | accepting a request takes it off both pending lists: each loses exactly one entry |
| FriendshipModel.AcceptKeepsFriendsDuplicateFree | models/Friendship.js:82-87 | `$addToSet` keeps every friends array free of duplicates through an acceptance |
| FriendshipInvariants.AreFriendsAppend | models/Friendship.js:54-58 | after an append, two users are friends exactly when they were, or when the new record is accepted and joins them |
| FriendshipInvariants.AppendKeepsConsistent | models/Friendship.js:28-29 | appending a pending record for a fresh pair under a fresh id keeps the records unique and the friends arrays in step with them |
| FriendshipInvariants.CreateKeepsConsistent | models/Friendship.js:36-59 | `createFriendship` keeps the invariant: no self-links, unique ids, one record per pair, and every friends array equal to the accepted records |
| FriendshipInvariants.ApplyAcceptKeepsMirror | models/Friendship.js:77-87 | accepting a record adds its pair to both arrays and to the relation alike |
| FriendshipInvariants.AcceptKeepsConsistent | models/Friendship.js:62-90 | `acceptFriendship` keeps the invariant |
| FriendshipInvariants.DeclineKeepsConsistent | models/Friendship.js:93-111 | `declineFriendship` keeps the invariant |
| FriendshipInvariants.CancelKeepsConsistent | models/Friendship.js:114-132 | `cancelFriendship` keeps the invariant |
| FriendshipInvariants.PullPairKeepsMirror | models/Friendship.js:152-162 | deleting a pair's record and pulling each from the other's array keeps the arrays in step, when no other accepted record joins the pair |
| FriendshipInvariants.RemoveKeepsConsistent | models/Friendship.js:135-165 | `removeFriendship` keeps the invariant |
| FriendshipInvariants.SecondRequestRefused | models/Friendship.js:38-47 | after a request goes through, a second one between the same users fails in either direction |
| FriendshipInvariants.AcceptAddsThePair | models/Friendship.js:62-90 | accepting adds exactly the requester–recipient pair to the friend relation, and only the recipient accepts |
| FriendshipInvariants.AcceptLeavesCountStale | models/User.js:155-160 | after an acceptance, both arrays grow but every `friendsCount` stays as it was, because `findByIdAndUpdate` skips the save hook |
| FriendshipInvariants.RemoveEndsOnlyThePair | models/Friendship.js:135-165 | removal ends the friendship of that pair and of no other |
| FriendshipInvariants.RemoveIsSymmetric | models/Friendship.js:140-159 | removal is the same whichever of the two users asks |
| FriendshipInvariants.PullOrderIrrelevant | models/Friendship.js:154-159 | the two `$pull` writes leave the same arrays whichever runs first |
| FriendshipInvariants.FriendsListMatchesFriendsArray | models/Friendship.js:168-182 | under the invariant, and with every referenced account present, the friends list holds exactly the user's friends array |
| FriendshipRoutes.Answer | routes/friendship.js:35-36 | a method's success is the route's success with the given status; every thrown error becomes a 400 carrying its message |
| FriendshipRoutes.Request | routes/friendship.js:17-38 | checks in order: a missing recipient id, a malformed one, then the caller themself, all 400; then `createFriendship`'s outcome with 201. No outcome is other than 201 or 400 |
| FriendshipRoutes.Accept | routes/friendship.js:41-48 | an invalid path id is a 400 `Invalid ID`; otherwise `acceptFriendship` decides |
| FriendshipRoutes.Decline | routes/friendship.js:51-58 | the same for `declineFriendship` |
| FriendshipRoutes.Cancel | routes/friendship.js:61-68 | the same for `cancelFriendship` |
| FriendshipRoutes.Remove | routes/friendship.js:71-78 | an invalid id is 400 `Invalid ID`; otherwise the outcome of ending the relationship between the caller and the user the path names, any error a 400 |
| FriendshipRoutes.List | routes/friendship.js:81-88 | 200 with the friends list exactly when `getFriendsList` does not throw, otherwise 500 |
| FriendshipRoutes.PendingReceivedRoute | routes/friendship.js:91-99 | 200 with exactly the pending records addressed to the caller |
| FriendshipRoutes.PendingSentRoute | routes/friendship.js:102-110 | 200 with exactly the pending records the caller sent |
| FriendshipRoutes.RemoveEitherWay | routes/friendship.js:71-78 | either user ends the relationship with the same effect |
| FriendsRoutes.SendRequest | routes/friends.js:11-86 | a missing id is 400; a malformed one is 500; an unknown recipient is 404; the caller themself is 400. When the pair's first record is accepted the answer is 400 `already friends`, and when it is pending, 400 `already sent`. Past those checks, a message over 200 units or a record in the same direction is 500. A success appends one pending record with 201 |
| FriendsRoutes.Accept | routes/friends.js:89-146 | succeeds exactly when `acceptFriendship` would, with the same writes; a malformed id is 500 |
| FriendshipModel.AcceptedOf | models/Friendship.js:169-174 | exactly the accepted records involving the user |
| FriendsRoutes.Entries | routes/friends.js:167-176 | one entry per record with the other party, the record id and `updatedAt`; it fails exactly when a record's referenced account is gone |
| FriendsRoutes.List | routes/friends.js:148-203 | succeeds exactly when the skip is not negative and no record on the page has a missing account; the page is the entries of those records; the total counts the caller's accepted records; `pages` is the exact ceiling |
| FriendsRoutes.Requests | routes/friends.js:207-231 | exactly the pending records addressed to the caller, with their count |
| FriendsRoutes.Delete | routes/friends.js:234-281 | 404 for an unknown record and 403 for a caller not party to it. Otherwise the record is deleted, and both arrays are pulled exactly when it was accepted |
| FriendsRoutes.SentRequestIsListed | routes/friends.js:207-231 | a request just sent is the recipient's last pending request, and the count grows by one |
| FriendsRoutes.AcceptAddsOneFriendEach | routes/friends.js:148-203 | accepting a request raises the friends-listing total of each party by exactly one |
| RouteConsistency.ConsistentIsLoose | routes/friends.js:47-59 | the strict invariant implies the looser one that routes/friends.js keeps |
| RouteConsistency.SendRequestKeepsLoose | routes/friends.js:11-86 | a request through routes/friends.js keeps the loose invariant: at most one live record per pair, and arrays in step |
| RouteConsistency.RouteAcceptKeepsLoose | routes/friends.js:89-146 | acceptance through routes/friends.js keeps the loose invariant |
| RouteConsistency.RouteDeleteKeepsLoose | routes/friends.js:234-281 | deletion through routes/friends.js keeps the loose invariant |
| RouteConsistency.CreateKeepsLoose | models/Friendship.js:36-59 | `createFriendship` keeps the loose invariant |
| RouteConsistency.AcceptKeepsLoose | models/Friendship.js:62-90 | `acceptFriendship` keeps the loose invariant |
| RouteConsistency.DeclineKeepsLoose | models/Friendship.js:93-111 | `declineFriendship` keeps the loose invariant |
| RouteConsistency.CancelKeepsLoose | models/Friendship.js:114-132 | `cancelFriendship` keeps the loose invariant |
| RouteConsistency.RouteAcceptKeepsConsistent | routes/friends.js:89-146 | acceptance through routes/friends.js keeps the strict invariant |
| RouteConsistency.RouteDeleteKeepsConsistent | routes/friends.js:234-281 | deletion through routes/friends.js keeps the strict invariant |
| RouteConsistency.NextId | models/Friendship.js:54-58 | the id handed to a new record is not in use |
| RouteConsistency.RunKeepsConsistent | models/Friendship.js:28-29 | any sequence of writes without the routes/friends.js request keeps one record per pair, with the arrays in step |
| RouteConsistency.RunKeepsLoose | routes/friends.js:47-67 | any sequence of writes without `removeFriendship` keeps the loose invariant |
| RouteConsistency.WholeRun | routes/friends.js:47-67 | concrete five-step run: request, decline, request back, accept, remove. Its final state has a record marking the two as friends while both arrays are empty |
| RouteConsistency.ReRequestAfterDeclineDuplicatesPair | routes/friends.js:47-67 | a request back after a decline creates a second record for the pair, which the strict invariant forbids |
| RouteConsistency.MixingBreaksMirror | models/Friendship.js:140-162 | mixing the route families breaks the arrays: `removeFriendship` deletes the declined record and pulls both arrays, so the two stay friends by record but not by array |
| Pagination.ParamOr | routes/posts.js:15-16 | `parseInt(x) \|\| fallback`: a non-zero number is kept, and anything else becomes the fallback |
| Pagination.CeilDiv | routes/posts.js:34 | `Math.ceil(total / limit)` is the least integer not below the quotient, for either sign of the limit |
| Pagination.Window | routes/posts.js:24-25 | `skip(n).limit(l)` gives the documents from position n onward, at most the absolute value of l of them, in order |
| Pagination.Paginate | routes/posts.js:13-37 | a page holds the consecutive matches after the skip. It holds as many as `.limit` lets through: none past the end, otherwise the rest or \|limit\| of them, whichever is fewer. The total and the page count are exact; a negative skip fails |
| Pagination.HasNextMeansMoreRemain | routes/notifications.js:42 | with a positive limit, `hasNext` holds exactly when matches remain after this page |
| Pagination.HasPrevMeansSkipped | routes/notifications.js:43 | with a positive limit, `hasPrev` holds exactly when the page skips some matches |
| Pagination.EveryIndexOnAPage | routes/posts.js:17 | with a positive limit, the match at position i lies on page i / limit + 1, which is within the page count |
| Posts.FindLive | routes/posts.js:229-239 | the single-post lookup gives the first post with the id when it is active. With unique ids it fails exactly when no active post has the id |
| Posts.Create | routes/posts.js:172-187 | the handler: a falsy image URL is 400, and only that fails. Otherwise one post of the caller's is appended, with an absent or empty caption stored as `""` |
| Posts.CreateRoute | routes/posts.js:172-187 | behind `validatePost`: a caption over 200 characters once trimmed is 400 before the handler runs; otherwise the handler gets the trimmed caption, and the stored caption is trimmed and within the limit |
| Posts.Get | routes/posts.js:227-239 | 200 with an active post with the id exactly when the lookup finds it; otherwise 404; a malformed id is 500 |
| Posts.Update | routes/posts.js:258-279 | the handler: 404 for a missing or deleted post, 403 for a non-owner. Otherwise only that post's caption changes, to the value it is given |
| Posts.UpdateRoute | routes/posts.js:258-279 | behind `validatePost`: an over-long caption is 400 before the lookup; otherwise the handler gets the trimmed caption, or none; a stored caption passes the chain again |
| Posts.UpdatedCaptionIsRead | routes/posts.js:227-279 | after an update, reading the post gives it back with the trimmed caption and nothing else changed |
| Posts.Delete | routes/posts.js:301-322 | the same guards; otherwise only that post's `isActive` becomes false |
| Posts.FirstLike | routes/posts.js:353-355 | the position of the user's first like: it holds the user's like and no earlier entry does; `None` exactly when the user has not liked |
| Posts.ToggleLike | routes/posts.js:353-371 | the toggle likes exactly when the user had not liked. A like appends one entry; an unlike splices out the user's first entry; the count moves by one |
| Posts.LikeRoute | routes/posts.js:341-378 | answers the new state and count, and changes only that post's likes |
| Posts.ToggleKeepsOneLikeEach | routes/posts.js:353-371 | a toggle keeps at most one like per user, and afterwards the user likes the post exactly when the answer says so |
| Posts.LikeThenUnlike | routes/posts.js:353-371 | liking then unliking restores the likes exactly |
| Posts.UnlikeThenLike | routes/posts.js:353-371 | unliking then liking restores the same likes as a multiset |
| Posts.ToggleTouchesOnlyTheCaller | routes/posts.js:353-371 | a toggle leaves every other user's likes alone |
| Posts.CommentRoute | routes/posts.js:393-420 | behind `validateComment`: an empty or over-long text is 400 before the lookup; otherwise the handler gets the trimmed text, and the stored comment is non-empty, trimmed and at most 100 characters |
| Posts.AddComment | routes/posts.js:393-420 | the handler: 201 with the caller's comment, now last, on an active post; the earlier comments are kept as a prefix; nothing else changes |
| Posts.CommentIsRead | routes/posts.js:227-239 | a comment just added is read back as the post's last comment, after the earlier ones |
| Posts.CreatedPostIsVisible | routes/posts.js:227-239 | a post just created under a fresh id is found by `GET /:id` |
| Posts.DeletedPostIsGone | routes/posts.js:301-322 | after a soft delete, reading or deleting the post again is 404 |
| Posts.FindLiveAfterEdit | routes/posts.js:229-239 | an edit that keeps a post's id and leaves it active, and touches no other post, keeps the lookup on it |
| Posts.CreatedPostIsCounted | routes/posts.js:172-187 | a new post adds one to its author's total and to the feed total, and nothing to any category feed, since it has no category yet |
| Posts.FirstWithIdIsInactive | routes/posts.js:234 | when the first post with the id is inactive, the lookup finds nothing |
| Posts.PageOf | routes/posts.js:13-37 | with the defaults applied, the page is the window of the matches after the skip, of the size `.limit` gives, and the pagination fields are exact; a negative skip is 500 |
| Posts.Feed | routes/posts.js:13-37 | fails exactly when the skip is negative. The page is the window of the active posts, of the size `.limit` gives, and the total counts them all |
| Posts.Authors | routes/posts.js:62-77 | the author list ends with the caller |
| Posts.AuthorsAreCallerAndFriends | routes/posts.js:62-77 | the category feed's authors are exactly the caller and the caller's friends |
| Posts.CategoryFeed | routes/posts.js:54-114 | fails exactly when the skip is negative. The page is the window, of the size `.limit` gives, over the active posts of that category written by the caller or a friend, and the total counts exactly those posts |
| Posts.PresentIds | routes/posts.js:126-129 | the ids of a populated list, present exactly when no entry is null |
| Posts.FriendsFeed | routes/posts.js:119-167 | succeeds exactly when the friends list neither throws nor holds a null friend and the skip is not negative. The page is the window, of the size `.limit` gives, over the active posts of the caller and their listed friends, and the total counts exactly those posts |
| Posts.FriendIds | routes/posts.js:121-126 | the ids the feed reads off the friends list exist exactly when the list neither throws nor holds a null entry, and they are exactly the caller's friends whose accounts exist |
| Posts.FriendsPage | routes/posts.js:129-166 | over those ids, the page is the window of the active posts of the caller and the listed friends, of the size `.limit` gives; the total counts exactly those posts; a negative skip is 500 |
| Posts.FriendsFeedMatches | routes/posts.js:134-147 | the `$in` filter over the listed ids and the caller selects the same posts, in the same order, as the filter over the caller, the friends and their accounts |
| Posts.FriendsFeedAuthorsAgree | routes/posts.js:119-129 | when every friend's account exists, the friends feed and the category feed draw from the same authors |
| Posts.NoNullFriend | routes/posts.js:126-129 | when every friend's account exists, no entry of the friends list is null |
| Posts.UserPosts | routes/posts.js:435-472 | succeeds exactly when the id is an ObjectId and the skip is not negative. The page is the window, of the size `.limit` gives, over the user's active posts, with an exact total |
| Notifications.UnreadCount | routes/notifications.js:131 | zero exactly when the user has no unread notification, and never more than the notifications |
| Notifications.UnreadCountSteps | routes/notifications.js:131 | the count exactly: zero for no notifications, and a notification added last counts once when it is unread and the user's |
| Notifications.MarkReadLowersUnreadByOne | routes/notifications.js:61-100 | marking an unread notification lowers the unread count by exactly one; marking a read one leaves it |
| Notifications.List | routes/notifications.js:11-56 | only the caller's notifications, of the type when one is given, as many as `.limit` lets through, with exact totals, the flags as computed and the caller's unread count |
| Notifications.ListFlags | routes/notifications.js:42-43 | with a positive limit, `hasNext` and `hasPrev` say whether notifications lie after and before the page |
| Notifications.FindOwned | routes/notifications.js:63-66 | the first notification with the id that belongs to the caller; `None` exactly when there is none |
| Notifications.MarkRead | routes/notifications.js:61-100 | a malformed id is 400 and another user's notification is 404. Otherwise it becomes read; `readAt` keeps the first mark's time; nothing else changes |
| Notifications.MarkReadOnce | routes/notifications.js:76-81 | marking twice equals marking once, even at a later time |
| Notifications.MarkAllAsRead | routes/notifications.js:107 | every unread notification of the user becomes read. The modified count is the former unread count; everything else is unchanged |
| Notifications.ReadAll | routes/notifications.js:105-124 | answers the modified count with 200 |
| Notifications.ReadAllClearsUnread | routes/notifications.js:105-124 | afterwards the caller has no unread notification, and others' notifications are unchanged |
| Notifications.UnreadCountRoute | routes/notifications.js:129-147 | the answered count is the caller's unread count, which `Notifications.UnreadCountSteps` pins down; it is zero exactly when the caller has nothing unread |
| Notifications.Delete | routes/notifications.js:152-178 | deletes exactly the caller's notification with the id; otherwise 404; a malformed id is 400 |
| Notifications.DeleteKeepsOthers | routes/notifications.js:154-157 | a delete never removes another user's notification |
| Notifications.FindOwnedDependsOnKeys | routes/notifications.js:63-66 | the owned lookup depends only on ids and recipients |
| Validation.Check | middleware/validation.js:4-14 | a validator records its message exactly when its check fails |
| Validation.Gate | middleware/validation.js:4-14 | any recorded error answers 400 `Validation failed` and the handler does not run; no error lets the handler answer |
| Validation.FirstLine | middleware/validation.js:33 | the text before the first line terminator, which is all `.*` in a lookahead can see |
| Validation.UsernameRule | middleware/validation.js:18-23 | a username passes exactly when, trimmed, it is 3 to 20 letters, digits or underscores |
| Validation.RegisterErrors | middleware/validation.js:17-37 | registration passes exactly when the username, the e-mail and the password rules all pass |
| Validation.UsernameErrors | middleware/validation.js:18-23 | the username passes exactly when, trimmed, its validator length is 3 to 20 and it matches the word pattern; all errors concern the username |
| Validation.PasswordRuleErrors | middleware/validation.js:30-34 | the password passes exactly when its validator length is at least 6 and the pattern holds; all errors concern the given field |
| Validation.PasswordRuleOnOneLine | middleware/validation.js:30-34 | a one-line password passes exactly when it has six characters and a lower-case letter, an upper-case letter and a digit |
| Validation.PasswordPatternStopsAtLineBreak | middleware/validation.js:33 | a first line without a lower-case letter fails the pattern whatever follows the line break |
| Validation.LoginErrors | middleware/validation.js:40-51 | login passes exactly when the e-mail is valid and a non-empty password is present |
| Validation.CaptionErrors | middleware/validation.js:54-62 | an absent caption passes; a present one passes exactly when, trimmed, it has at most 200 characters |
| Validation.SanitizedCaption | middleware/validation.js:55-57 | the route sees a caption exactly when one was sent |
| Validation.CaptionSanitizationStable | middleware/validation.js:54-62 | the sanitized caption passes the chain exactly when the original did, and sanitizing again changes nothing |
| Validation.AcceptedComment | middleware/validation.js:65-74 | an accepted comment reaches the route non-empty, trimmed and at most 100 characters |
| Validation.CommentErrors | middleware/validation.js:65-74 | the comment passes exactly when, trimmed, it is not empty and has at most 100 characters |
| Validation.NotificationIdErrors | middleware/validation.js:77-83 | the id passes exactly when it is an ObjectId |
| Validation.ChangePasswordErrors | middleware/validation.js:86-106 | passes exactly when the current password is given, the new one meets the password rules, and the confirmation equals it |
| Validation.ForgotPasswordErrors | middleware/validation.js:109-116 | passes exactly when the e-mail is valid |
| Validation.ResetPasswordErrors | middleware/validation.js:119-139 | passes exactly when a token is given, the new password meets the rules, and the confirmation equals it |
| Validation.IsNumeric | middleware/validation.js:148 | a numeric string is never empty, and every non-empty run of digits is numeric |
| Validation.CodeErrorsAsWritten | middleware/validation.js:142-152 | the code passes exactly when it is non-empty, six characters long and numeric in the sense of `isNumeric` |
| Validation.CodeErrors | middleware/validation.js:142-152 | the corrected chain: the code passes exactly when it is non-empty, six characters long and all digits |
| Validation.CodeRule | middleware/validation.js:142-152 | the corrected code chain passes exactly on six ASCII digits |
| Validation.CorrectedCodeIsStricter | middleware/validation.js:142-152 | whatever the corrected chain accepts, the chain as written accepts too |
| Validation.SignedCodePassesAsWritten | middleware/validation.js:148 | a plus sign and five digits pass the chain as written, though they are not a six-digit code |
| Validation.QueryErrors | middleware/validation.js:155-163 | an absent query passes; a present one passes exactly when, trimmed, it has at least two characters |
| Validation.QueryIgnoresSurroundingSpace | middleware/validation.js:155-163 | a query and its trimmed form pass or fail together |
| Auth.FindByEmail | routes/auth.js:25 | the first user whose stored e-mail is the lower-cased, trimmed input; `None` exactly when there is none |
| Auth.Register | routes/auth.js:20-97 | a taken e-mail is 400, checked before a taken username, also 400. Registration succeeds exactly when both are free and the schema accepts the new user. The new user is appended with hashed password, schema defaults and a six-digit code expiring in ten minutes |
| Auth.Login | routes/auth.js:100-156 | an unknown e-mail and a wrong password on an active account are both 401 `Invalid email or password`; a deactivated account is 401 with its own message. Success happens exactly when the account is active and the password matches, and it changes only `lastLogin` |
| Auth.GetProfile | routes/auth.js:161-176 | always 200; the caller's document when it exists, null otherwise |
| Auth.ProfileChange | routes/auth.js:183-204 | only the username (when truthy) and the picture (when present in the body) change |
| Auth.UpdateProfile | routes/auth.js:181-225 | a truthy username held by another user is 400, and only that is 400. A free username whose stored form is not 3 to 20 units is 500. The update succeeds exactly when neither happens. Only the caller's document changes, and the answer is that document as updated (`new: true`) |
| Auth.ProfileUpdateKeepsNamesUnique | routes/auth.js:186-199 | with unique ids, usernames that were unique stay unique |
| Auth.Logout | routes/auth.js:230-249 | only the caller's `lastSeen` changes |
| Auth.DeleteAccount | routes/auth.js:254-298 | a missing password is 400 and a missing account 404. A given password that does not match the existing account is 401 `Invalid password`. Success happens exactly when the password matches, and it removes only the account |
| Auth.DeletedAccountIsGone | routes/auth.js:283 | with unique ids, the account is gone after deletion |
| Auth.ChangePassword | routes/auth.js:303-341 | 404 for a missing account and 401 for a wrong current password. Success happens exactly when the current password matches and the new one meets the schema's length; it stores the new password hashed |
| Auth.ChangedPasswordMatches | routes/auth.js:321-322 | after a change, exactly the new password matches |
| Auth.ForgotPassword | routes/auth.js:346-384 | always 200 with the same message. When the e-mail has an account, that account stores the token expiring in ten minutes and nothing else changes |
| Auth.ForgotPasswordRevealsNothing | routes/auth.js:346-384 | the answer is identical whether or not the e-mail belongs to an account |
| Auth.ResetPassword | routes/auth.js:389-424 | 400 exactly when no account holds the token unexpired. Succeeds exactly when one does and the new password is at least 6 units, and then the first holder gets the new password hashed with its token cleared; the other failure is 500 |
| Auth.ResetIsSingleUse | routes/auth.js:404-407 | a token works once: a second reset with it fails, when no other account held it |
| Auth.ResetPasswordMatches | routes/auth.js:404-407 | after a reset, exactly the new password matches |
| Auth.ForgottenPasswordCanBeReset | routes/auth.js:389-410 | a token stored by forgot-password resets the password within ten minutes |
| Auth.VerifyEmail | routes/auth.js:429-464 | 400 exactly when no account holds the code unexpired. Otherwise the first holder is marked verified and its code is cleared |
| Auth.VerificationIsSingleUse | routes/auth.js:444-447 | a code verifies once: a second use fails, when no other account held it |
| Auth.SendVerificationEmail | routes/auth.js:469-505 | 404 for a missing account and 400 for a verified one; otherwise a new code is stored |
| Auth.SentCodeVerifies | routes/auth.js:429-449 | a code sent to an account verifies that account within ten minutes, when no other account holds the same code |
| Auth.RegisterRoute | middleware/validation.js:17-37 | a registration that fails validation is 400 and writes nothing; one that passes is the handler's answer on the trimmed username and the normalized e-mail |
| Auth.LoginRoute | middleware/validation.js:40-51 | a login that fails validation is 400; one that passes is the handler's answer on the normalized e-mail; no other failure than 400 or 401 |
| Auth.ForgotPasswordRoute | middleware/validation.js:109-116 | an invalid e-mail is 400; a valid one is the handler's answer on the normalized e-mail, so it stores the token on a matching account and gets the same 200 answer either way |
| Auth.ChangePasswordRoute | middleware/validation.js:86-106 | a change that fails validation is 400; one that passes is the handler's answer; a success had a matching confirmation |
| Auth.ResetPasswordRoute | middleware/validation.js:119-139 | a reset that fails validation is 400; one that passes is the handler's answer; a success had a token and a matching confirmation |
| Auth.VerifyEmailRoute | middleware/validation.js:142-152 | the chain as written: a code it refuses is 400 `Validation failed`; any code it passes, a signed or decimal one included, reaches the handler |
| Auth.VerifyEmailRouteCorrected | middleware/validation.js:142-152 | the corrected chain: a code that is not six digits is 400 `Validation failed`; a six-digit code reaches the handler |
| Auth.CorrectionChangesOnlyTheMessage | routes/auth.js:429-447 | while stored codes are six digits, the two routes succeed on the same codes with the same result, and both fail with 400 otherwise |
| Auth.SignedCodeReachesHandler | routes/auth.js:439-443 | as written, `+` and five digits gets the handler's 400 `Invalid or expired verification code`; the corrected route answers `Validation failed` |
| Auth.RegisterKeepsKeysUnique | routes/auth.js:25-38 | with a fresh id, a registration keeps ids, usernames and e-mails unique |
| Auth.IssuedResetCodeResets | models/User.js:180-191 | a code `createPasswordResetToken` issues resets the account's password within ten minutes, when no other account holds it |
| Auth.ValidatedPasswordFitsSchema | middleware/validation.js:30-34 | a password the validator accepts is long enough for the schema |
| Auth.ValidatedRegistrationFitsSchema | middleware/validation.js:17-37 | a registration the validator accepts never fails the schema's username and password lengths |
| Auth.ValidatedChangeNeverFailsSchema | routes/auth.js:303-341 | a validated password change never ends in 500 |
| Auth.RegisteredUserCanLogIn | routes/auth.js:20-156 | a user who registers under a fresh id can log in at once with the same e-mail and password |
| Avatar.SetAvatar | routes/user.js:11-46 | a value that is not a URL is 400 and a missing account 404. Otherwise only the caller's picture changes, to the URL |
| Avatar.DeleteAvatar | routes/user.js:51-73 | 404 for a missing account and 400 when there is no picture. Otherwise only the caller's picture is cleared to null |
| Avatar.SecondDeleteFindsNoAvatar | routes/user.js:58-60 | deleting twice: the second delete finds nothing to delete |
| Avatar.SetThenDelete | routes/user.js:11-73 | a URL just set can be deleted, leaving the picture null and the rest as before |

## Left out

- Authentication (JWT, `authenticate`) is not modelled: the caller's id is a parameter of every route.
- E-mail sending (utils/emailService.js) is left out, as is the `devVerificationCode` field of the answer. Only the stored code matters here.
- The Gemini and image-style services, the classifier that fills a post's `category`, and models/FriendshipToken.js are outside the core.
- `sort` orders are not modelled. The routes sort by `createdAt` (newest first) before `skip` and `limit`; the model pages the matches in natural order. Totals, page counts and success are unaffected, and every listed document is a match, but a page of the model can hold other documents than the sorted page would.
- `populate` field selection is not modelled: a populated reference is an id, or null when the account is gone.
- Populated views of users (for example `friend.toObject()` in the friends listing) are left out. A listing entry carries ids.
- The e-mail `match` pattern of the User schema is not modelled. `isEmail`, `normalizeEmail`, `isURL` and `isMongoId` are parameters or types (`Http.PathId`), not code.
- The `dateOfBirth` user field and `updatedAt` timestamps on users are not used by any route here, so they are left out.
- Mongoose's "modified paths" are approximated. `UserModel.Save` hashes exactly the password that is plain text, which is what an assigned, unsaved password is.
- Save validates the schema on every write path a route can fail on: registration, password change and reset. The other saves cannot fail validation.
- The unique indexes on `username` and `email` are not enforced on writes. Registration and the profile update check them before writing: `Auth.RegisterKeepsKeysUnique` and `Auth.ProfileUpdateKeepsNamesUnique` show those two keep the keys unique.
- Races between concurrent requests are out of scope: every route runs alone on a state.
- models/Post.js and models/Notification.js are not part of this model. A post and a notification carry the fields the routes use.
- `Notification.getUnreadCount` and `markAllAsRead` are given the meaning their names and the routes' answers state.
- A `requestMessage` of `null` is read as absent.
- The string comparison of `req.user.id` with the body's id in routes/friends.js is read as an id comparison.
- Auth.UpdateProfile: only the username's length is validated on the update (`runValidators`). The e-mail pattern is not modelled.
- Auth.GetProfile, Auth.UpdateProfile: answer the stored document. `res.json` serialises it through `toJSON`, which drops the password and the four token and expiry fields; `UserModel.ToJson` models that step on its own, and the answers are left unserialised.
- Avatar.SetAvatar: the 400 answer carries the validator's `errors` array, not a `message`; the model gives its one message.
- Validation.PasswordRuleErrors: the lookaheads `(?=.*[a-z])` and the others see only the first line of the password, because `.` stops at a line terminator. The model follows the code: a password whose required characters appear only after a line break is refused.
- Validation.UsernameErrors, Validation.PasswordRuleErrors: their contracts are in terms of the validator length and the patterns; `Validation.UsernameRule` and `Validation.PasswordRuleOnOneLine` restate them in characters.
- Text.Utf16Length, Text.ValidatorLength: bound the count rather than restate it; the two `...OfBmp`/`...Plain` lemmas give the exact count where the model needs it.
- Posts.Authors: states only that the list ends with the caller; `Posts.AuthorsAreCallerAndFriends` states its members.
- Text.ToLower: `lowercase: true` lower-cases with JavaScript's full Unicode mapping; the model lower-cases only ASCII letters and keeps every other character.
- Notifications.UnreadCount: its own contract bounds the count and says when it is zero; `Notifications.UnreadCountSteps` gives it exactly.
- Posts.AddComment, Posts.Create, Posts.Update: model the handlers alone; `Posts.CommentRoute`, `Posts.CreateRoute` and `Posts.UpdateRoute` put the validators in front of them, as the routes do.
- Pagination.ParamOr: `page` and `limit` are read as unbounded integers. `parseInt` gives a double and the database takes `skip` and `limit` as 64-bit integers, so precision loss and the refusal of an out-of-range skip or limit (which the routes answer with 500) are not modelled; such a request gets an empty page in the model.
- Pagination.Paginate: a non-positive limit reads the window as the driver does (`limit(-n)` returns at most n); the skip is then `(page - 1) * limit`, as written.

## Findings

| source | as written | input that shows it | evidently intended | confidence | as-written member | corrected member |
|---|---|---|---|---|---|---|
| middleware/validation.js:142-152 | `isNumeric()` with its default options accepts a sign and a decimal point, so the chain accepts any six-character numeric string | the code `+12345` (also `-12345`, `1.2345`) passes validation and reaches the handler, which answers `Invalid or expired verification code` instead of `Validation failed` | a code of exactly six digits, as the message "Verification code must be 6 digits" and the code generator (models/User.js:166) state | not executed | Validation.CodeErrorsAsWritten, Validation.SignedCodePassesAsWritten, Auth.VerifyEmailRoute, Auth.SignedCodeReachesHandler | Validation.CodeErrors, Validation.CodeRule, Auth.VerifyEmailRouteCorrected, Auth.CorrectionChangesOnlyTheMessage |

=== FILE: auth.dfy ===
/** The account routes of routes/auth.js (`/api/auth`) over the user collection. The
    handlers receive the body as the validators leave it; the `...Route` functions put
    the validator chain in front. The JWT, the e-mail, the random reset token and the
    random code draw are parameters; `normalizeEmail` is applied by the caller. A `save`
    runs the pre-save hooks of the User model and validates the fields it modified. */
module Auth {
  import opened Wrappers
  import opened Table
  import opened Text
  import opened Http
  import opened UserModel
  import Validation

  // The `message` fields of the answers.
  const EmailTaken := "User with this email already exists"
  const UsernameTaken := "Username is already taken"
  const RegisterError := "Server error during registration"
  const InvalidCredentials := "Invalid email or password"
  const Deactivated := "Account is deactivated"
  const ProfileUpdateError := "Server error updating profile"
  const PasswordRequired := "Password is required to delete account"
  const UserNotFound := "User not found"
  const InvalidPassword := "Invalid password"
  const CurrentPasswordIncorrect := "Current password is incorrect"
  const ChangePasswordError := "Server error changing password"
  const ResetLinkSent := "If an account with that email exists, a password reset link has been sent"
  const InvalidResetToken := "Invalid or expired reset token"
  const ResetError := "Server error resetting password"
  const InvalidCode := "Invalid or expired verification code"
  const AlreadyVerified := "Email is already verified"

  /** `findOne({ email })`: the schema's setters lower-case and trim the filter value. */
  function FindByEmail(users: seq<User>, email: string): (r: Option<nat>)
    ensures r.Some? ==> r.value < |users| && users[r.value].email == StoredEmail(email)
    ensures r.Some? ==> forall j :: 0 <= j < r.value ==> users[j].email != StoredEmail(email)
    ensures r.None? <==> forall j :: 0 <= j < |users| ==> users[j].email != StoredEmail(email)
  {
    FindFirst(users, (u: User) => u.email == StoredEmail(email))
  }

  /** Some user holds the name, as the schema stores it. */
  predicate UsernameHeld(users: seq<User>, name: string) {
    exists j :: 0 <= j < |users| && users[j].username == StoredUsername(name)
  }

  /** The document `User.create` builds from a username, an e-mail and a password: the
      setters applied and every other field at its schema default. */
  function NewUser(id: Id, username: string, email: string, password: string, now: nat): User {
    User(id, StoredUsername(username), StoredEmail(email), Plain(password), None, None, None, None, None,
         [], 0, 0, false, false, true, false, None, None, None, None, now, now, now)
  }

  /** The `201` payload of a registration: the new user's id and its verification code. */
  datatype Registration = Registration(user: Id, code: string)

  /** `POST /register`: the e-mail is checked first, then the username; the new user is
      validated, its password hashed, and a verification code stored for it. */
  function Register(users: seq<User>, username: string, email: string, password: string,
                    newId: Id, now: nat, draw: nat): (r: Reply<(seq<User>, Registration)>)
    requires draw < 900000
    ensures FindByEmail(users, email).Some? ==> r == Fail(BAD_REQUEST, EmailTaken)
    ensures FindByEmail(users, email).None? && UsernameHeld(users, username) ==> r == Fail(BAD_REQUEST, UsernameTaken)
    ensures r.Done? <==>
      FindByEmail(users, email).None? && !UsernameHeld(users, username)
      && SatisfiesSchema(NewUser(newId, username, email, password, now))
    ensures r.Done? ==>
      && r.status == CREATED && r.data.1.user == newId
      && |r.data.1.code| == 6 && AllDigits(r.data.1.code)
      && |r.data.0| == |users| + 1
      && r.data.0[|users|] == Save(NewUser(newId, username, email, password, now), true).(
           emailVerificationToken := Some(r.data.1.code),
           emailVerificationExpires := Some(now + CodeLifetime))
      && forall j :: 0 <= j < |users| && users[j].id != newId ==> r.data.0[j] == users[j]
  {
    if FindByEmail(users, email).Some? then Fail(BAD_REQUEST, EmailTaken)
    else if UsernameHeld(users, username) then Fail(BAD_REQUEST, UsernameTaken)
    else
      var created := NewUser(newId, username, email, password, now);
      if !SatisfiesSchema(created) then Fail(SERVER_ERROR, RegisterError)
      else
        var stored := users + [Save(created, true)];
        var issued := CreateEmailVerificationToken(stored, newId, draw, now);
        Done(CREATED, (issued.0, Registration(newId, issued.1)))
  }

  /** `POST /login`: an unknown e-mail, a deactivated account and a wrong password are
      all 401; a successful login records the time. */
  function Login(users: seq<User>, email: string, password: string, now: nat): (r: Reply<(seq<User>, Id)>)
    ensures FindByEmail(users, email).None? ==> r == Fail(UNAUTHORIZED, InvalidCredentials)
    ensures FindByEmail(users, email).Some? && !users[FindByEmail(users, email).value].isActive ==>
      r == Fail(UNAUTHORIZED, Deactivated)
    ensures FindByEmail(users, email).Some? && users[FindByEmail(users, email).value].isActive
            && !ComparePassword(password, users[FindByEmail(users, email).value].password) ==>
      r == Fail(UNAUTHORIZED, InvalidCredentials)
    ensures r.Fail? ==> r.status == UNAUTHORIZED
    ensures r.Done? <==>
      FindByEmail(users, email).Some? && users[FindByEmail(users, email).value].isActive
      && ComparePassword(password, users[FindByEmail(users, email).value].password)
    ensures r.Done? ==>
      var k := FindByEmail(users, email).value;
      && r.status == OK && r.data.1 == users[k].id && |r.data.0| == |users|
      && r.data.0[k] == users[k].(lastLogin := now)
      && forall j :: 0 <= j < |users| && j != k ==> r.data.0[j] == users[j]
  {
    match FindByEmail(users, email)
    case None => Fail(UNAUTHORIZED, InvalidCredentials)
    case Some(k) =>
      var u := users[k];
      if !u.isActive then Fail(UNAUTHORIZED, Deactivated)
      else if !ComparePassword(password, u.password) then Fail(UNAUTHORIZED, InvalidCredentials)
      else Done(OK, (users[k := Save(u.(lastLogin := now), false)], u.id))
  }

  /** `GET /profile`: the caller's document, or `null` when the account is gone (the
      route still answers 200). */
  function GetProfile(users: seq<User>, caller: Id): (r: Reply<Option<User>>)
    ensures r.Done? && r.status == OK
    ensures r.data.Some? <==> UserExists(users, caller)
    ensures r.data.Some? ==> r.data.value in users && r.data.value.id == caller
  {
    match FindUser(users, caller)
    case None => Done(OK, None)
    case Some(k) => Done(OK, Some(users[k]))
  }

  /** A truthy `username` in the profile update. */
  predicate GivenName(username: Option<string>) {
    username.Some? && username.value != ""
  }

  /** Another user than the caller holds the name: the `_id: { $ne }` lookup. */
  predicate NameHeldByOther(users: seq<User>, caller: Id, name: string) {
    exists j :: 0 <= j < |users| && users[j].id != caller && users[j].username == StoredUsername(name)
  }

  /** The `updateData` of a profile update applied to a user. `profilePicture` is
      `None` when the body leaves it `undefined` and `Some(null)` when it sends null. */
  function ProfileChange(u: User, username: Option<string>, profilePicture: Option<Option<string>>): (r: User)
    ensures r.(username := u.username, profilePicture := u.profilePicture) == u
    ensures r.username == (if GivenName(username) then StoredUsername(username.value) else u.username)
    ensures r.profilePicture == (if profilePicture.Some? then profilePicture.value else u.profilePicture)
  {
    u.(username := if GivenName(username) then StoredUsername(username.value) else u.username,
       profilePicture := if profilePicture.Some? then profilePicture.value else u.profilePicture)
  }

  /** `PUT /profile`: a truthy username is refused when another user holds it and is
      otherwise validated by the update; `profilePicture` changes only when the body
      has the field. The answer holds the updated document, or `null` when the caller's
      account is gone. */
  function UpdateProfile(users: seq<User>, caller: Id, username: Option<string>,
                         profilePicture: Option<Option<string>>): (r: Reply<(seq<User>, Option<User>)>)
    ensures GivenName(username) && NameHeldByOther(users, caller, username.value) ==>
      r == Fail(BAD_REQUEST, UsernameTaken)
    ensures r.Fail? && r.status == BAD_REQUEST ==> GivenName(username) && NameHeldByOther(users, caller, username.value)
    ensures GivenName(username) && !NameHeldByOther(users, caller, username.value)
            && !(UsernameMinLength <= Utf16Length(StoredUsername(username.value)) <= UsernameMaxLength) ==>
      r == Fail(SERVER_ERROR, ProfileUpdateError)
    ensures r.Done? <==>
      GivenName(username) ==>
        && !NameHeldByOther(users, caller, username.value)
        && UsernameMinLength <= Utf16Length(StoredUsername(username.value)) <= UsernameMaxLength
    ensures r.Done? ==> r.status == OK && |r.data.0| == |users|
    ensures r.Done? ==> forall j :: 0 <= j < |users| ==>
      r.data.0[j] == if users[j].id == caller then ProfileChange(users[j], username, profilePicture) else users[j]
    ensures r.Done? ==> (r.data.1.Some? <==> UserExists(users, caller))
    ensures r.Done? && UserExists(users, caller) ==>
      var k := FindUser(users, caller).value;
      r.data.1 == Some(r.data.0[k]) && r.data.0[k] == ProfileChange(users[k], username, profilePicture)
    ensures r.Done? && GivenName(username) ==>
      UsernameMinLength <= Utf16Length(StoredUsername(username.value)) <= UsernameMaxLength
  {
    if GivenName(username) && NameHeldByOther(users, caller, username.value) then
      Fail(BAD_REQUEST, UsernameTaken)
    else if GivenName(username) &&
            !(UsernameMinLength <= Utf16Length(StoredUsername(username.value)) <= UsernameMaxLength) then
      Fail(SERVER_ERROR, ProfileUpdateError)
    else
      var after := UpdateUser(users, caller, (u: User) => ProfileChange(u, username, profilePicture));
      FindUserSameIds(after, users, caller);
      match FindUser(after, caller)
      case None => Done(OK, (after, None))
      case Some(k) => Done(OK, (after, Some(after[k])))
  }

  /** Usernames held by distinct users stay distinct through a profile update, because
      a name held by another user is refused. */
  lemma ProfileUpdateKeepsNamesUnique(users: seq<User>, caller: Id, username: Option<string>,
                                      profilePicture: Option<Option<string>>)
    requires forall i, j :: 0 <= i < j < |users| ==> users[i].id != users[j].id && users[i].username != users[j].username
    requires UpdateProfile(users, caller, username, profilePicture).Done?
    ensures var after := UpdateProfile(users, caller, username, profilePicture).data.0;
      forall i, j :: 0 <= i < j < |after| ==> after[i].username != after[j].username
  {
    var after := UpdateProfile(users, caller, username, profilePicture).data.0;
    forall i, j | 0 <= i < j < |after| ensures after[i].username != after[j].username {
      if users[i].id == caller && GivenName(username) {
        assert users[j].id != caller;
        assert !NameHeldByOther(users, caller, username.value);
        assert users[j].username != StoredUsername(username.value);
      } else if users[j].id == caller && GivenName(username) {
        assert !NameHeldByOther(users, caller, username.value);
        assert users[i].username != StoredUsername(username.value);
      }
    }
  }

  /** `POST /logout`: records when the caller was last seen. */
  function Logout(users: seq<User>, caller: Id, now: nat): (r: Reply<seq<User>>)
    ensures r.Done? && r.status == OK && |r.data| == |users|
    ensures forall j :: 0 <= j < |users| ==>
      r.data[j] == if users[j].id == caller then users[j].(lastSeen := now) else users[j]
  {
    Done(OK, UpdateUser(users, caller, (u: User) => u.(lastSeen := now)))
  }

  /** `DELETE /account`: the password must be given and match; then the account is
      deleted, and nothing else is (friendships, posts and notifications stay). */
  function DeleteAccount(users: seq<User>, caller: Id, password: Option<string>): (r: Reply<seq<User>>)
    ensures (password.None? || password.value == "") ==> r == Fail(BAD_REQUEST, PasswordRequired)
    ensures password.Some? && password.value != "" && !UserExists(users, caller) ==> r == Fail(NOT_FOUND, UserNotFound)
    ensures r.Done? <==>
      password.Some? && password.value != "" && FindUser(users, caller).Some?
      && ComparePassword(password.value, users[FindUser(users, caller).value].password)
    ensures password.Some? && password.value != "" && FindUser(users, caller).Some?
            && !ComparePassword(password.value, users[FindUser(users, caller).value].password) ==>
      r == Fail(UNAUTHORIZED, InvalidPassword)
    ensures r.Fail? && r.status == UNAUTHORIZED ==> r.message == InvalidPassword
    ensures r.Done? ==> r.status == OK && r.data == RemoveAt(users, FindUser(users, caller).value)
  {
    if password.None? || password.value == "" then Fail(BAD_REQUEST, PasswordRequired)
    else match FindUser(users, caller)
      case None => Fail(NOT_FOUND, UserNotFound)
      case Some(k) =>
        if !ComparePassword(password.value, users[k].password) then Fail(UNAUTHORIZED, InvalidPassword)
        else Done(OK, RemoveAt(users, k))
  }

  /** `POST /change-password`: the current password must match; the new one is hashed
      on save, after the schema's minimum length is checked. */
  function ChangePassword(users: seq<User>, caller: Id, current: string, newPassword: string): (r: Reply<seq<User>>)
    ensures !UserExists(users, caller) ==> r == Fail(NOT_FOUND, UserNotFound)
    ensures UserExists(users, caller) && !ComparePassword(current, users[FindUser(users, caller).value].password) ==>
      r == Fail(UNAUTHORIZED, CurrentPasswordIncorrect)
    ensures r.Done? <==>
      FindUser(users, caller).Some? && ComparePassword(current, users[FindUser(users, caller).value].password)
      && Utf16Length(newPassword) >= PasswordMinLength
    ensures r.Done? ==>
      var k := FindUser(users, caller).value;
      && r.status == OK && |r.data| == |users|
      && r.data[k] == users[k].(password := Hashed(newPassword))
      && forall j :: 0 <= j < |users| && j != k ==> r.data[j] == users[j]
  {
    match FindUser(users, caller)
    case None => Fail(NOT_FOUND, UserNotFound)
    case Some(k) =>
      if !ComparePassword(current, users[k].password) then Fail(UNAUTHORIZED, CurrentPasswordIncorrect)
      else if Utf16Length(newPassword) < PasswordMinLength then Fail(SERVER_ERROR, ChangePasswordError)
      else Done(OK, users[k := Save(users[k].(password := Plain(newPassword)), false)])
  }

  /** `POST /forgot-password`: the answer is the same whether or not the e-mail belongs
      to an account; when it does, the account stores the reset token with a ten-minute
      expiry. */
  function ForgotPassword(users: seq<User>, email: string, token: string, now: nat): (r: Reply<(seq<User>, string)>)
    ensures r.Done? && r.status == OK && r.data.1 == ResetLinkSent
    ensures FindByEmail(users, email).None? ==> r.data.0 == users
    ensures FindByEmail(users, email).Some? ==>
      var k := FindByEmail(users, email).value;
      && |r.data.0| == |users|
      && r.data.0[k] == Save(users[k].(resetPasswordToken := Some(token), resetPasswordExpires := Some(now + CodeLifetime)), false)
      && forall j :: 0 <= j < |users| && j != k ==> r.data.0[j] == users[j]
  {
    match FindByEmail(users, email)
    case None => Done(OK, (users, ResetLinkSent))
    case Some(k) =>
      var u := users[k].(resetPasswordToken := Some(token), resetPasswordExpires := Some(now + CodeLifetime));
      Done(OK, (users[k := Save(u, false)], ResetLinkSent))
  }

  /** A user holding the reset token, unexpired at `now`. */
  predicate HoldsResetToken(u: User, token: string, now: nat) {
    u.resetPasswordToken == Some(token) && u.resetPasswordExpires.Some? && u.resetPasswordExpires.value > now
  }

  /** `POST /reset-password`: the first user holding the token unexpired gets the new
      password, and the token and its expiry are cleared. */
  function ResetPassword(users: seq<User>, token: string, newPassword: string, now: nat): (r: Reply<seq<User>>)
    ensures r.Fail? && r.status == BAD_REQUEST <==> forall j :: 0 <= j < |users| ==> !HoldsResetToken(users[j], token, now)
    ensures r.Fail? && r.status == BAD_REQUEST ==> r.message == InvalidResetToken
    ensures r.Done? <==>
      (exists k :: 0 <= k < |users| && HoldsResetToken(users[k], token, now))
      && Utf16Length(newPassword) >= PasswordMinLength
    ensures r.Fail? && r.status != BAD_REQUEST ==> r == Fail(SERVER_ERROR, ResetError)
    ensures r.Done? ==> r.status == OK && exists k :: (0 <= k < |users| && HoldsResetToken(users[k], token, now)
      && (forall j :: 0 <= j < k ==> !HoldsResetToken(users[j], token, now))
      && r.data == users[k := users[k].(password := Hashed(newPassword),
                                        resetPasswordToken := None, resetPasswordExpires := None)])
  {
    match FindFirst(users, (u: User) => HoldsResetToken(u, token, now))
    case None => Fail(BAD_REQUEST, InvalidResetToken)
    case Some(k) =>
      if Utf16Length(newPassword) < PasswordMinLength then Fail(SERVER_ERROR, ResetError)
      else
        var u := users[k].(password := Plain(newPassword), resetPasswordToken := None, resetPasswordExpires := None);
        Done(OK, users[k := Save(u, false)])
  }

  /** A user holding the verification code, unexpired at `now`. */
  predicate HoldsCode(u: User, code: string, now: nat) {
    u.emailVerificationToken == Some(code) && u.emailVerificationExpires.Some? && u.emailVerificationExpires.value > now
  }

  /** `POST /verify-email`: the first user holding the code unexpired is marked verified,
      and the code and its expiry are cleared. */
  function VerifyEmail(users: seq<User>, code: string, now: nat): (r: Reply<seq<User>>)
    ensures r.Fail? <==> forall j :: 0 <= j < |users| ==> !HoldsCode(users[j], code, now)
    ensures r.Fail? ==> r == Fail(BAD_REQUEST, InvalidCode)
    ensures r.Done? ==> r.status == OK && exists k :: (0 <= k < |users| && HoldsCode(users[k], code, now)
      && (forall j :: 0 <= j < k ==> !HoldsCode(users[j], code, now))
      && r.data == users[k := Save(users[k].(emailVerified := true, emailVerificationToken := None,
                                             emailVerificationExpires := None), false)])
  {
    match FindFirst(users, (u: User) => HoldsCode(u, code, now))
    case None => Fail(BAD_REQUEST, InvalidCode)
    case Some(k) =>
      var u := users[k].(emailVerified := true, emailVerificationToken := None, emailVerificationExpires := None);
      Done(OK, users[k := Save(u, false)])
  }

  /** `POST /send-verification-email`: a fresh code for a caller whose e-mail is not yet
      verified. */
  function SendVerificationEmail(users: seq<User>, caller: Id, draw: nat, now: nat): (r: Reply<(seq<User>, string)>)
    requires draw < 900000
    ensures !UserExists(users, caller) ==> r == Fail(NOT_FOUND, UserNotFound)
    ensures UserExists(users, caller) && users[FindUser(users, caller).value].emailVerified ==>
      r == Fail(BAD_REQUEST, AlreadyVerified)
    ensures r.Done? <==> FindUser(users, caller).Some? && !users[FindUser(users, caller).value].emailVerified
    ensures r.Done? ==> r.status == OK && r == Done(OK, CreateEmailVerificationToken(users, caller, draw, now))
  {
    match FindUser(users, caller)
    case None => Fail(NOT_FOUND, UserNotFound)
    case Some(k) =>
      if users[k].emailVerified then Fail(BAD_REQUEST, AlreadyVerified)
      else Done(OK, CreateEmailVerificationToken(users, caller, draw, now))
  }

  // ---------------------------------------------------------------- the routes with their validators

  /** The register route: `validateRegister`, then the handler on the trimmed username
      and the normalized e-mail. */
  function RegisterRoute(users: seq<User>, username: Option<string>, email: Option<string>, password: Option<string>,
                         isEmail: string -> bool, normalizeEmail: string -> string,
                         newId: Id, now: nat, draw: nat): (r: Reply<(seq<User>, Registration)>)
    requires draw < 900000
    ensures Validation.RegisterErrors(username, email, password, isEmail) != [] ==>
      r == Fail(BAD_REQUEST, Validation.ValidationFailed)
    ensures Validation.RegisterErrors(username, email, password, isEmail) == [] ==>
      r == Register(users, Trim(Validation.Value(username)), normalizeEmail(Validation.Value(email)),
                    Validation.Value(password), newId, now, draw)
    ensures r.Done? ==> Validation.RegisterErrors(username, email, password, isEmail) == []
  {
    Validation.Gate(Validation.RegisterErrors(username, email, password, isEmail),
      Register(users, Trim(Validation.Value(username)), normalizeEmail(Validation.Value(email)),
               Validation.Value(password), newId, now, draw))
  }

  /** The login route: `validateLogin`, then the handler on the normalized e-mail. */
  function LoginRoute(users: seq<User>, email: Option<string>, password: Option<string>,
                      isEmail: string -> bool, normalizeEmail: string -> string, now: nat): (r: Reply<(seq<User>, Id)>)
    ensures Validation.LoginErrors(email, password, isEmail) != [] ==>
      r == Fail(BAD_REQUEST, Validation.ValidationFailed)
    ensures Validation.LoginErrors(email, password, isEmail) == [] ==>
      r == Login(users, normalizeEmail(Validation.Value(email)), Validation.Value(password), now)
    ensures r.Done? ==> isEmail(Validation.Value(email)) && password.Some? && password.value != ""
    ensures r.Fail? ==> r.status == BAD_REQUEST || r.status == UNAUTHORIZED
  {
    Validation.Gate(Validation.LoginErrors(email, password, isEmail),
      Login(users, normalizeEmail(Validation.Value(email)), Validation.Value(password), now))
  }

  /** The forgot-password route: `validateForgotPassword`, then the handler. */
  function ForgotPasswordRoute(users: seq<User>, email: Option<string>, isEmail: string -> bool,
                               normalizeEmail: string -> string, token: string, now: nat): (r: Reply<(seq<User>, string)>)
    ensures !isEmail(Validation.Value(email)) ==> r == Fail(BAD_REQUEST, Validation.ValidationFailed)
    ensures isEmail(Validation.Value(email)) ==> r.Done? && r.status == OK && r.data.1 == ResetLinkSent
    ensures isEmail(Validation.Value(email)) ==>
      r == ForgotPassword(users, normalizeEmail(Validation.Value(email)), token, now)
  {
    Validation.Gate(Validation.ForgotPasswordErrors(email, isEmail),
      ForgotPassword(users, normalizeEmail(Validation.Value(email)), token, now))
  }

  /** The change-password route: `validateChangePassword`, then the handler. */
  function ChangePasswordRoute(users: seq<User>, caller: Id, current: Option<string>, newPassword: Option<string>,
                               confirm: Option<string>): (r: Reply<seq<User>>)
    ensures Validation.ChangePasswordErrors(current, newPassword, confirm) != [] ==>
      r == Fail(BAD_REQUEST, Validation.ValidationFailed)
    ensures Validation.ChangePasswordErrors(current, newPassword, confirm) == [] ==>
      r == ChangePassword(users, caller, Validation.Value(current), Validation.Value(newPassword))
    ensures r.Done? ==> confirm == newPassword
  {
    Validation.Gate(Validation.ChangePasswordErrors(current, newPassword, confirm),
      ChangePassword(users, caller, Validation.Value(current), Validation.Value(newPassword)))
  }

  /** The reset-password route: `validateResetPassword`, then the handler. */
  function ResetPasswordRoute(users: seq<User>, token: Option<string>, newPassword: Option<string>,
                              confirm: Option<string>, now: nat): (r: Reply<seq<User>>)
    ensures Validation.ResetPasswordErrors(token, newPassword, confirm) != [] ==>
      r == Fail(BAD_REQUEST, Validation.ValidationFailed)
    ensures Validation.ResetPasswordErrors(token, newPassword, confirm) == [] ==>
      r == ResetPassword(users, Validation.Value(token), Validation.Value(newPassword), now)
    ensures r.Done? ==> confirm == newPassword && Validation.Value(token) != ""
  {
    Validation.Gate(Validation.ResetPasswordErrors(token, newPassword, confirm),
      ResetPassword(users, Validation.Value(token), Validation.Value(newPassword), now))
  }

  /** The verify-email route: `validateEmailVerification` as written, then the handler.
      The chain's numeric check admits a sign or a decimal point, so a code such as
      `+12345` reaches the handler. */
  function VerifyEmailRoute(users: seq<User>, code: Option<string>, now: nat): (r: Reply<seq<User>>)
    ensures Validation.CodeErrorsAsWritten(code) != [] ==> r == Fail(BAD_REQUEST, Validation.ValidationFailed)
    ensures Validation.CodeErrorsAsWritten(code) == [] ==> r == VerifyEmail(users, Validation.Value(code), now)
  {
    Validation.Gate(Validation.CodeErrorsAsWritten(code), VerifyEmail(users, Validation.Value(code), now))
  }

  /** The verify-email route with the chain read as the messages describe it: only six
      decimal digits reach the handler. */
  function VerifyEmailRouteCorrected(users: seq<User>, code: Option<string>, now: nat): (r: Reply<seq<User>>)
    ensures !Validation.ValidCode(Validation.Value(code)) ==> r == Fail(BAD_REQUEST, Validation.ValidationFailed)
    ensures Validation.ValidCode(Validation.Value(code)) ==> r == VerifyEmail(users, Validation.Value(code), now)
  {
    Validation.CodeRule(code);
    Validation.Gate(Validation.CodeErrors(code), VerifyEmail(users, Validation.Value(code), now))
  }

  /** Every stored verification code is six digits, as the generator makes them. */
  predicate StoredCodesAreDigits(users: seq<User>) {
    forall j :: 0 <= j < |users| && users[j].emailVerificationToken.Some? ==>
      Validation.ValidCode(users[j].emailVerificationToken.value)
  }

  /** While every stored code is six digits, the route as written and the corrected route
      give the same answer except for the message of a 400: a code only the original
      chain lets through is one no user holds. */
  lemma CorrectionChangesOnlyTheMessage(users: seq<User>, code: Option<string>, now: nat)
    requires StoredCodesAreDigits(users)
    ensures VerifyEmailRoute(users, code, now).Done? <==> VerifyEmailRouteCorrected(users, code, now).Done?
    ensures VerifyEmailRoute(users, code, now).Done? ==>
      VerifyEmailRoute(users, code, now) == VerifyEmailRouteCorrected(users, code, now)
    ensures VerifyEmailRoute(users, code, now).Fail? ==>
      VerifyEmailRoute(users, code, now).status == BAD_REQUEST
      && VerifyEmailRouteCorrected(users, code, now).status == BAD_REQUEST
  {
    if Validation.ValidCode(Validation.Value(code)) {
      Validation.CodeRule(code);
      Validation.CorrectedCodeIsStricter(code);
    }
  }

  /** As written, a signed five-digit code is answered by the handler ("Invalid or
      expired verification code") where the corrected chain answers "Validation
      failed". */
  lemma SignedCodeReachesHandler(users: seq<User>, digits: string, now: nat)
    requires |digits| == 5 && AllDigits(digits)
    requires StoredCodesAreDigits(users)
    ensures VerifyEmailRoute(users, Some(['+'] + digits), now) == Fail(BAD_REQUEST, InvalidCode)
    ensures VerifyEmailRouteCorrected(users, Some(['+'] + digits), now) == Fail(BAD_REQUEST, Validation.ValidationFailed)
  {
    Validation.SignedCodePassesAsWritten(digits);
  }

  /** Registration keeps ids, usernames and e-mails unique: the e-mail and the username
      are checked first, and the new id is fresh. */
  lemma RegisterKeepsKeysUnique(users: seq<User>, username: string, email: string, password: string,
                                newId: Id, now: nat, draw: nat)
    requires draw < 900000
    requires UniqueKeys(users)
    requires forall j :: 0 <= j < |users| ==> users[j].id != newId
    requires Register(users, username, email, password, newId, now, draw).Done?
    ensures UniqueKeys(Register(users, username, email, password, newId, now, draw).data.0)
  {
    var after := Register(users, username, email, password, newId, now, draw).data.0;
    assert forall j :: 0 <= j < |users| ==> after[j] == users[j];
    assert after[|users|].username == StoredUsername(username) && after[|users|].email == StoredEmail(email);
  }

  // ---------------------------------------------------------------- properties

  /** A password that passed the validator is long enough for the schema: the validator
      counts at most as many characters as JavaScript's `length`. */
  lemma ValidatedPasswordFitsSchema(password: Option<string>, field: Validation.Field, lengthMsg: string, patternMsg: string)
    requires Validation.PasswordRuleErrors(password, field, lengthMsg, patternMsg) == []
    ensures Utf16Length(Validation.Value(password)) >= PasswordMinLength
  {
  }

  /** A validated registration never fails the schema: the trimmed username is 3 to 20
      ASCII characters, and the password is long enough. */
  lemma ValidatedRegistrationFitsSchema(username: Option<string>, email: string, password: Option<string>,
                                        newId: Id, now: nat)
    requires Validation.UsernameErrors(username) == []
    requires Validation.PasswordRuleErrors(password, Validation.Password, Validation.PasswordLengthMsg,
                                           Validation.PasswordPatternMsg) == []
    ensures SatisfiesSchema(NewUser(newId, Trim(Validation.Value(username)), email, Validation.Value(password), now))
  {
    var u := Trim(Validation.Value(username));
    Validation.UsernameRule(username);
    TrimIdempotent(Validation.Value(username));
    WordCharsAreOneUnitEach(u);
    ValidatedPasswordFitsSchema(password, Validation.Password, Validation.PasswordLengthMsg,
                                Validation.PasswordPatternMsg);
  }

  /** `[a-zA-Z0-9_]` characters are one UTF-16 unit each. */
  lemma WordCharsAreOneUnitEach(u: string)
    requires AllWordChars(u)
    ensures Utf16Length(u) == |u|
  {
    forall i | 0 <= i < |u| ensures u[i] as int <= 0xFFFF {
      assert IsWordChar(u[i]);
    }
    Utf16LengthOfBmp(u);
  }

  /** A change of password that validation let through never trips the schema, so it
      fails only for a missing account or a wrong current password. */
  lemma ValidatedChangeNeverFailsSchema(users: seq<User>, caller: Id, current: Option<string>,
                                        newPassword: Option<string>, confirm: Option<string>)
    ensures ChangePasswordRoute(users, caller, current, newPassword, confirm).status != SERVER_ERROR
  {
    if Validation.ChangePasswordErrors(current, newPassword, confirm) == [] {
      ValidatedPasswordFitsSchema(newPassword, Validation.NewPassword, Validation.NewPasswordLengthMsg,
                                  Validation.NewPasswordPatternMsg);
    }
  }

  /** After a successful change, the new password is the one that matches, and the old
      one no longer does unless it is the same. */
  lemma ChangedPasswordMatches(users: seq<User>, caller: Id, current: string, newPassword: string, candidate: string)
    requires ChangePassword(users, caller, current, newPassword).Done?
    ensures var after := ChangePassword(users, caller, current, newPassword).data;
      ComparePassword(candidate, after[FindUser(users, caller).value].password) <==> candidate == newPassword
  {
  }

  /** A user who registers can log in at once with the same e-mail and password, when
      the database hands out a fresh id. */
  lemma RegisteredUserCanLogIn(users: seq<User>, username: string, email: string, password: string,
                               newId: Id, now: nat, draw: nat, later: nat)
    requires draw < 900000
    requires forall j :: 0 <= j < |users| ==> users[j].id != newId
    requires Register(users, username, email, password, newId, now, draw).Done?
    ensures Login(Register(users, username, email, password, newId, now, draw).data.0, email, password, later).Done?
  {
    var after := Register(users, username, email, password, newId, now, draw).data.0;
    assert forall j :: 0 <= j < |users| ==> after[j] == users[j];
    assert after[|users|].email == StoredEmail(email);
    assert FindByEmail(after, email) == Some(|users|) by {
      var m := FindByEmail(after, email);
      assert m.Some?;
    }
  }

  /** A reset token works once: a second reset with it fails, as long as no other
      account holds the same token. */
  lemma ResetIsSingleUse(users: seq<User>, token: string, newPassword: string, now: nat, other: string, later: nat)
    requires ResetPassword(users, token, newPassword, now).Done?
    requires forall i, j :: 0 <= i < j < |users| && users[i].resetPasswordToken == Some(token) ==>
      users[j].resetPasswordToken != Some(token)
    ensures ResetPassword(ResetPassword(users, token, newPassword, now).data, token, other, later)
      == Fail(BAD_REQUEST, InvalidResetToken)
  {
    var after := ResetPassword(users, token, newPassword, now).data;
    var k :| 0 <= k < |users| && HoldsResetToken(users[k], token, now)
      && after == users[k := users[k].(password := Hashed(newPassword),
                                       resetPasswordToken := None, resetPasswordExpires := None)];
    forall j | 0 <= j < |after| ensures !HoldsResetToken(after[j], token, later) {
    }
  }

  /** After a successful reset the new password is the one that matches. */
  lemma ResetPasswordMatches(users: seq<User>, token: string, newPassword: string, now: nat, candidate: string, k: nat)
    requires ResetPassword(users, token, newPassword, now).Done?
    requires k < |users| && HoldsResetToken(users[k], token, now)
    requires forall j :: 0 <= j < |users| && j != k ==> !HoldsResetToken(users[j], token, now)
    ensures ComparePassword(candidate, ResetPassword(users, token, newPassword, now).data[k].password)
      <==> candidate == newPassword
  {
  }

  /** A verification code works once: after it verifies an account, it verifies nothing
      else, as long as no other account held the same code. */
  lemma VerificationIsSingleUse(users: seq<User>, code: string, now: nat, later: nat)
    requires VerifyEmail(users, code, now).Done?
    requires forall i, j :: 0 <= i < j < |users| && users[i].emailVerificationToken == Some(code) ==>
      users[j].emailVerificationToken != Some(code)
    ensures VerifyEmail(VerifyEmail(users, code, now).data, code, later) == Fail(BAD_REQUEST, InvalidCode)
  {
    var after := VerifyEmail(users, code, now).data;
    var k :| 0 <= k < |users| && HoldsCode(users[k], code, now)
      && (forall j :: 0 <= j < k ==> !HoldsCode(users[j], code, now))
      && after == users[k := Save(users[k].(emailVerified := true, emailVerificationToken := None,
                                            emailVerificationExpires := None), false)];
    forall j | 0 <= j < |after| ensures !HoldsCode(after[j], code, later) {
    }
  }

  /** A code sent to an account verifies that account within its ten minutes, provided no
      other account holds the same code. */
  lemma SentCodeVerifies(users: seq<User>, caller: Id, draw: nat, now: nat, later: nat)
    requires draw < 900000
    requires SendVerificationEmail(users, caller, draw, now).Done?
    requires now <= later < now + CodeLifetime
    requires forall j :: 0 <= j < |users| && users[j].id != caller ==>
      users[j].emailVerificationToken != Some(SendVerificationEmail(users, caller, draw, now).data.1)
    ensures var sent := SendVerificationEmail(users, caller, draw, now).data;
      var r := VerifyEmail(sent.0, sent.1, later);
      && r.Done?
      && forall j :: 0 <= j < |users| && users[j].id == caller && (forall i :: 0 <= i < j ==> users[i].id != caller) ==>
           r.data[j].emailVerified
  {
    var sent := SendVerificationEmail(users, caller, draw, now).data;
    var k := FindUser(users, caller).value;
    assert HoldsCode(sent.0[k], sent.1, later);
    var r := VerifyEmail(sent.0, sent.1, later);
    var m :| 0 <= m < |users| && HoldsCode(sent.0[m], sent.1, later)
      && (forall j :: 0 <= j < m ==> !HoldsCode(sent.0[j], sent.1, later))
      && r.data == sent.0[m := Save(sent.0[m].(emailVerified := true, emailVerificationToken := None,
                                               emailVerificationExpires := None), false)];
    assert m == k by {
      assert users[m].id == caller;
    }
    assert r.data[k].emailVerified;
  }

  /** A code `createPasswordResetToken` issued resets the account's password within its
      ten minutes, provided no other account holds the same code. */
  lemma IssuedResetCodeResets(users: seq<User>, userId: Id, draw: nat, now: nat, later: nat, newPassword: string)
    requires draw < 900000
    requires UserExists(users, userId)
    requires now <= later < now + CodeLifetime
    requires Utf16Length(newPassword) >= PasswordMinLength
    requires forall j :: 0 <= j < |users| && users[j].id != userId ==>
      users[j].resetPasswordToken != Some(CreatePasswordResetToken(users, userId, draw, now).1)
    ensures var issued := CreatePasswordResetToken(users, userId, draw, now);
      var r := ResetPassword(issued.0, issued.1, newPassword, later);
      && r.Done?
      && r.data[FindUser(users, userId).value].password == Hashed(newPassword)
  {
    var issued := CreatePasswordResetToken(users, userId, draw, now);
    var k := FindUser(users, userId).value;
    assert HoldsResetToken(issued.0[k], issued.1, later);
    var r := ResetPassword(issued.0, issued.1, newPassword, later);
    var m :| 0 <= m < |users| && HoldsResetToken(issued.0[m], issued.1, later)
      && (forall j :: 0 <= j < m ==> !HoldsResetToken(issued.0[j], issued.1, later))
      && r.data == issued.0[m := issued.0[m].(password := Hashed(newPassword),
                                              resetPasswordToken := None, resetPasswordExpires := None)];
    assert users[m].id == userId;
    assert m == k;
  }

  /** The forgot-password answer does not reveal whether the e-mail has an account. */
  lemma ForgotPasswordRevealsNothing(users: seq<User>, email: string, other: seq<User>, otherEmail: string,
                                     token: string, now: nat)
    ensures ForgotPassword(users, email, token, now).status == ForgotPassword(other, otherEmail, token, now).status
    ensures ForgotPassword(users, email, token, now).data.1 == ForgotPassword(other, otherEmail, token, now).data.1
  {
  }

  /** A reset token stored by forgot-password works within its ten minutes, provided no
      earlier account holds the same token. */
  lemma ForgottenPasswordCanBeReset(users: seq<User>, email: string, token: string, now: nat,
                                    newPassword: string, later: nat)
    requires FindByEmail(users, email).Some?
    requires now <= later < now + CodeLifetime
    requires Utf16Length(newPassword) >= PasswordMinLength
    requires forall j :: 0 <= j < |users| ==> users[j].resetPasswordToken != Some(token)
    ensures var after := ForgotPassword(users, email, token, now).data.0;
      var k := FindByEmail(users, email).value;
      && ResetPassword(after, token, newPassword, later).Done?
      && ResetPassword(after, token, newPassword, later).data[k].password == Hashed(newPassword)
  {
    var after := ForgotPassword(users, email, token, now).data.0;
    var k := FindByEmail(users, email).value;
    assert HoldsResetToken(after[k], token, later);
    var r := ResetPassword(after, token, newPassword, later);
    var m :| 0 <= m < |after| && HoldsResetToken(after[m], token, later)
      && r.data == after[m := after[m].(password := Hashed(newPassword),
                                        resetPasswordToken := None, resetPasswordExpires := None)];
    assert m == k;
  }

  /** After deleting the account, no user has the caller's id, provided ids were
      unique. */
  lemma DeletedAccountIsGone(users: seq<User>, caller: Id, password: Option<string>)
    requires DeleteAccount(users, caller, password).Done?
    requires forall i, j :: 0 <= i < j < |users| ==> users[i].id != users[j].id
    ensures !UserExists(DeleteAccount(users, caller, password).data, caller)
  {
    var k := FindUser(users, caller).value;
    var after := DeleteAccount(users, caller, password).data;
    forall j | 0 <= j < |after| ensures after[j].id != caller {
      if j < k {
        assert after[j] == users[j];
      } else {
        assert after[j] == users[j + 1];
      }
    }
  }
}

=== FILE: avatar.dfy ===
/** The avatar routes of routes/user.js (`/api/user/avatar`): a URL stored as the caller's
    profile picture, and its removal. The URL check (`isURL`) is a parameter. */
module Avatar {
  import opened Wrappers
  import opened Table
  import opened Http
  import opened UserModel

  // The `message` fields of the answers. An invalid URL is answered with the validator's
  // error list, whose one message is `InvalidAvatarUrl`.
  const InvalidAvatarUrl := "Avatar URL is required and must be a valid URL"
  const UserNotFound := "User not found."
  const NoAvatar := "No avatar to delete."

  /** The caller's avatar is set: `profilePicture` is truthy. */
  predicate HasAvatar(u: User) {
    u.profilePicture.Some? && u.profilePicture.value != ""
  }

  /** `POST /avatar`: a valid URL becomes the caller's profile picture, nothing else of
      any user changes. An absent `avatarUrl` reads as the empty string, which is no URL. */
  function SetAvatar(users: seq<User>, caller: Id, avatarUrl: Option<string>, isUrl: string -> bool): (r: Reply<seq<User>>)
    ensures !isUrl(avatarUrl.GetOr("")) ==> r == Fail(BAD_REQUEST, InvalidAvatarUrl)
    ensures isUrl(avatarUrl.GetOr("")) && !UserExists(users, caller) ==> r == Fail(NOT_FOUND, UserNotFound)
    ensures r.Done? <==> isUrl(avatarUrl.GetOr("")) && UserExists(users, caller)
    ensures r.Done? ==>
      var k := FindUser(users, caller).value;
      && r.status == OK && |r.data| == |users|
      && r.data[k].profilePicture == avatarUrl
      && r.data[k].(profilePicture := users[k].profilePicture) == Save(users[k], false)
      && forall j :: 0 <= j < |users| && j != k ==> r.data[j] == users[j]
  {
    if !isUrl(avatarUrl.GetOr("")) then Fail(BAD_REQUEST, InvalidAvatarUrl)
    else match FindUser(users, caller)
      case None => Fail(NOT_FOUND, UserNotFound)
      case Some(k) => Done(OK, users[k := Save(users[k].(profilePicture := avatarUrl), false)])
  }

  /** `DELETE /avatar`: a set avatar is cleared to `null`; a caller without one is told
      there is nothing to delete. */
  function DeleteAvatar(users: seq<User>, caller: Id): (r: Reply<seq<User>>)
    ensures !UserExists(users, caller) ==> r == Fail(NOT_FOUND, UserNotFound)
    ensures UserExists(users, caller) && !HasAvatar(users[FindUser(users, caller).value]) ==>
      r == Fail(BAD_REQUEST, NoAvatar)
    ensures r.Done? <==> FindUser(users, caller).Some? && HasAvatar(users[FindUser(users, caller).value])
    ensures r.Done? ==>
      var k := FindUser(users, caller).value;
      && r.status == OK && |r.data| == |users|
      && !HasAvatar(r.data[k]) && r.data[k].profilePicture.None?
      && r.data[k].(profilePicture := users[k].profilePicture) == Save(users[k], false)
      && forall j :: 0 <= j < |users| && j != k ==> r.data[j] == users[j]
  {
    match FindUser(users, caller)
    case None => Fail(NOT_FOUND, UserNotFound)
    case Some(k) =>
      if !HasAvatar(users[k]) then Fail(BAD_REQUEST, NoAvatar)
      else Done(OK, users[k := Save(users[k].(profilePicture := None), false)])
  }

  /** Deleting an avatar twice: the second call finds nothing to delete. */
  lemma SecondDeleteFindsNoAvatar(users: seq<User>, caller: Id)
    requires DeleteAvatar(users, caller).Done?
    ensures DeleteAvatar(DeleteAvatar(users, caller).data, caller) == Fail(BAD_REQUEST, NoAvatar)
  {
    var k := FindUser(users, caller).value;
    var after := DeleteAvatar(users, caller).data;
    assert FindUser(after, caller) == Some(k) by {
      assert after[k].id == caller;
      forall j | 0 <= j < k ensures after[j].id != caller {
        assert after[j] == users[j];
      }
    }
  }

  /** A non-empty URL that was set can be deleted, and the delete undoes the set up to the
      picture, which ends up `null` rather than its former value. */
  lemma SetThenDelete(users: seq<User>, caller: Id, url: string, isUrl: string -> bool)
    requires url != ""
    requires SetAvatar(users, caller, Some(url), isUrl).Done?
    ensures var stored := SetAvatar(users, caller, Some(url), isUrl).data;
      var k := FindUser(users, caller).value;
      && DeleteAvatar(stored, caller).Done?
      && DeleteAvatar(stored, caller).data == users[k := Save(users[k].(profilePicture := None), false)]
  {
    var k := FindUser(users, caller).value;
    var stored := SetAvatar(users, caller, Some(url), isUrl).data;
    assert FindUser(stored, caller) == Some(k) by {
      assert stored[k].id == caller;
      forall j | 0 <= j < k ensures stored[j].id != caller {
        assert stored[j] == users[j];
      }
    }
  }
}

=== FILE: friends_routes.dfy ===
/** The routes of routes/friends.js (`/api/friends`), which work on the friendship
    records directly instead of through the static methods. Unlike those, a new request
    is allowed when the pair's first record was declined or blocked, and deleting a
    record pulls the friends arrays only when it was accepted. */
module FriendsRoutes {
  import opened Wrappers
  import opened Table
  import opened Text
  import opened Pagination
  import opened Http
  import opened UserModel
  import opened FriendshipModel

  const DefaultLimit := 20

  // The `message` fields of the answers.
  const RecipientRequired := "Recipient ID is required"
  const UserNotFound := "User not found"
  const SendError := "Server error sending friend request"
  const SelfRequestRefused := "Cannot send friend request to yourself"
  const AlreadyFriends := "You are already friends with this user"
  const AlreadySent := "Friend request already sent"
  const RequestNotFound := "Friend request not found"
  const NotYourRequest := "You can only accept requests sent to you"
  const RequestNotPending := "Friend request is not pending"
  const AcceptError := "Server error accepting friend request"
  const FetchError := "Server error fetching friends"
  const FriendshipNotFound := "Friendship not found"
  const NotInvolved := "You are not authorized to modify this friendship"
  const RemoveError := "Server error removing friend"

  /** What `POST /api/friends/request` demands before it creates a record. */
  predicate RequestAllowed(s: Social, caller: Id, t: Id, message: Option<string>) {
    && FindUser(s.users, t).Some? && caller != t
    && (FindPair(s.friendships, caller, t).None? ||
        !s.friendships[FindPair(s.friendships, caller, t).value].status.Live())
    && Utf16Length(RequestText(message)) <= RequestMessageMaxLength
    && FindDirected(s.friendships, caller, t).None?
  }

  /** `POST /api/friends/request`. The recipient must exist and differ from the caller,
      and the pair's first record, if any, must be neither accepted nor pending. The
      schema then rejects a message over 200 units, and the unique index on
      (requester, recipient) rejects a second record in the same direction; both end in
      the catch-all 500. */
  function SendRequest(s: Social, caller: Id, recipientId: RawId, message: Option<string>,
                       newId: Id, now: nat): (r: Reply<(Social, Friendship)>)
    ensures recipientId.Missing? ==> r == Fail(BAD_REQUEST, RecipientRequired)
    ensures recipientId.Malformed? ==> r.Fail? && r.status == SERVER_ERROR
    ensures recipientId.Given? && FindUser(s.users, recipientId.id).None? ==> r == Fail(NOT_FOUND, UserNotFound)
    ensures recipientId.Given? && FindUser(s.users, recipientId.id).Some? && recipientId.id == caller ==>
      r == Fail(BAD_REQUEST, SelfRequestRefused)
    ensures recipientId.Given? && FindUser(s.users, recipientId.id).Some? && recipientId.id != caller
            && FindPair(s.friendships, caller, recipientId.id).Some? ==>
      var first := s.friendships[FindPair(s.friendships, caller, recipientId.id).value];
      && (first.status == Accepted ==> r == Fail(BAD_REQUEST, AlreadyFriends))
      && (first.status == Pending ==> r == Fail(BAD_REQUEST, AlreadySent))
    ensures recipientId.Given? && FindUser(s.users, recipientId.id).Some? && recipientId.id != caller
            && (FindPair(s.friendships, caller, recipientId.id).None? ||
                !s.friendships[FindPair(s.friendships, caller, recipientId.id).value].status.Live()) ==>
      (r == Fail(SERVER_ERROR, SendError) <==>
         Utf16Length(RequestText(message)) > RequestMessageMaxLength
         || FindDirected(s.friendships, caller, recipientId.id).Some?)
    ensures r.Done? <==> recipientId.Given? && RequestAllowed(s, caller, recipientId.id, message)
    ensures r.Done? ==>
      && r.status == CREATED
      && r.data.1 == Friendship(newId, caller, recipientId.id, Pending, RequestText(message), now, now)
      && r.data.0 == Social(s.users, s.friendships + [r.data.1])
  {
    match recipientId
    case Missing => Fail(BAD_REQUEST, RecipientRequired)
    case Malformed => Fail(SERVER_ERROR, SendError)
    case Given(t) =>
      if FindUser(s.users, t).None? then Fail(NOT_FOUND, UserNotFound)
      else if caller == t then Fail(BAD_REQUEST, SelfRequestRefused)
      else
        var existing := FindPair(s.friendships, caller, t);
        if existing.Some? && s.friendships[existing.value].status.Accepted? then
          Fail(BAD_REQUEST, AlreadyFriends)
        else if existing.Some? && s.friendships[existing.value].status.Pending? then
          Fail(BAD_REQUEST, AlreadySent)
        else
          var text := RequestText(message);
          if Utf16Length(text) > RequestMessageMaxLength then
            Fail(SERVER_ERROR, SendError)
          else if FindDirected(s.friendships, caller, t).Some? then
            Fail(SERVER_ERROR, SendError)
          else
            var f := Friendship(newId, caller, t, Pending, text, now, now);
            Done(CREATED, (s.(friendships := s.friendships + [f]), f))
  }

  /** `POST /api/friends/accept/:id`: the same writes as `acceptFriendship`, with its own
      statuses: 404, 403 for a caller who is not the recipient, 400 when not pending. */
  function Accept(s: Social, caller: Id, id: PathId, now: nat): (r: Reply<(Social, Friendship)>)
    ensures id.NotAnId? ==> r.Fail? && r.status == SERVER_ERROR
    ensures id.AnId? ==>
      match FindById(s.friendships, id.id)
      case None => r == Fail(NOT_FOUND, RequestNotFound)
      case Some(k) =>
        if s.friendships[k].recipient != caller then r == Fail(FORBIDDEN, NotYourRequest)
        else if s.friendships[k].status != Pending then r == Fail(BAD_REQUEST, RequestNotPending)
        else r == Done(OK, ApplyAccept(s, k, now))
    ensures r.Done? <==> id.AnId? && AcceptFriendship(s, id.id, caller, now).Ok?
    ensures r.Done? ==> r.data == AcceptFriendship(s, id.id, caller, now).value
  {
    match id
    case NotAnId => Fail(SERVER_ERROR, AcceptError)
    case AnId(fid) =>
      match FindById(s.friendships, fid)
      case None => Fail(NOT_FOUND, RequestNotFound)
      case Some(k) =>
        var f := s.friendships[k];
        if f.recipient != caller then Fail(FORBIDDEN, NotYourRequest)
        else if f.status != Pending then Fail(BAD_REQUEST, RequestNotPending)
        else Done(OK, ApplyAccept(s, k, now))
  }

  /** One entry of the friends listing: the friend, the record's id, and the record's
      `updatedAt` as `friendsSince`. */
  datatype FriendEntry = FriendEntry(friend: Id, friendshipId: Id, friendsSince: nat)

  /** A record whose entry cannot be built: its requester populates to `null` (reading
      `requester._id` throws), or the caller is the requester and the recipient
      populates to `null` (`friend.toObject()` throws). */
  predicate Dangling(users: seq<User>, caller: Id, f: Friendship) {
    FindUser(users, f.requester).None? || (f.requester == caller && FindUser(users, f.recipient).None?)
  }

  /** The entries of one page, or `None` when one of its records is dangling. */
  function Entries(users: seq<User>, caller: Id, page: seq<Friendship>): (r: Option<seq<FriendEntry>>)
    ensures r.None? <==> exists j :: 0 <= j < |page| && Dangling(users, caller, page[j])
    ensures r.Some? ==> |r.value| == |page|
    ensures r.Some? ==> forall j :: 0 <= j < |page| ==>
      r.value[j] == FriendEntry(OtherParty(page[j], caller), page[j].id, page[j].updatedAt)
    decreases |page|
  {
    if |page| == 0 then Some([])
    else if Dangling(users, caller, page[0]) then None
    else
      var rest := Entries(users, caller, page[1..]);
      assert forall j :: 1 <= j < |page| ==> page[j] == page[1..][j - 1];
      if rest.None? then None
      else Some([FriendEntry(OtherParty(page[0], caller), page[0].id, page[0].updatedAt)] + rest.value)
  }

  /** `GET /api/friends`: one page of the caller's accepted records, each shown as the
      other party. A negative skip, or a dangling record on the page, ends in 500. */
  function List(s: Social, caller: Id, page: Option<int>, limit: Option<int>): (r: Reply<Listing<FriendEntry>>)
    ensures var p, l := ParamOr(page, 1), ParamOr(limit, DefaultLimit);
      && (Skip(p, l) < 0 ==> r.Fail? && r.status == SERVER_ERROR)
      && (r.Done? <==>
            (Skip(p, l) >= 0 &&
             Entries(s.users, caller, Paginate(AcceptedOf(s.friendships, caller), p, l).value.items).Some?))
      && (r.Done? ==>
            r.data.items == Entries(s.users, caller, Paginate(AcceptedOf(s.friendships, caller), p, l).value.items).value)
      && (r.Done? ==>
            && r.status == OK
            && r.data.page == p
            && r.data.total == |AcceptedOf(s.friendships, caller)|
            && r.data.pages == CeilDiv(r.data.total, l))
    ensures r.Done? ==> forall e :: e in r.data.items ==>
      exists k :: 0 <= k < |s.friendships| && s.friendships[k].status == Accepted
        && Involves(s.friendships[k], caller)
        && e == FriendEntry(OtherParty(s.friendships[k], caller), s.friendships[k].id, s.friendships[k].updatedAt)
    ensures r.Fail? ==> r == Fail(SERVER_ERROR, FetchError)
  {
    var p, l := ParamOr(page, 1), ParamOr(limit, DefaultLimit);
    var matches := AcceptedOf(s.friendships, caller);
    match Paginate(matches, p, l)
    case None => Fail(SERVER_ERROR, FetchError)
    case Some(listing) =>
      match Entries(s.users, caller, listing.items)
      case None => Fail(SERVER_ERROR, FetchError)
      case Some(entries) =>
        assert forall j :: 0 <= j < |listing.items| ==> listing.items[j] in matches;
        PageEntriesAccepted(s.friendships, caller, listing.items, entries);
        Done(OK, Listing(entries, listing.page, listing.pages, listing.total))
  }

  /** Every entry built from accepted records involving the caller shows one of them. */
  lemma PageEntriesAccepted(fs: seq<Friendship>, caller: Id, items: seq<Friendship>, entries: seq<FriendEntry>)
    requires forall j :: 0 <= j < |items| ==> items[j] in AcceptedOf(fs, caller)
    requires |entries| == |items|
    requires forall j :: 0 <= j < |items| ==>
      entries[j] == FriendEntry(OtherParty(items[j], caller), items[j].id, items[j].updatedAt)
    ensures forall e :: e in entries ==>
      exists k :: 0 <= k < |fs| && fs[k].status == Accepted && Involves(fs[k], caller)
        && e == FriendEntry(OtherParty(fs[k], caller), fs[k].id, fs[k].updatedAt)
  {
    forall e | e in entries
      ensures exists k :: 0 <= k < |fs| && fs[k].status == Accepted && Involves(fs[k], caller)
                && e == FriendEntry(OtherParty(fs[k], caller), fs[k].id, fs[k].updatedAt)
    {
      var j :| 0 <= j < |entries| && entries[j] == e;
      assert items[j] in AcceptedOf(fs, caller);
      var k :| 0 <= k < |fs| && fs[k] == items[j];
    }
  }

  /** `GET /api/friends/requests`: the pending records addressed to the caller, with their
      count. */
  function Requests(s: Social, caller: Id): (r: Reply<(seq<Friendship>, nat)>)
    ensures r.Done? && r.status == OK
    ensures forall f :: f in r.data.0 <==> f in s.friendships && f.recipient == caller && f.status == Pending
    ensures r.data.1 == |r.data.0|
  {
    var requests := PendingReceived(s.friendships, caller);
    Done(OK, (requests, |requests|))
  }

  /** `DELETE /api/friends/:id`: either party deletes a record of any status; an accepted
      one is first pulled from both friends arrays. */
  function Delete(s: Social, caller: Id, id: PathId): (r: Reply<Social>)
    ensures id.NotAnId? ==> r.Fail? && r.status == SERVER_ERROR
    ensures id.AnId? && FindById(s.friendships, id.id).None? ==> r == Fail(NOT_FOUND, FriendshipNotFound)
    ensures r.Done? <==>
      id.AnId? && exists k :: FindById(s.friendships, id.id) == Some(k) && Involves(s.friendships[k], caller)
    ensures r.Done? ==>
      var k := FindById(s.friendships, id.id).value;
      var f := s.friendships[k];
      && r.data.friendships == RemoveAt(s.friendships, k)
      && (f.status != Accepted ==> r.data.users == s.users)
      && (f.status == Accepted ==>
            r.data.users == PullFriend(PullFriend(s.users, f.requester, f.recipient), f.recipient, f.requester))
    ensures r.Fail? && id.AnId? && FindById(s.friendships, id.id).Some? ==>
      r == Fail(FORBIDDEN, NotInvolved)
  {
    match id
    case NotAnId => Fail(SERVER_ERROR, RemoveError)
    case AnId(fid) =>
      match FindById(s.friendships, fid)
      case None => Fail(NOT_FOUND, FriendshipNotFound)
      case Some(k) =>
        var f := s.friendships[k];
        if !Involves(f, caller) then Fail(FORBIDDEN, NotInvolved)
        else
          var users := if f.status == Accepted then
            PullFriend(PullFriend(s.users, f.requester, f.recipient), f.recipient, f.requester)
          else s.users;
          Done(OK, Social(users, RemoveAt(s.friendships, k)))
  }

  // ---------------------------------------------------------------- the listings after a write

  /** A request just sent shows up last in the recipient's pending requests, and the
      count grows by one. */
  lemma SentRequestIsListed(s: Social, caller: Id, recipient: Id, message: Option<string>, newId: Id, now: nat)
    requires SendRequest(s, caller, Given(recipient), message, newId, now).Done?
    ensures var sent := SendRequest(s, caller, Given(recipient), message, newId, now).data;
      && Requests(sent.0, recipient).data.0 == Requests(s, recipient).data.0 + [sent.1]
      && Requests(sent.0, recipient).data.1 == Requests(s, recipient).data.1 + 1
  {
    var sent := SendRequest(s, caller, Given(recipient), message, newId, now).data;
    SelectAppend(s.friendships, sent.1, (f: Friendship) => f.recipient == recipient && f.status == Pending);
  }

  /** Accepting a request adds exactly one record to each party's friends listing: the
      total the listing reports grows by one for both. */
  lemma AcceptAddsOneFriendEach(s: Social, caller: Id, id: Id, now: nat, u: Id)
    requires Accept(s, caller, AnId(id), now).Done?
    requires Involves(s.friendships[FindById(s.friendships, id).value], u)
    ensures |AcceptedOf(Accept(s, caller, AnId(id), now).data.0.friendships, u)| == |AcceptedOf(s.friendships, u)| + 1
  {
    var k := FindById(s.friendships, id).value;
    var g := s.friendships[k].(status := Accepted, updatedAt := now);
    SelectUpdate(s.friendships, k, g, (f: Friendship) => f.status == Accepted && Involves(f, u));
  }
}

=== FILE: friendship_invariants.dfy ===
/** What the static methods of models/Friendship.js keep true of the two collections: no
    record joins a user to themself, ids are unique, at most one record joins a pair, and
    every user's `friends` array holds exactly the users an accepted record joins them
    to. */
module FriendshipInvariants {
  import opened Wrappers
  import opened Table
  import opened Text
  import opened UserModel
  import opened FriendshipModel

  ghost predicate NoSelf(fs: seq<Friendship>) {
    forall k :: 0 <= k < |fs| ==> fs[k].requester != fs[k].recipient
  }

  ghost predicate UniqueIds(fs: seq<Friendship>) {
    forall j, k :: 0 <= j < k < |fs| ==> fs[j].id != fs[k].id
  }

  /** No two records join the same pair, in either direction. */
  ghost predicate UniquePairs(fs: seq<Friendship>) {
    forall j, k :: 0 <= j < |fs| && 0 <= k < |fs| && j != k ==>
      !Links(fs[j], fs[k].requester, fs[k].recipient)
  }

  /** Every `friends` array lists exactly the users an accepted record joins its owner to. */
  ghost predicate Mirror(s: Social) {
    forall i, v: Id :: 0 <= i < |s.users| ==>
      (v in s.users[i].friends <==> AreFriends(s.friendships, s.users[i].id, v))
  }

  ghost predicate Consistent(s: Social) {
    && NoSelf(s.friendships)
    && UniqueIds(s.friendships)
    && UniquePairs(s.friendships)
    && Mirror(s)
  }

  /** No record carries the id. */
  ghost predicate FreshId(fs: seq<Friendship>, id: Id) {
    forall k :: 0 <= k < |fs| ==> fs[k].id != id
  }

  // ---------------------------------------------------------------- the friend relation under edits

  lemma AreFriendsReplace(fs: seq<Friendship>, k: nat, g: Friendship, a: Id, b: Id)
    requires k < |fs|
    ensures AreFriends(fs[k := g], a, b) <==>
      FriendsBesides(fs, k, a, b) || (g.status == Accepted && Links(g, a, b))
  {
    var fs' := fs[k := g];
    if AreFriends(fs', a, b) && !(g.status == Accepted && Links(g, a, b)) {
      var j :| 0 <= j < |fs'| && fs'[j].status == Accepted && Links(fs'[j], a, b);
      assert j != k && fs[j] == fs'[j];
    }
    if FriendsBesides(fs, k, a, b) {
      var j :| 0 <= j < |fs| && j != k && fs[j].status == Accepted && Links(fs[j], a, b);
      assert fs'[j] == fs[j];
    }
    if g.status == Accepted && Links(g, a, b) {
      assert fs'[k] == g;
    }
  }

  lemma AreFriendsSplit(fs: seq<Friendship>, k: nat, a: Id, b: Id)
    requires k < |fs|
    ensures AreFriends(fs, a, b) <==>
      FriendsBesides(fs, k, a, b) || (fs[k].status == Accepted && Links(fs[k], a, b))
  {
    assert fs[k := fs[k]] == fs;
    AreFriendsReplace(fs, k, fs[k], a, b);
  }

  lemma AreFriendsRemoveAt(fs: seq<Friendship>, k: nat, a: Id, b: Id)
    requires k < |fs|
    ensures AreFriends(RemoveAt(fs, k), a, b) <==> FriendsBesides(fs, k, a, b)
  {
    var fs' := RemoveAt(fs, k);
    if AreFriends(fs', a, b) {
      var j :| 0 <= j < |fs'| && fs'[j].status == Accepted && Links(fs'[j], a, b);
      if j < k {
        assert fs[j] == fs'[j];
      } else {
        assert fs[j + 1] == fs'[j];
      }
    }
    if FriendsBesides(fs, k, a, b) {
      var j :| 0 <= j < |fs| && j != k && fs[j].status == Accepted && Links(fs[j], a, b);
      if j < k {
        assert fs'[j] == fs[j];
      } else {
        assert fs'[j - 1] == fs[j];
      }
    }
  }

  lemma AreFriendsAppend(fs: seq<Friendship>, g: Friendship, a: Id, b: Id)
    ensures AreFriends(fs + [g], a, b) <==> AreFriends(fs, a, b) || (g.status == Accepted && Links(g, a, b))
  {
    var fs' := fs + [g];
    if AreFriends(fs', a, b) && !(g.status == Accepted && Links(g, a, b)) {
      var j :| 0 <= j < |fs'| && fs'[j].status == Accepted && Links(fs'[j], a, b);
      assert j < |fs| && fs[j] == fs'[j];
    }
    if AreFriends(fs, a, b) {
      var j :| 0 <= j < |fs| && fs[j].status == Accepted && Links(fs[j], a, b);
      assert fs'[j] == fs[j];
    }
    if g.status == Accepted && Links(g, a, b) {
      assert fs'[|fs|] == g;
    }
  }

  /** Removing a record keeps the per-record invariants. */
  lemma RemoveAtKeepsShape(fs: seq<Friendship>, k: nat)
    requires k < |fs|
    requires NoSelf(fs) && UniqueIds(fs) && UniquePairs(fs)
    ensures var fs' := RemoveAt(fs, k); NoSelf(fs') && UniqueIds(fs') && UniquePairs(fs')
  {
    var fs' := RemoveAt(fs, k);
    assert forall j :: 0 <= j < |fs'| ==> fs'[j] == fs[if j < k then j else j + 1];
  }

  /** Changing only a record's status and timestamp keeps the per-record invariants. */
  lemma RestatusKeepsShape(fs: seq<Friendship>, k: nat, g: Friendship)
    requires k < |fs| && g.id == fs[k].id && g.requester == fs[k].requester && g.recipient == fs[k].recipient
    requires NoSelf(fs) && UniqueIds(fs) && UniquePairs(fs)
    ensures var fs' := fs[k := g]; NoSelf(fs') && UniqueIds(fs') && UniquePairs(fs')
  {
  }

  // ---------------------------------------------------------------- each static method keeps the invariant

  /** Appending a record that joins two distinct users no record joins yet, under a
      fresh id, keeps the per-record invariants. */
  lemma AppendKeepsShape(fs: seq<Friendship>, f: Friendship)
    requires NoSelf(fs) && UniqueIds(fs) && UniquePairs(fs)
    requires f.requester != f.recipient && FreshId(fs, f.id) && !Linked(fs, f.requester, f.recipient)
    ensures var fs' := fs + [f]; NoSelf(fs') && UniqueIds(fs') && UniquePairs(fs')
  {
    var fs' := fs + [f];
    assert forall j :: 0 <= j < |fs| ==> fs'[j] == fs[j];
    assert fs'[|fs|] == f;
  }

  /** Appending a record that is not accepted changes no one's friends. */
  lemma AppendUnacceptedKeepsMirror(s: Social, f: Friendship)
    requires Mirror(s) && f.status != Accepted
    ensures Mirror(Social(s.users, s.friendships + [f]))
  {
    forall i, v: Id | 0 <= i < |s.users|
      ensures v in s.users[i].friends <==> AreFriends(s.friendships + [f], s.users[i].id, v)
    {
      AreFriendsAppend(s.friendships, f, s.users[i].id, v);
    }
  }

  /** Appending a pending record for a pair no record joins keeps the invariant. */
  lemma AppendKeepsConsistent(s: Social, f: Friendship)
    requires Consistent(s) && f.status == Pending
    requires f.requester != f.recipient && FreshId(s.friendships, f.id)
    requires !Linked(s.friendships, f.requester, f.recipient)
    ensures Consistent(Social(s.users, s.friendships + [f]))
  {
    AppendKeepsShape(s.friendships, f);
    AppendUnacceptedKeepsMirror(s, f);
  }

  lemma CreateKeepsConsistent(s: Social, requester: Id, recipient: Id, message: Option<string>, newId: Id, now: nat)
    requires Consistent(s) && FreshId(s.friendships, newId)
    requires CreateFriendship(s, requester, recipient, message, newId, now).Ok?
    ensures Consistent(CreateFriendship(s, requester, recipient, message, newId, now).value.0)
  {
    var r := CreateFriendship(s, requester, recipient, message, newId, now);
    assert !Linked(s.friendships, requester, recipient);
    var f := Friendship(newId, requester, recipient, Pending, RequestText(message), now, now);
    assert r.value.0 == Social(s.users, s.friendships + [f]);
    AppendKeepsConsistent(s, f);
  }

  // ---------------------------------------------------------------- the mirror under each kind of write

  /** Accepting a record that was not accepted adds its pair to both arrays and to the
      relation alike. */
  lemma ApplyAcceptKeepsMirror(s: Social, k: nat, now: nat)
    requires Mirror(s) && k < |s.friendships| && s.friendships[k].status != Accepted
    ensures Mirror(ApplyAccept(s, k, now).0)
  {
    var (s', g) := ApplyAccept(s, k, now);
    forall i, v: Id | 0 <= i < |s'.users|
      ensures v in s'.users[i].friends <==> AreFriends(s'.friendships, s'.users[i].id, v)
    {
      AreFriendsReplace(s.friendships, k, g, s.users[i].id, v);
      AreFriendsSplit(s.friendships, k, s.users[i].id, v);
    }
  }

  /** Moving a record between statuses other than accepted changes no one's friends. */
  lemma RestatusUnacceptedKeepsMirror(s: Social, k: nat, g: Friendship)
    requires Mirror(s) && k < |s.friendships|
    requires s.friendships[k].status != Accepted && g.status != Accepted
    ensures Mirror(s.(friendships := s.friendships[k := g]))
  {
    forall i, v: Id | 0 <= i < |s.users|
      ensures v in s.users[i].friends <==> AreFriends(s.friendships[k := g], s.users[i].id, v)
    {
      AreFriendsReplace(s.friendships, k, g, s.users[i].id, v);
      AreFriendsSplit(s.friendships, k, s.users[i].id, v);
    }
  }

  /** Deleting a record that is not accepted changes no one's friends. */
  lemma RemoveUnacceptedKeepsMirror(s: Social, k: nat)
    requires Mirror(s) && k < |s.friendships| && s.friendships[k].status != Accepted
    ensures Mirror(s.(friendships := RemoveAt(s.friendships, k)))
  {
    forall i, v: Id | 0 <= i < |s.users|
      ensures v in s.users[i].friends <==> AreFriends(RemoveAt(s.friendships, k), s.users[i].id, v)
    {
      AreFriendsRemoveAt(s.friendships, k, s.users[i].id, v);
      AreFriendsSplit(s.friendships, k, s.users[i].id, v);
    }
  }

  /** Deleting a record of a pair together with pulling each of the two from the other's
      array keeps the mirror, provided no other accepted record joins the pair. */
  lemma PullPairKeepsMirror(s: Social, k: nat, a: Id, b: Id)
    requires Mirror(s) && k < |s.friendships| && Links(s.friendships[k], a, b)
    requires forall j :: 0 <= j < |s.friendships| && j != k && s.friendships[j].status == Accepted ==>
      !Links(s.friendships[j], a, b)
    ensures Mirror(Social(PullFriend(PullFriend(s.users, a, b), b, a), RemoveAt(s.friendships, k)))
  {
    var fs := s.friendships;
    var s' := Social(PullFriend(PullFriend(s.users, a, b), b, a), RemoveAt(fs, k));
    forall i, v: Id | 0 <= i < |s'.users|
      ensures v in s'.users[i].friends <==> AreFriends(s'.friendships, s'.users[i].id, v)
    {
      var x := s.users[i].id;
      AreFriendsRemoveAt(fs, k, x, v);
      AreFriendsSplit(fs, k, x, v);
      if FriendsBesides(fs, k, x, v) {
        var j :| 0 <= j < |fs| && j != k && fs[j].status == Accepted && Links(fs[j], x, v);
        assert !Links(fs[j], a, b);
      }
    }
  }

  // ---------------------------------------------------------------- each static method keeps the invariant

  lemma AcceptKeepsConsistent(s: Social, friendshipId: Id, user: Id, now: nat)
    requires Consistent(s)
    requires AcceptFriendship(s, friendshipId, user, now).Ok?
    ensures Consistent(AcceptFriendship(s, friendshipId, user, now).value.0)
  {
    var k := FindById(s.friendships, friendshipId).value;
    RestatusKeepsShape(s.friendships, k, ApplyAccept(s, k, now).1);
    ApplyAcceptKeepsMirror(s, k, now);
  }

  lemma DeclineKeepsConsistent(s: Social, friendshipId: Id, user: Id, now: nat)
    requires Consistent(s)
    requires DeclineFriendship(s, friendshipId, user, now).Ok?
    ensures Consistent(DeclineFriendship(s, friendshipId, user, now).value)
  {
    var k := FindById(s.friendships, friendshipId).value;
    var g := s.friendships[k].(status := Declined, updatedAt := now);
    RestatusKeepsShape(s.friendships, k, g);
    RestatusUnacceptedKeepsMirror(s, k, g);
  }

  lemma CancelKeepsConsistent(s: Social, friendshipId: Id, user: Id)
    requires Consistent(s)
    requires CancelFriendship(s, friendshipId, user).Ok?
    ensures Consistent(CancelFriendship(s, friendshipId, user).value)
  {
    var k := FindById(s.friendships, friendshipId).value;
    RemoveAtKeepsShape(s.friendships, k);
    RemoveUnacceptedKeepsMirror(s, k);
  }

  /** With at most one record per pair, the record `removeFriendship` deletes is the only
      one joining the pair, so the pair stops being friends and nobody else is affected. */
  lemma RemoveKeepsConsistent(s: Social, current: Id, other: Id)
    requires Consistent(s)
    requires RemoveFriendship(s, current, other).Ok?
    ensures Consistent(RemoveFriendship(s, current, other).value)
  {
    var k := FindPair(s.friendships, current, other).value;
    RemoveAtKeepsShape(s.friendships, k);
    PullPairKeepsMirror(s, k, current, other);
  }

  // ---------------------------------------------------------------- what the operations mean

  /** Once a request went through, a second one between the same two users fails in
      either direction, whatever the message. */
  lemma SecondRequestRefused(s: Social, a: Id, b: Id, m: Option<string>, newId: Id, now: nat,
                             m2: Option<string>, newId2: Id, now2: nat)
    requires CreateFriendship(s, a, b, m, newId, now).Ok?
    ensures var s' := CreateFriendship(s, a, b, m, newId, now).value.0;
      && CreateFriendship(s', a, b, m2, newId2, now2) == Err(AlreadyExists)
      && CreateFriendship(s', b, a, m2, newId2, now2) == Err(AlreadyExists)
  {
    var r := CreateFriendship(s, a, b, m, newId, now);
    var s', f := r.value.0, r.value.1;
    assert s'.friendships[|s.friendships|] == f;
    assert Links(f, a, b) && Links(f, b, a);
  }

  /** Accepting adds exactly the requester-recipient pair to the friend relation. */
  lemma AcceptAddsThePair(s: Social, friendshipId: Id, user: Id, now: nat, a: Id, b: Id)
    requires AcceptFriendship(s, friendshipId, user, now).Ok?
    ensures var (s', f) := AcceptFriendship(s, friendshipId, user, now).value;
      && f.recipient == user
      && (AreFriends(s'.friendships, a, b) <==> AreFriends(s.friendships, a, b) || Links(f, a, b))
  {
    var k := FindById(s.friendships, friendshipId).value;
    var (s', g) := ApplyAccept(s, k, now);
    AreFriendsReplace(s.friendships, k, g, a, b);
    AreFriendsSplit(s.friendships, k, a, b);
  }

  /** `friendsCount` goes stale on acceptance: both arrays may grow while every stored
      count stays what it was, because `findByIdAndUpdate` skips the save hook. */
  lemma AcceptLeavesCountStale(s: Social, friendshipId: Id, user: Id, now: nat)
    requires Consistent(s)
    requires AcceptFriendship(s, friendshipId, user, now).Ok?
    ensures var (s', f) := AcceptFriendship(s, friendshipId, user, now).value;
      forall i :: 0 <= i < |s.users| ==>
        && s'.users[i].friendsCount == s.users[i].friendsCount
        && (s.users[i].id == f.requester ==> f.recipient in s'.users[i].friends && f.recipient !in s.users[i].friends)
  {
    var k := FindById(s.friendships, friendshipId).value;
    var (s', g) := ApplyAccept(s, k, now);
    var f := s.friendships[k];
    forall i | 0 <= i < |s.users| && s.users[i].id == f.requester
      ensures f.recipient !in s.users[i].friends
    {
    }
  }

  /** Removing ends the friendship of the pair and no other; removing is the same
      whichever of the two asks. */
  lemma RemoveEndsOnlyThePair(s: Social, current: Id, other: Id, a: Id, b: Id)
    requires Consistent(s)
    requires RemoveFriendship(s, current, other).Ok?
    ensures var s' := RemoveFriendship(s, current, other).value;
      AreFriends(s'.friendships, a, b) <==> AreFriends(s.friendships, a, b) && !SamePair(a, b, current, other)
  {
    var fs := s.friendships;
    var k := FindPair(fs, current, other).value;
    AreFriendsRemoveAt(fs, k, a, b);
    AreFriendsSplit(fs, k, a, b);
    if FriendsBesides(fs, k, a, b) {
      var j :| 0 <= j < |fs| && j != k && fs[j].status == Accepted && Links(fs[j], a, b);
      assert !Links(fs[j], current, other);
    }
  }

  lemma RemoveIsSymmetric(s: Social, a: Id, b: Id)
    ensures RemoveFriendship(s, a, b) == RemoveFriendship(s, b, a)
  {
    var fs := s.friendships;
    assert forall f :: Links(f, a, b) == Links(f, b, a);
    var r1, r2 := FindPair(fs, a, b), FindPair(fs, b, a);
    if r1.Some? {
      assert r2.Some?;
      var u1 := RemoveFriendship(s, a, b).value.users;
      var u2 := RemoveFriendship(s, b, a).value.users;
      assert |u1| == |u2|;
      forall i | 0 <= i < |u1|
        ensures u1[i] == u2[i]
      {
        assert forall v: Id :: v in u1[i].friends <==> v in u2[i].friends;
        PullOrderIrrelevant(s.users, a, b, i);
      }
      assert u1 == u2;
    }
  }

  /** The two `$pull` updates of `removeFriendship` leave the same array whichever runs first. */
  lemma PullOrderIrrelevant(users: seq<User>, a: Id, b: Id, i: nat)
    requires i < |users|
    ensures PullFriend(PullFriend(users, a, b), b, a)[i] == PullFriend(PullFriend(users, b, a), a, b)[i]
  {
    var u := users[i];
    if u.id == a && u.id == b {
      assert Pull(Pull(u.friends, b), a) == Pull(Pull(u.friends, a), b);
    }
  }

  /** When every account a record refers to still exists, `getFriendsList` lists exactly
      the user's `friends` array (as a set). */
  lemma FriendsListMatchesFriendsArray(s: Social, i: nat)
    requires Consistent(s) && i < |s.users|
    requires forall k :: 0 <= k < |s.friendships| ==>
      UserExists(s.users, s.friendships[k].requester) && UserExists(s.users, s.friendships[k].recipient)
    ensures FriendsList(s, s.users[i].id).Some?
    ensures forall v: Id :: Some(v) in FriendsList(s, s.users[i].id).value <==> v in s.users[i].friends
  {
    var x := s.users[i].id;
    forall v: Id | AreFriends(s.friendships, x, v)
      ensures UserExists(s.users, v)
    {
      var k :| 0 <= k < |s.friendships| && s.friendships[k].status == Accepted && Links(s.friendships[k], x, v);
    }
  }
}

=== FILE: friendship_model.dfy ===
/** The Friendship document (models/Friendship.js) and its static methods, over a state
    holding the user and friendship collections. A friendship record joins a requester
    and a recipient; the users' `friends` arrays are meant to mirror the accepted
    records. */
module FriendshipModel {
  import opened Wrappers
  import opened Table
  import opened Text
  import opened UserModel

  datatype Status = Pending | Accepted | Declined | Blocked
  {
    /** A pending or accepted record still stands for a relationship. */
    predicate Live() { Pending? || Accepted? }
  }

  /** `requestMessage` is stored trimmed; `createdAt` / `updatedAt` are the timestamps. */
  datatype Friendship = Friendship(
    id: Id,
    requester: Id,
    recipient: Id,
    status: Status,
    requestMessage: string,
    createdAt: nat,
    updatedAt: nat)

  /** The two collections the friendship operations read and write. */
  datatype Social = Social(users: seq<User>, friendships: seq<Friendship>)

  const RequestMessageMaxLength := 200

  /** The errors the static methods throw; the routes of routes/friendship.js answer
      400 with the message. */
  datatype ModelError =
    | AlreadyExists
    | SelfRequest
    | MessageTooLong
    | NotFound
    | OnlyRecipientAccepts
    | OnlyRecipientDeclines
    | NotPending
    | OnlyRequesterCancels
    | CancelNotPending
    | NoRelationship
  {
    function Message(): string {
      match this
      case AlreadyExists => "Friendship already exists"
      case SelfRequest => "Cannot send friend request to yourself"
      case MessageTooLong =>
        "Friendship validation failed: requestMessage: Request message cannot exceed 200 characters"
      case NotFound => "Friendship not found"
      case OnlyRecipientAccepts => "Only recipient can accept friend request"
      case OnlyRecipientDeclines => "Only the recipient can decline the friend request"
      case NotPending => "Friend request is not pending"
      case OnlyRequesterCancels => "Only the requester can cancel the friend request"
      case CancelNotPending => "Cannot cancel a request that is not pending"
      case NoRelationship => "Không tìm thấy mối quan hệ bạn bè."
    }
  }

  // ---------------------------------------------------------------- relations

  /** The record joins `a` and `b`, in either direction (the `$or` filter). */
  predicate Links(f: Friendship, a: Id, b: Id) {
    (f.requester == a && f.recipient == b) || (f.requester == b && f.recipient == a)
  }

  /** `{x, y}` and `{a, b}` are the same unordered pair. */
  predicate SamePair(x: Id, y: Id, a: Id, b: Id) {
    (x == a && y == b) || (x == b && y == a)
  }

  predicate Involves(f: Friendship, u: Id) {
    f.requester == u || f.recipient == u
  }

  /** The party of the record that is not `u` (the requester when `u` is not involved). */
  function OtherParty(f: Friendship, u: Id): Id {
    if f.requester == u then f.recipient else f.requester
  }

  /** Some record joins the pair, whatever its status. */
  ghost predicate Linked(fs: seq<Friendship>, a: Id, b: Id) {
    exists k :: 0 <= k < |fs| && Links(fs[k], a, b)
  }

  /** The friend relation the records define: an accepted record joins the pair. */
  ghost predicate AreFriends(fs: seq<Friendship>, a: Id, b: Id) {
    exists k :: 0 <= k < |fs| && fs[k].status == Accepted && Links(fs[k], a, b)
  }

  /** An accepted record other than the one at index `k` joins the pair. */
  ghost predicate FriendsBesides(fs: seq<Friendship>, k: nat, a: Id, b: Id) {
    exists j :: 0 <= j < |fs| && j != k && fs[j].status == Accepted && Links(fs[j], a, b)
  }

  /** The `$or` lookup of a pair: the first record joining them. */
  function FindPair(fs: seq<Friendship>, a: Id, b: Id): (r: Option<nat>)
    ensures r.None? <==> !Linked(fs, a, b)
    ensures r.Some? ==> r.value < |fs| && Links(fs[r.value], a, b)
    ensures r.Some? ==> forall j :: 0 <= j < r.value ==> !Links(fs[j], a, b)
  {
    FindFirst(fs, (f: Friendship) => Links(f, a, b))
  }

  /** A lookup of the pair in one direction, as the unique index on (requester,
      recipient) sees it. */
  function FindDirected(fs: seq<Friendship>, requester: Id, recipient: Id): (r: Option<nat>)
    ensures r.None? <==> forall k :: 0 <= k < |fs| ==> !(fs[k].requester == requester && fs[k].recipient == recipient)
    ensures r.Some? ==> r.value < |fs| && fs[r.value].requester == requester && fs[r.value].recipient == recipient
  {
    FindFirst(fs, (f: Friendship) => f.requester == requester && f.recipient == recipient)
  }

  /** `findById` on the friendships. */
  function FindById(fs: seq<Friendship>, id: Id): (r: Option<nat>)
    ensures r.None? <==> forall j :: 0 <= j < |fs| ==> fs[j].id != id
    ensures r.Some? ==> r.value < |fs| && fs[r.value].id == id
    ensures r.Some? ==> forall j :: 0 <= j < r.value ==> fs[j].id != id
  {
    FindFirst(fs, (f: Friendship) => f.id == id)
  }

  /** `findByIdAndUpdate(owner, { $addToSet: { friends: friend } })`. */
  function AddFriend(users: seq<User>, owner: Id, friend: Id): (r: seq<User>)
    ensures |r| == |users|
    ensures forall i :: 0 <= i < |users| ==>
      r[i] == users[i].(friends := r[i].friends)
      && (forall v: Id :: v in r[i].friends <==> v in users[i].friends || (users[i].id == owner && v == friend))
    ensures forall i :: 0 <= i < |users| && NoDuplicates(users[i].friends) ==> NoDuplicates(r[i].friends)
  {
    UpdateUser(users, owner, (u: User) => u.(friends := AddToSet(u.friends, friend)))
  }

  /** `findByIdAndUpdate(owner, { $pull: { friends: friend } })`. */
  function PullFriend(users: seq<User>, owner: Id, friend: Id): (r: seq<User>)
    ensures |r| == |users|
    ensures forall i :: 0 <= i < |users| ==>
      r[i] == users[i].(friends := r[i].friends)
      && (forall v: Id :: v in r[i].friends <==> v in users[i].friends && !(users[i].id == owner && v == friend))
  {
    UpdateUser(users, owner, (u: User) => u.(friends := Pull(u.friends, friend)))
  }

  // ---------------------------------------------------------------- static methods

  /** The request message as stored: absent becomes empty, and the schema trims it. */
  function RequestText(message: Option<string>): string {
    Trim(message.GetOr(""))
  }

  /** `Friendship.createFriendship(requester, recipient, message = '')`: refuses when any
      record already joins the pair, then a request to oneself, then a message longer
      than 200 units once trimmed; otherwise appends a pending record. The recipient is
      not checked to exist. */
  function CreateFriendship(s: Social, requester: Id, recipient: Id, message: Option<string>,
                            newId: Id, now: nat): (r: Result<(Social, Friendship), ModelError>)
    ensures r == Err(AlreadyExists) <==> Linked(s.friendships, requester, recipient)
    ensures r == Err(SelfRequest) <==> !Linked(s.friendships, requester, recipient) && requester == recipient
    ensures r == Err(MessageTooLong) <==>
      && !Linked(s.friendships, requester, recipient) && requester != recipient
      && Utf16Length(RequestText(message)) > RequestMessageMaxLength
    ensures r.Ok? ==>
      && r.value.1 == Friendship(newId, requester, recipient, Pending, RequestText(message), now, now)
      && r.value.0 == Social(s.users, s.friendships + [r.value.1])
      && Utf16Length(r.value.1.requestMessage) <= RequestMessageMaxLength
  {
    if FindPair(s.friendships, requester, recipient).Some? then Err(AlreadyExists)
    else if requester == recipient then Err(SelfRequest)
    else
      var text := RequestText(message);
      if Utf16Length(text) > RequestMessageMaxLength then Err(MessageTooLong)
      else
        var f := Friendship(newId, requester, recipient, Pending, text, now, now);
        Ok((s.(friendships := s.friendships + [f]), f))
  }

  /** The writes of an acceptance of the record at index `k`: its status becomes
      accepted, and each party is added to the other's `friends` with `$addToSet`.
      `findByIdAndUpdate` bypasses the save hook, so `friendsCount` is not touched. */
  function ApplyAccept(s: Social, k: nat, now: nat): (r: (Social, Friendship))
    requires k < |s.friendships|
    ensures var f := s.friendships[k];
      && r.1 == f.(status := Accepted, updatedAt := now)
      && r.0.friendships == s.friendships[k := r.1]
    ensures |r.0.users| == |s.users|
    ensures forall i :: 0 <= i < |s.users| ==>
      r.0.users[i] == s.users[i].(friends := r.0.users[i].friends)
      && (forall v: Id :: v in r.0.users[i].friends <==>
            v in s.users[i].friends || Links(s.friendships[k], s.users[i].id, v))
    ensures forall i :: 0 <= i < |s.users| && NoDuplicates(s.users[i].friends) ==> NoDuplicates(r.0.users[i].friends)
  {
    var f := s.friendships[k];
    var g := f.(status := Accepted, updatedAt := now);
    var users := AddFriend(AddFriend(s.users, f.requester, f.recipient), f.recipient, f.requester);
    (Social(users, s.friendships[k := g]), g)
  }

  /** `Friendship.acceptFriendship(id, user)`: the record must exist, be addressed to the
      user and be pending. */
  function AcceptFriendship(s: Social, friendshipId: Id, user: Id, now: nat): (r: Result<(Social, Friendship), ModelError>)
    ensures FindById(s.friendships, friendshipId).None? <==> r == Err(NotFound)
    ensures r == Err(OnlyRecipientAccepts) <==>
      exists k :: FindById(s.friendships, friendshipId) == Some(k) && s.friendships[k].recipient != user
    ensures r.Ok? <==>
      exists k :: FindById(s.friendships, friendshipId) == Some(k)
        && s.friendships[k].recipient == user && s.friendships[k].status == Pending
    ensures r.Ok? ==> r.value == ApplyAccept(s, FindById(s.friendships, friendshipId).value, now)
    ensures r.Err? ==> r.error == NotFound || r.error == OnlyRecipientAccepts || r.error == NotPending
  {
    match FindById(s.friendships, friendshipId)
    case None => Err(NotFound)
    case Some(k) =>
      var f := s.friendships[k];
      if f.recipient != user then Err(OnlyRecipientAccepts)
      else if f.status != Pending then Err(NotPending)
      else Ok(ApplyAccept(s, k, now))
  }

  /** `Friendship.declineFriendship(id, user)`: the recipient marks a pending request
      declined. The record stays. */
  function DeclineFriendship(s: Social, friendshipId: Id, user: Id, now: nat): (r: Result<Social, ModelError>)
    ensures FindById(s.friendships, friendshipId).None? <==> r == Err(NotFound)
    ensures r.Ok? <==>
      exists k :: FindById(s.friendships, friendshipId) == Some(k)
        && s.friendships[k].recipient == user && s.friendships[k].status == Pending
    ensures r.Ok? ==>
      var k := FindById(s.friendships, friendshipId).value;
      && r.value.users == s.users
      && r.value.friendships == s.friendships[k := s.friendships[k].(status := Declined, updatedAt := now)]
    ensures r == Err(OnlyRecipientDeclines) <==>
      exists k :: FindById(s.friendships, friendshipId) == Some(k) && s.friendships[k].recipient != user
    ensures r.Err? ==> r.error == NotFound || r.error == OnlyRecipientDeclines || r.error == NotPending
  {
    match FindById(s.friendships, friendshipId)
    case None => Err(NotFound)
    case Some(k) =>
      var f := s.friendships[k];
      if f.recipient != user then Err(OnlyRecipientDeclines)
      else if f.status != Pending then Err(NotPending)
      else Ok(s.(friendships := s.friendships[k := f.(status := Declined, updatedAt := now)]))
  }

  /** `Friendship.cancelFriendship(id, user)`: the requester deletes a pending request. */
  function CancelFriendship(s: Social, friendshipId: Id, user: Id): (r: Result<Social, ModelError>)
    ensures FindById(s.friendships, friendshipId).None? <==> r == Err(NotFound)
    ensures r.Ok? <==>
      exists k :: FindById(s.friendships, friendshipId) == Some(k)
        && s.friendships[k].requester == user && s.friendships[k].status == Pending
    ensures r.Ok? ==>
      var k := FindById(s.friendships, friendshipId).value;
      && r.value.users == s.users
      && r.value.friendships == RemoveAt(s.friendships, k)
    ensures r == Err(OnlyRequesterCancels) <==>
      exists k :: FindById(s.friendships, friendshipId) == Some(k) && s.friendships[k].requester != user
    ensures r.Err? ==> r.error == NotFound || r.error == OnlyRequesterCancels || r.error == CancelNotPending
  {
    match FindById(s.friendships, friendshipId)
    case None => Err(NotFound)
    case Some(k) =>
      var f := s.friendships[k];
      if f.requester != user then Err(OnlyRequesterCancels)
      else if f.status != Pending then Err(CancelNotPending)
      else Ok(s.(friendships := RemoveAt(s.friendships, k)))
  }

  /** `Friendship.removeFriendship(current, other)`: takes the first record joining the
      pair, whatever its status, pulls each from the other's `friends`, and deletes the
      record. */
  function RemoveFriendship(s: Social, current: Id, other: Id): (r: Result<Social, ModelError>)
    ensures r.Err? <==> !Linked(s.friendships, current, other)
    ensures r.Err? ==> r.error == NoRelationship
    ensures r.Ok? ==>
      var k := FindPair(s.friendships, current, other).value;
      && r.value.friendships == RemoveAt(s.friendships, k)
      && |r.value.users| == |s.users|
      && forall i :: 0 <= i < |s.users| ==>
           r.value.users[i] == s.users[i].(friends := r.value.users[i].friends)
           && (forall v: Id :: v in r.value.users[i].friends <==>
                 v in s.users[i].friends && !SamePair(s.users[i].id, v, current, other))
  {
    match FindPair(s.friendships, current, other)
    case None => Err(NoRelationship)
    case Some(k) =>
      var users := PullFriend(PullFriend(s.users, current, other), other, current);
      Ok(Social(users, RemoveAt(s.friendships, k)))
  }

  /** The accepted records involving the user: the `$or` filter of `getFriendsList` and
      of the friends listing and its count. */
  function AcceptedOf(fs: seq<Friendship>, user: Id): (r: seq<Friendship>)
    ensures forall f :: f in r <==> f in fs && f.status == Accepted && Involves(f, user)
  {
    Select(fs, (f: Friendship) => f.status == Accepted && Involves(f, user))
  }

  /** The entry `getFriendsList` maps an accepted record to: the other party, or `None`
      where that reference populates to `null`. */
  function ListedFriend(users: seq<User>, f: Friendship, user: Id): (r: Option<Id>)
    ensures r.Some? <==> UserExists(users, OtherParty(f, user))
    ensures r.Some? ==> r.value == OtherParty(f, user)
  {
    var other := OtherParty(f, user);
    if FindUser(users, other).Some? then Some(other) else None
  }

  /** `getFriendsList`: one entry per accepted record involving the user, in natural
      order, the populated other party or `None` where that reference populates to
      `null`. `None` overall when some requester populates to `null`, since reading
      `requester._id` then throws. */
  function FriendsList(s: Social, user: Id): (r: Option<seq<Option<Id>>>)
    ensures r.None? <==>
      exists k :: 0 <= k < |s.friendships| && s.friendships[k].status == Accepted
        && Involves(s.friendships[k], user) && !UserExists(s.users, s.friendships[k].requester)
    ensures r.Some? ==> |r.value| == |AcceptedOf(s.friendships, user)|
    ensures r.Some? ==> forall i :: 0 <= i < |r.value| ==>
      r.value[i] == ListedFriend(s.users, AcceptedOf(s.friendships, user)[i], user)
    ensures r.Some? ==> (None in r.value <==>
      exists k :: 0 <= k < |s.friendships| && s.friendships[k].status == Accepted
        && Involves(s.friendships[k], user) && !UserExists(s.users, OtherParty(s.friendships[k], user)))
    ensures r.Some? ==> forall v: Id :: Some(v) in r.value <==>
      AreFriends(s.friendships, user, v) && UserExists(s.users, v)
  {
    FriendsListOf(s.users, s.friendships, user)
  }

  /** `getFriendsList` over the two collections: `find` the accepted records involving
      the user, then map each to its entry; the map throws on a record whose requester
      populates to `null`. */
  function FriendsListOf(users: seq<User>, fs: seq<Friendship>, user: Id): (r: Option<seq<Option<Id>>>)
    ensures r.None? <==>
      exists k :: 0 <= k < |fs| && fs[k].status == Accepted
        && Involves(fs[k], user) && !UserExists(users, fs[k].requester)
    ensures r.Some? ==> |r.value| == |AcceptedOf(fs, user)|
    ensures r.Some? ==> forall i :: 0 <= i < |r.value| ==> r.value[i] == ListedFriend(users, AcceptedOf(fs, user)[i], user)
    ensures r.Some? ==> (None in r.value <==>
      exists k :: 0 <= k < |fs| && fs[k].status == Accepted
        && Involves(fs[k], user) && !UserExists(users, OtherParty(fs[k], user)))
    ensures r.Some? ==> forall v: Id :: Some(v) in r.value <==> AreFriends(fs, user, v) && UserExists(users, v)
  {
    AcceptedRequesterMissing(users, fs, user);
    if RequestersPresent(users, AcceptedOf(fs, user)) then
      var list := ListedFriends(users, AcceptedOf(fs, user), user);
      ListedFriendsMeaning(users, fs, user, list);
      Some(list)
    else
      None
  }

  /** Every record's requester populates to a document. */
  function RequestersPresent(users: seq<User>, rs: seq<Friendship>): (r: bool)
    ensures r <==> forall i :: 0 <= i < |rs| ==> FindUser(users, rs[i].requester).Some?
  {
    forall i | 0 <= i < |rs| :: FindUser(users, rs[i].requester).Some?
  }

  /** The map of `getFriendsList`: one entry per record, in order. */
  function ListedFriends(users: seq<User>, rs: seq<Friendship>, user: Id): (r: seq<Option<Id>>)
    ensures |r| == |rs|
    ensures forall i :: 0 <= i < |r| ==> r[i] == ListedFriend(users, rs[i], user)
  {
    seq(|rs|, i requires 0 <= i < |rs| => ListedFriend(users, rs[i], user))
  }

  /** Some accepted record's requester is missing exactly when the map over the found
      records meets one. */
  lemma AcceptedRequesterMissing(users: seq<User>, fs: seq<Friendship>, user: Id)
    ensures !RequestersPresent(users, AcceptedOf(fs, user)) <==>
      exists k :: 0 <= k < |fs| && fs[k].status == Accepted
        && Involves(fs[k], user) && !UserExists(users, fs[k].requester)
  {
    var accepted := AcceptedOf(fs, user);
    if !RequestersPresent(users, accepted) {
      var i :| 0 <= i < |accepted| && FindUser(users, accepted[i].requester).None?;
      assert accepted[i] in accepted;
      var k :| 0 <= k < |fs| && fs[k] == accepted[i];
    }
    if exists k :: 0 <= k < |fs| && fs[k].status == Accepted && Involves(fs[k], user) && !UserExists(users, fs[k].requester) {
      var k :| 0 <= k < |fs| && fs[k].status == Accepted && Involves(fs[k], user) && !UserExists(users, fs[k].requester);
      assert fs[k] in accepted;
      var i :| 0 <= i < |accepted| && accepted[i] == fs[k];
      assert FindUser(users, accepted[i].requester).None?;
    }
  }

  /** Entries listed pointwise over the accepted records hold `null` exactly for a
      missing other party and name exactly the friends whose accounts exist. */
  lemma ListedFriendsMeaning(users: seq<User>, fs: seq<Friendship>, user: Id, list: seq<Option<Id>>)
    requires |list| == |AcceptedOf(fs, user)|
    requires forall i :: 0 <= i < |list| ==> list[i] == ListedFriend(users, AcceptedOf(fs, user)[i], user)
    ensures None in list <==>
      exists k :: 0 <= k < |fs| && fs[k].status == Accepted
        && Involves(fs[k], user) && !UserExists(users, OtherParty(fs[k], user))
    ensures forall v: Id :: Some(v) in list <==> AreFriends(fs, user, v) && UserExists(users, v)
  {
    ListedNulls(users, fs, user, list);
    forall v: Id ensures Some(v) in list <==> AreFriends(fs, user, v) && UserExists(users, v) {
      ListedFriendOf(users, fs, user, list, v);
    }
  }

  /** A `null` entry stands for an accepted record whose other party is missing. */
  lemma ListedNulls(users: seq<User>, fs: seq<Friendship>, user: Id, list: seq<Option<Id>>)
    requires |list| == |AcceptedOf(fs, user)|
    requires forall i :: 0 <= i < |list| ==> list[i] == ListedFriend(users, AcceptedOf(fs, user)[i], user)
    ensures None in list <==>
      exists k :: 0 <= k < |fs| && fs[k].status == Accepted
        && Involves(fs[k], user) && !UserExists(users, OtherParty(fs[k], user))
  {
    if None in list {
      var i :| 0 <= i < |list| && list[i] == None;
      var k := ListedEntrySource(users, fs, user, list, i);
    }
    if exists k :: 0 <= k < |fs| && fs[k].status == Accepted && Involves(fs[k], user) && !UserExists(users, OtherParty(fs[k], user)) {
      var k :| 0 <= k < |fs| && fs[k].status == Accepted && Involves(fs[k], user) && !UserExists(users, OtherParty(fs[k], user));
      var i := ListedEntryOf(users, fs, user, list, k);
    }
  }

  /** An id is listed exactly when it is a friend whose account exists. */
  lemma ListedFriendOf(users: seq<User>, fs: seq<Friendship>, user: Id, list: seq<Option<Id>>, v: Id)
    requires |list| == |AcceptedOf(fs, user)|
    requires forall i :: 0 <= i < |list| ==> list[i] == ListedFriend(users, AcceptedOf(fs, user)[i], user)
    ensures Some(v) in list <==> AreFriends(fs, user, v) && UserExists(users, v)
  {
    if Some(v) in list {
      var i :| 0 <= i < |list| && list[i] == Some(v);
      var k := ListedEntrySource(users, fs, user, list, i);
      assert Links(fs[k], user, v);
    }
    if AreFriends(fs, user, v) && UserExists(users, v) {
      var k :| 0 <= k < |fs| && fs[k].status == Accepted && Links(fs[k], user, v);
      var i := ListedEntryOf(users, fs, user, list, k);
    }
  }

  /** Each listed entry comes from an accepted record involving the user. */
  lemma ListedEntrySource(users: seq<User>, fs: seq<Friendship>, user: Id, list: seq<Option<Id>>, i: nat)
    returns (k: nat)
    requires |list| == |AcceptedOf(fs, user)|
    requires forall i :: 0 <= i < |list| ==> list[i] == ListedFriend(users, AcceptedOf(fs, user)[i], user)
    requires i < |list|
    ensures k < |fs| && fs[k].status == Accepted && Involves(fs[k], user)
    ensures list[i] == ListedFriend(users, fs[k], user)
  {
    var accepted := AcceptedOf(fs, user);
    assert accepted[i] in accepted;
    k :| 0 <= k < |fs| && fs[k] == accepted[i];
  }

  /** Each accepted record involving the user has its entry in the list. */
  lemma ListedEntryOf(users: seq<User>, fs: seq<Friendship>, user: Id, list: seq<Option<Id>>, k: nat)
    returns (i: nat)
    requires |list| == |AcceptedOf(fs, user)|
    requires forall i :: 0 <= i < |list| ==> list[i] == ListedFriend(users, AcceptedOf(fs, user)[i], user)
    requires k < |fs| && fs[k].status == Accepted && Involves(fs[k], user)
    ensures i < |list| && list[i] == ListedFriend(users, fs[k], user)
  {
    var accepted := AcceptedOf(fs, user);
    assert fs[k] in accepted;
    i :| 0 <= i < |accepted| && accepted[i] == fs[k];
  }

  /** `getPendingRequests` and the received list of routes/friendship.js: the pending
      records addressed to the user. */
  function PendingReceived(fs: seq<Friendship>, user: Id): (r: seq<Friendship>)
    ensures forall f :: f in r <==> f in fs && f.recipient == user && f.status == Pending
  {
    Select(fs, (f: Friendship) => f.recipient == user && f.status == Pending)
  }

  /** The pending records the user sent. */
  function PendingSent(fs: seq<Friendship>, user: Id): (r: seq<Friendship>)
    ensures forall f :: f in r <==> f in fs && f.requester == user && f.status == Pending
  {
    Select(fs, (f: Friendship) => f.requester == user && f.status == Pending)
  }

  // ---------------------------------------------------------------- the pending lists after a write

  /** A request just created is pending on both sides: it is the last entry of the
      recipient's received list and of the requester's sent list. */
  lemma CreatedRequestIsPending(s: Social, requester: Id, recipient: Id, message: Option<string>, newId: Id, now: nat)
    requires CreateFriendship(s, requester, recipient, message, newId, now).Ok?
    ensures var created := CreateFriendship(s, requester, recipient, message, newId, now).value;
      && PendingReceived(created.0.friendships, recipient) == PendingReceived(s.friendships, recipient) + [created.1]
      && PendingSent(created.0.friendships, requester) == PendingSent(s.friendships, requester) + [created.1]
  {
    var created := CreateFriendship(s, requester, recipient, message, newId, now).value;
    SelectAppend(s.friendships, created.1, (f: Friendship) => f.recipient == recipient && f.status == Pending);
    SelectAppend(s.friendships, created.1, (f: Friendship) => f.requester == requester && f.status == Pending);
  }

  /** Accepting a request takes it off both pending lists, which each lose exactly one
      entry. */
  lemma AcceptedRequestLeavesPending(s: Social, friendshipId: Id, user: Id, now: nat)
    requires AcceptFriendship(s, friendshipId, user, now).Ok?
    ensures var after := AcceptFriendship(s, friendshipId, user, now).value.0.friendships;
      var requester := s.friendships[FindById(s.friendships, friendshipId).value].requester;
      && |PendingReceived(after, user)| + 1 == |PendingReceived(s.friendships, user)|
      && |PendingSent(after, requester)| + 1 == |PendingSent(s.friendships, requester)|
  {
    var k := FindById(s.friendships, friendshipId).value;
    var g := s.friendships[k].(status := Accepted, updatedAt := now);
    var requester := s.friendships[k].requester;
    SelectUpdate(s.friendships, k, g, (f: Friendship) => f.recipient == user && f.status == Pending);
    SelectUpdate(s.friendships, k, g, (f: Friendship) => f.requester == requester && f.status == Pending);
  }

  /** Acceptance keeps every `friends` array free of duplicates: `$addToSet` never adds a
      value twice. */
  lemma AcceptKeepsFriendsDuplicateFree(s: Social, friendshipId: Id, user: Id, now: nat)
    requires forall i :: 0 <= i < |s.users| ==> NoDuplicates(s.users[i].friends)
    requires AcceptFriendship(s, friendshipId, user, now).Ok?
    ensures var after := AcceptFriendship(s, friendshipId, user, now).value.0.users;
      forall i :: 0 <= i < |after| ==> NoDuplicates(after[i].friends)
  {
  }
}

=== FILE: friendship_routes.dfy ===
/** The routes of routes/friendship.js (`/api/friendship`), thin wrappers around the
    static methods of the Friendship model: a path id `ObjectId.isValid` rejects is a
    400 InvalidId, and every error a static method throws is a 400 carrying its
    message. */
module FriendshipRoutes {
  import opened Wrappers
  import opened Table
  import opened Http
  import opened UserModel
  import opened FriendshipModel
  import FriendshipInvariants

  // The `message` fields of the answers.
  const RecipientRequired := "Recipient ID is required"
  const InvalidRecipient := "Invalid Recipient ID"
  const SelfRequestRefused := "You cannot send a friend request to yourself"
  const InvalidId := "Invalid ID"

  /** A static method's outcome as the route answers it. */
  function Answer<T>(r: Result<T, ModelError>, okStatus: nat): (reply: Reply<T>)
    ensures r.Ok? <==> reply.Done?
    ensures r.Ok? ==> reply == Done(okStatus, r.value)
    ensures r.Err? ==> reply == Fail(BAD_REQUEST, r.error.Message())
  {
    match r
    case Ok(v) => Done(okStatus, v)
    case Err(e) => Fail(BAD_REQUEST, e.Message())
  }

  /** `POST /request`: the recipient id must be present and well formed, and differ from
      the caller; `createFriendship` does the rest. */
  function Request(s: Social, caller: Id, recipientId: RawId, requestMessage: Option<string>,
                   newId: Id, now: nat): (r: Reply<(Social, Friendship)>)
    ensures recipientId.Missing? ==> r == Fail(BAD_REQUEST, RecipientRequired)
    ensures recipientId.Malformed? ==> r == Fail(BAD_REQUEST, InvalidRecipient)
    ensures recipientId == Given(caller) ==> r == Fail(BAD_REQUEST, SelfRequestRefused)
    ensures recipientId.Given? && recipientId.id != caller ==>
      r == Answer(CreateFriendship(s, caller, recipientId.id, requestMessage, newId, now), CREATED)
    ensures r.Fail? ==> r.status == BAD_REQUEST
  {
    match recipientId
    case Missing => Fail(BAD_REQUEST, RecipientRequired)
    case Malformed => Fail(BAD_REQUEST, InvalidRecipient)
    case Given(t) =>
      if caller == t then Fail(BAD_REQUEST, SelfRequestRefused)
      else Answer(CreateFriendship(s, caller, t, requestMessage, newId, now), CREATED)
  }

  /** `POST /accept/:id`. */
  function Accept(s: Social, caller: Id, id: PathId, now: nat): (r: Reply<(Social, Friendship)>)
    ensures id.NotAnId? ==> r == Fail(BAD_REQUEST, InvalidId)
    ensures id.AnId? ==> r == Answer(AcceptFriendship(s, id.id, caller, now), OK)
  {
    match id
    case NotAnId => Fail(BAD_REQUEST, InvalidId)
    case AnId(fid) => Answer(AcceptFriendship(s, fid, caller, now), OK)
  }

  /** `POST /decline/:id`. */
  function Decline(s: Social, caller: Id, id: PathId, now: nat): (r: Reply<Social>)
    ensures id.NotAnId? ==> r == Fail(BAD_REQUEST, InvalidId)
    ensures id.AnId? ==> r == Answer(DeclineFriendship(s, id.id, caller, now), OK)
  {
    match id
    case NotAnId => Fail(BAD_REQUEST, InvalidId)
    case AnId(fid) => Answer(DeclineFriendship(s, fid, caller, now), OK)
  }

  /** `DELETE /cancel/:id`. */
  function Cancel(s: Social, caller: Id, id: PathId): (r: Reply<Social>)
    ensures id.NotAnId? ==> r == Fail(BAD_REQUEST, InvalidId)
    ensures id.AnId? ==> r == Answer(CancelFriendship(s, id.id, caller), OK)
  {
    match id
    case NotAnId => Fail(BAD_REQUEST, InvalidId)
    case AnId(fid) => Answer(CancelFriendship(s, fid, caller), OK)
  }

  /** `DELETE /remove/:id`: the path names the other user, and the route passes it as
      `removeFriendship`'s first argument and the caller as the second. */
  function Remove(s: Social, caller: Id, id: PathId): (r: Reply<Social>)
    ensures id.NotAnId? ==> r == Fail(BAD_REQUEST, InvalidId)
    ensures id.AnId? ==> r == Answer(RemoveFriendship(s, id.id, caller), OK)
  {
    match id
    case NotAnId => Fail(BAD_REQUEST, InvalidId)
    case AnId(other) => Answer(RemoveFriendship(s, other, caller), OK)
  }

  /** The message a `TypeError` carries when `requester._id` is read from `null`. */
  const NullRequesterMessage := "Cannot read properties of null (reading '_id')"

  /** `GET /list`: `getFriendsList`, or 500 when it throws. */
  function List(s: Social, caller: Id): (r: Reply<seq<Option<Id>>>)
    ensures r.Done? <==> FriendsList(s, caller).Some?
    ensures r.Done? ==> r.status == OK && r.data == FriendsList(s, caller).value
    ensures r.Fail? ==> r == Fail(SERVER_ERROR, NullRequesterMessage)
  {
    match FriendsList(s, caller)
    case None => Fail(SERVER_ERROR, NullRequesterMessage)
    case Some(friends) => Done(OK, friends)
  }

  /** `GET /pending/received`. */
  function PendingReceivedRoute(s: Social, caller: Id): (r: Reply<seq<Friendship>>)
    ensures r.Done? && r.status == OK
    ensures forall f :: f in r.data <==> f in s.friendships && f.recipient == caller && f.status == Pending
  {
    Done(OK, PendingReceived(s.friendships, caller))
  }

  /** `GET /pending/sent`. */
  function PendingSentRoute(s: Social, caller: Id): (r: Reply<seq<Friendship>>)
    ensures r.Done? && r.status == OK
    ensures forall f :: f in r.data <==> f in s.friendships && f.requester == caller && f.status == Pending
  {
    Done(OK, PendingSent(s.friendships, caller))
  }

  // ---------------------------------------------------------------- properties of the routes

  /** Either of the two users can end the relationship, with the same effect. */
  lemma RemoveEitherWay(s: Social, a: Id, b: Id)
    ensures Remove(s, a, AnId(b)) == Remove(s, b, AnId(a))
  {
    FriendshipInvariants.RemoveIsSymmetric(s, a, b);
  }
}

=== FILE: http.dfy ===
/** What the route layer reads from a request and what it answers. */
module Http {
  import opened Table

  /** An ObjectId read from the request body or path. `Missing` is a falsy value (absent,
      null, empty); `Malformed` is a value `ObjectId.isValid` rejects, on which a
      `findById` throws a CastError; `Given` is a well-formed id. */
  datatype RawId = Missing | Malformed | Given(id: Id)

  /** An id taken from the path (`/:id`), which is never empty: either a value
      `ObjectId.isValid` rejects or a well-formed id. */
  datatype PathId = NotAnId | AnId(id: Id)

  /** A route's answer: a success status with its payload (for a route that writes,
      the payload carries the new state), or a failure status with the `message` field
      of the JSON body. A failure writes nothing. */
  datatype Reply<T> = Done(status: nat, data: T) | Fail(status: nat, message: string)

  const OK: nat := 200
  const CREATED: nat := 201
  const BAD_REQUEST: nat := 400
  const UNAUTHORIZED: nat := 401
  const FORBIDDEN: nat := 403
  const NOT_FOUND: nat := 404
  const SERVER_ERROR: nat := 500
}

=== FILE: notifications.dfy ===
/** The routes of routes/notifications.js (`/api/notifications`). models/Notification.js
    is not part of this model: a notification carries the fields the routes filter on
    and set, and the two statics the routes call, `getUnreadCount` and `markAllAsRead`,
    are given the meaning their names and their uses state. */
module Notifications {
  import opened Wrappers
  import opened Table
  import opened Pagination
  import opened Http
  import Validation

  const DefaultLimit := 20

  // The `message` fields of the answers.
  const NotificationNotFound := "Notification not found"
  const ListError := "Server error fetching notifications"
  const MarkReadError := "Server error marking notification as read"
  const DeleteError := "Server error deleting notification"

  /** `kind` is the document's `type`; `readAt` is unset until the first mark-read. */
  datatype Notification = Notification(
    id: Id,
    recipient: Id,
    sender: Id,
    kind: string,
    isRead: bool,
    readAt: Option<nat>,
    createdAt: nat)

  /** The listing filter: the caller's notifications, of the given type when the `type`
      query parameter is truthy. */
  predicate InListing(n: Notification, caller: Id, kind: Option<string>) {
    n.recipient == caller && (kind.None? || kind.value == "" || n.kind == kind.value)
  }

  predicate UnreadFor(n: Notification, user: Id) {
    n.recipient == user && !n.isRead
  }

  /** `Notification.getUnreadCount(user)`: the user's unread notifications. */
  function UnreadCount(ns: seq<Notification>, user: Id): (r: nat)
    ensures r <= |ns|
    ensures r == 0 <==> forall j :: 0 <= j < |ns| ==> !UnreadFor(ns[j], user)
  {
    var unread := Select(ns, (n: Notification) => UnreadFor(n, user));
    assert |unread| == 0 <== forall j :: 0 <= j < |ns| ==> !UnreadFor(ns[j], user) by {
      if forall j :: 0 <= j < |ns| ==> !UnreadFor(ns[j], user) {
        SelectNone(ns, (n: Notification) => UnreadFor(n, user));
      }
    }
    assert |unread| == 0 ==> forall j :: 0 <= j < |ns| ==> !UnreadFor(ns[j], user) by {
      if exists j :: 0 <= j < |ns| && UnreadFor(ns[j], user) {
        var j :| 0 <= j < |ns| && UnreadFor(ns[j], user);
        assert ns[j] in unread;
      }
    }
    |unread|
  }

  /** The `data` of a listing answer. */
  datatype Page = Page(listing: Listing<Notification>, hasNext: bool, hasPrev: bool, unreadCount: nat)

  /** `GET /api/notifications`: one page of the caller's notifications, optionally of one
      type, with the paging flags and the caller's unread count. */
  function List(ns: seq<Notification>, caller: Id, kind: Option<string>, page: Option<int>, limit: Option<int>): (r: Reply<Page>)
    ensures var p, l := ParamOr(page, 1), ParamOr(limit, DefaultLimit);
      && (r.Fail? <==> Skip(p, l) < 0)
      && (r.Fail? ==> r == Fail(SERVER_ERROR, ListError))
      && (r.Done? ==>
            && r.status == OK
            && r.data.listing.page == p
            && r.data.listing.total == Count(ns, (n: Notification) => InListing(n, caller, kind))
            && r.data.listing.pages == CeilDiv(r.data.listing.total, l)
            && (r.data.hasNext <==> p < r.data.listing.pages)
            && (r.data.hasPrev <==> p > 1)
            && r.data.unreadCount == UnreadCount(ns, caller)
            && |r.data.listing.items| == PageSize(r.data.listing.total, p, l))
    ensures r.Done? ==> forall n :: n in r.data.listing.items ==> n in ns && InListing(n, caller, kind)
  {
    var p, l := ParamOr(page, 1), ParamOr(limit, DefaultLimit);
    var matches := Select(ns, (n: Notification) => InListing(n, caller, kind));
    match Paginate(matches, p, l)
    case None => Fail(SERVER_ERROR, ListError)
    case Some(listing) =>
      assert forall j :: 0 <= j < |listing.items| ==> listing.items[j] in matches;
      Done(OK, Page(listing, HasNext(p, |matches|, l), HasPrev(p), UnreadCount(ns, caller)))
  }

  /** The first notification with the id that belongs to the caller: the
      `findOne({_id, recipient})` filter of mark-read and delete. */
  function FindOwned(ns: seq<Notification>, caller: Id, id: Id): (r: Option<nat>)
    ensures r.Some? ==> r.value < |ns| && ns[r.value].id == id && ns[r.value].recipient == caller
    ensures r.None? <==> forall j :: 0 <= j < |ns| ==> !(ns[j].id == id && ns[j].recipient == caller)
  {
    FindFirst(ns, (n: Notification) => n.id == id && n.recipient == caller)
  }

  /** `PUT /api/notifications/:id/read`: a malformed id fails validation; a notification
      that is not the caller's is not found; an unread one becomes read at `now`; a read
      one is answered as it is. */
  function MarkRead(ns: seq<Notification>, caller: Id, id: PathId, now: nat): (r: Reply<(seq<Notification>, Notification)>)
    ensures id.NotAnId? ==> r == Fail(BAD_REQUEST, Validation.ValidationFailed)
    ensures id.AnId? ==> (r.Done? <==> FindOwned(ns, caller, id.id).Some?)
    ensures id.AnId? && r.Fail? ==> r == Fail(NOT_FOUND, NotificationNotFound)
    ensures r.Done? ==>
      var k := FindOwned(ns, caller, id.id).value;
      && r.status == OK && |r.data.0| == |ns|
      && r.data.1 == r.data.0[k] && r.data.1.isRead
      && (ns[k].isRead ==> r.data.0 == ns)
      && (!ns[k].isRead ==> r.data.1.readAt == Some(now))
      && r.data.0[k].(isRead := ns[k].isRead, readAt := ns[k].readAt) == ns[k]
      && forall j :: 0 <= j < |ns| && j != k ==> r.data.0[j] == ns[j]
  {
    Validation.Gate(Validation.NotificationIdErrors(id),
      match id
      case NotAnId => Fail(SERVER_ERROR, MarkReadError)
      case AnId(nid) =>
        match FindOwned(ns, caller, nid)
        case None => Fail(NOT_FOUND, NotificationNotFound)
        case Some(k) =>
          if ns[k].isRead then Done(OK, (ns, ns[k]))
          else
            var n := ns[k].(isRead := true, readAt := Some(now));
            Done(OK, (ns[k := n], n)))
  }

  /** `Notification.markAllAsRead(user)`: every unread notification of the user becomes
      read at `now`; `modifiedCount` is how many did. */
  function MarkAllAsRead(ns: seq<Notification>, user: Id, now: nat): (r: (seq<Notification>, nat))
    ensures |r.0| == |ns|
    ensures r.1 == UnreadCount(ns, user)
    ensures forall j :: 0 <= j < |ns| ==>
      r.0[j] == (if UnreadFor(ns[j], user) then ns[j].(isRead := true, readAt := Some(now)) else ns[j])
  {
    (UpdateWhere(ns, (n: Notification) => UnreadFor(n, user), (n: Notification) => n.(isRead := true, readAt := Some(now))),
     UnreadCount(ns, user))
  }

  /** `PUT /api/notifications/read-all`. */
  function ReadAll(ns: seq<Notification>, caller: Id, now: nat): (r: Reply<(seq<Notification>, nat)>)
    ensures r.Done? && r.status == OK
    ensures r.data == MarkAllAsRead(ns, caller, now)
  {
    Done(OK, MarkAllAsRead(ns, caller, now))
  }

  /** `GET /api/notifications/unread-count`. */
  function UnreadCountRoute(ns: seq<Notification>, caller: Id): (r: Reply<nat>)
    ensures r.Done? && r.status == OK
    ensures r.data == 0 <==> forall j :: 0 <= j < |ns| ==> !UnreadFor(ns[j], caller)
    ensures r.data == UnreadCount(ns, caller)
  {
    Done(OK, UnreadCount(ns, caller))
  }

  /** `DELETE /api/notifications/:id`: `findOneAndDelete` on the id and the caller, so
      only the caller's own notification is removed. */
  function Delete(ns: seq<Notification>, caller: Id, id: PathId): (r: Reply<seq<Notification>>)
    ensures id.NotAnId? ==> r == Fail(BAD_REQUEST, Validation.ValidationFailed)
    ensures id.AnId? ==> (r.Done? <==> FindOwned(ns, caller, id.id).Some?)
    ensures id.AnId? && r.Fail? ==> r == Fail(NOT_FOUND, NotificationNotFound)
    ensures r.Done? ==> r.status == OK && r.data == RemoveAt(ns, FindOwned(ns, caller, id.id).value)
  {
    Validation.Gate(Validation.NotificationIdErrors(id),
      match id
      case NotAnId => Fail(SERVER_ERROR, DeleteError)
      case AnId(nid) =>
        match FindOwned(ns, caller, nid)
        case None => Fail(NOT_FOUND, NotificationNotFound)
        case Some(k) => Done(OK, RemoveAt(ns, k)))
  }

  // ---------------------------------------------------------------- properties

  /** Marking read is idempotent, and `readAt` keeps the time of the first mark: a second
      mark-read at any later time changes nothing. */
  lemma MarkReadOnce(ns: seq<Notification>, caller: Id, id: Id, now: nat, later: nat)
    requires MarkRead(ns, caller, AnId(id), now).Done?
    ensures var once := MarkRead(ns, caller, AnId(id), now).data;
      MarkRead(once.0, caller, AnId(id), later) == Done(OK, once)
  {
    var once := MarkRead(ns, caller, AnId(id), now).data;
    var k := FindOwned(ns, caller, id).value;
    assert FindOwned(once.0, caller, id) == Some(k) by {
      assert forall j :: 0 <= j < |ns| ==> (once.0[j].id == ns[j].id && once.0[j].recipient == ns[j].recipient);
      FindOwnedDependsOnKeys(ns, once.0, caller, id);
    }
  }

  /** The owned lookup depends only on ids and recipients. */
  lemma {:induction false} FindOwnedDependsOnKeys(ns: seq<Notification>, ms: seq<Notification>, caller: Id, id: Id)
    requires |ns| == |ms|
    requires forall j :: 0 <= j < |ns| ==> ms[j].id == ns[j].id && ms[j].recipient == ns[j].recipient
    ensures FindOwned(ms, caller, id) == FindOwned(ns, caller, id)
    decreases |ns|
  {
    if |ns| > 0 {
      FindOwnedDependsOnKeys(ns[1..], ms[1..], caller, id);
    }
  }

  /** Deleting never touches another user's notifications: every notification of
      someone else is still there, as often as before. */
  lemma DeleteKeepsOthers(ns: seq<Notification>, caller: Id, id: PathId, n: Notification)
    requires Delete(ns, caller, id).Done?
    requires n.recipient != caller
    ensures multiset(Delete(ns, caller, id).data)[n] == multiset(ns)[n]
  {
    var k := FindOwned(ns, caller, id.id).value;
    assert ns == ns[..k] + [ns[k]] + ns[k + 1..];
    assert Delete(ns, caller, id).data == ns[..k] + ns[k + 1..];
  }

  /** After `read-all` the caller has no unread notification, and everyone else's are
      as they were. */
  lemma ReadAllClearsUnread(ns: seq<Notification>, caller: Id, now: nat)
    ensures UnreadCount(MarkAllAsRead(ns, caller, now).0, caller) == 0
    ensures forall j :: 0 <= j < |ns| && ns[j].recipient != caller ==> MarkAllAsRead(ns, caller, now).0[j] == ns[j]
  {
    var after := MarkAllAsRead(ns, caller, now).0;
    assert forall j :: 0 <= j < |after| ==> !UnreadFor(after[j], caller);
  }

  /** The unread count, exactly: none for no notifications, and a notification added
      last counts once when it is unread and addressed to the user. */
  lemma UnreadCountSteps(ns: seq<Notification>, n: Notification, user: Id)
    ensures UnreadCount([], user) == 0
    ensures UnreadCount(ns + [n], user) == UnreadCount(ns, user) + (if UnreadFor(n, user) then 1 else 0)
  {
    SelectAppend(ns, n, (m: Notification) => UnreadFor(m, user));
  }

  /** Marking an unread notification lowers the caller's unread count by exactly one;
      marking a read one leaves it. */
  lemma MarkReadLowersUnreadByOne(ns: seq<Notification>, caller: Id, id: Id, now: nat)
    requires MarkRead(ns, caller, AnId(id), now).Done?
    ensures var k := FindOwned(ns, caller, id).value;
      UnreadCount(MarkRead(ns, caller, AnId(id), now).data.0, caller)
        == if ns[k].isRead then UnreadCount(ns, caller) else UnreadCount(ns, caller) - 1
  {
    var k := FindOwned(ns, caller, id).value;
    var after := MarkRead(ns, caller, AnId(id), now).data.0;
    assert after == ns[k := after[k]];
    SelectUpdate(ns, k, after[k], (m: Notification) => UnreadFor(m, caller));
  }

  /** With a positive limit, the flags say whether pages lie ahead of and behind the
      current one. */
  lemma ListFlags(ns: seq<Notification>, caller: Id, kind: Option<string>, page: Option<int>, limit: Option<int>)
    requires ParamOr(limit, DefaultLimit) > 0
    requires List(ns, caller, kind, page, limit).Done?
    ensures var r, p, l := List(ns, caller, kind, page, limit), ParamOr(page, 1), ParamOr(limit, DefaultLimit);
      && (r.data.hasNext <==> p * l < r.data.listing.total)
      && (r.data.hasPrev <==> Skip(p, l) > 0)
  {
    var r, p, l := List(ns, caller, kind, page, limit), ParamOr(page, 1), ParamOr(limit, DefaultLimit);
    HasNextMeansMoreRemain(p, r.data.listing.total, l);
    HasPrevMeansSkipped(p, l);
  }
}

=== FILE: pagination.dfy ===
/** The paging arithmetic the listing routes share: `page` and `limit` query parameters
    read with `parseInt(...) || default`, `skip = (page - 1) * limit`, the page count
    `Math.ceil(total / limit)`, and the `hasNext` / `hasPrev` flags. */
module Pagination {
  import opened Wrappers

  /** `parseInt(raw) || fallback`: `None` stands for a parameter that is absent or not a
      number (NaN); NaN and 0 are both falsy, so both fall back. */
  function ParamOr(raw: Option<int>, fallback: int): (r: int)
    ensures r != 0 <== fallback != 0
    ensures raw.Some? && raw.value != 0 ==> r == raw.value
    ensures raw.None? || raw.value == 0 ==> r == fallback
  {
    if raw.Some? && raw.value != 0 then raw.value else fallback
  }

  /** The number of documents the query skips for a page. */
  function Skip(page: int, limit: int): int
  {
    (page - 1) * limit
  }

  function Abs(x: int): nat { if x < 0 then -x else x }

  /** `Math.ceil(total / limit)`, exactly: the least integer not below the quotient. */
  function CeilDiv(total: int, limit: int): (r: int)
    requires limit != 0
    ensures limit > 0 ==> (r - 1) * limit < total <= r * limit
    ensures limit < 0 ==> r * limit <= total < (r - 1) * limit
  {
    if limit > 0 then
      var q := (-total) / limit;
      assert -total == q * limit + (-total) % limit;
      -q
    else
      var q := total / (-limit);
      assert total == q * (-limit) + total % (-limit);
      -q
  }

  /** `items` are the rows read in order from position `skip` on. */
  ghost predicate ReadFrom<T>(items: seq<T>, rows: seq<T>, skip: int)
  {
    forall j :: 0 <= j < |items| ==> 0 <= skip + j < |rows| && items[j] == rows[skip + j]
  }

  /** `.skip(skip).limit(limit)` over the matching documents in order. The driver reads a
      negative limit as "at most |limit| documents", and 0 as "no limit". */
  function Window<T>(rows: seq<T>, skip: nat, limit: int): (r: seq<T>)
    ensures skip >= |rows| ==> r == []
    ensures skip < |rows| && limit != 0 ==> |r| == (if |rows| - skip < Abs(limit) then |rows| - skip else Abs(limit))
    ensures ReadFrom(r, rows, skip)
  {
    if skip >= |rows| then []
    else if limit == 0 || |rows| - skip <= Abs(limit) then rows[skip..]
    else rows[skip..skip + Abs(limit)]
  }

  /** How many documents `.skip((page - 1) * limit).limit(limit)` returns out of `total`
      matches: none past the end, otherwise the rest or |limit| of them, whichever is
      fewer. */
  function PageSize(total: nat, page: int, limit: int): nat
  {
    var skip := Skip(page, limit);
    if skip >= total then 0
    else if total - skip < Abs(limit) then total - skip
    else Abs(limit)
  }

  /** The `pagination` object of a listing response. */
  datatype Listing<T> = Listing(items: seq<T>, page: int, pages: int, total: nat)

  /** One page of a listing. `None` when the skip is negative: the database refuses a
      negative skip and the route answers 500. */
  function Paginate<T>(matches: seq<T>, page: int, limit: int): (r: Option<Listing<T>>)
    requires limit != 0
    ensures r.None? <==> Skip(page, limit) < 0
    ensures r.Some? ==> r.value.total == |matches| && r.value.page == page
    ensures r.Some? ==> r.value.pages == CeilDiv(|matches|, limit)
    ensures r.Some? ==> |r.value.items| == PageSize(|matches|, page, limit)
    ensures r.Some? ==> ReadFrom(r.value.items, matches, Skip(page, limit))
  {
    var skip := Skip(page, limit);
    if skip < 0 then None
    else Some(Listing(Window(matches, skip, limit), page, CeilDiv(|matches|, limit), |matches|))
  }

  /** `hasNext: page < Math.ceil(total / limit)`. */
  predicate HasNext(page: int, total: int, limit: int)
    requires limit != 0
  {
    page < CeilDiv(total, limit)
  }

  /** `hasPrev: page > 1`. */
  predicate HasPrev(page: int)
  {
    page > 1
  }

  /** With a positive limit, `hasNext` holds exactly when documents remain after the ones
      the current page and the pages before it cover. */
  lemma HasNextMeansMoreRemain(page: int, total: int, limit: int)
    requires limit > 0
    ensures HasNext(page, total, limit) <==> page * limit < total
  {
    var r := CeilDiv(total, limit);
    if page < r {
      MulMonotone(page, r - 1, limit);
    } else {
      MulMonotone(r, page, limit);
    }
  }

  lemma MulMonotone(a: int, b: int, c: int)
    requires a <= b && c > 0
    ensures a * c <= b * c
  {
    assert b * c - a * c == (b - a) * c;
  }

  /** With a positive limit, `hasPrev` holds exactly when the page skips some documents. */
  lemma HasPrevMeansSkipped(page: int, limit: int)
    requires limit > 0
    ensures HasPrev(page) <==> Skip(page, limit) > 0
  {
    if page > 1 {
      assert (page - 1) * limit >= limit by {
        assert (page - 1) * limit - limit == (page - 2) * limit;
      }
    } else {
      assert (page - 1) * limit <= 0 by {
        assert -((page - 1) * limit) == (1 - page) * limit;
      }
    }
  }

  /** With a positive limit every document appears on exactly one page, and that page
      is within the advertised page count: index i is on page i / limit + 1. */
  lemma EveryIndexOnAPage(i: nat, total: nat, limit: int)
    requires limit > 0 && i < total
    ensures var page := i / limit + 1;
      && 1 <= page <= CeilDiv(total, limit)
      && Skip(page, limit) <= i < Skip(page, limit) + limit
  {
    var q := i / limit;
    var page := q + 1;
    assert i == q * limit + i % limit;
    assert Skip(page, limit) == q * limit;
    var r := CeilDiv(total, limit);
    assert (r - q) * limit > 0 by {
      assert (r - q) * limit == r * limit - q * limit;
    }
    PositiveFactor(r - q, limit);
  }

  lemma PositiveFactor(a: int, b: int)
    requires b > 0 && a * b > 0
    ensures a > 0
  {
  }
}

=== FILE: posts.dfy ===
/** The routes of routes/posts.js (`/api/posts`). The Post document's fields are the ones
    the routes read and write; models/Post.js is not part of this model. A path id that
    is not an ObjectId makes `findById` throw a CastError, which the routes answer with
    their catch-all 500. */
module Posts {
  import opened Wrappers
  import opened Table
  import opened Pagination
  import opened Http
  import opened UserModel
  import opened FriendshipModel
  import opened Text
  import Validation

  const DefaultLimit := 10

  // The `message` fields of the answers.
  const ImageRequired := "Image URL is required"
  const PostNotFound := "Post not found"
  const NotYourPostToUpdate := "Not authorized to update this post"
  const NotYourPostToDelete := "Not authorized to delete this post"
  const FeedError := "Server error fetching posts"
  const CategoryError := "Server error fetching posts by category"
  const FriendsFeedError := "Server error fetching friends posts"
  const FetchError := "Server error fetching post"
  const UpdateError := "Server error updating post"
  const DeleteError := "Server error deleting post"
  const LikeError := "Server error liking post"
  const CommentError := "Server error adding comment"
  const UserPostsError := "Server error fetching user posts"

  /** An entry of a post's `likes` array: the user who liked it. */
  datatype Like = Like(user: Id)

  datatype Comment = Comment(user: Id, text: string)

  /** `caption` is `None` once an update sets it to `undefined`; `category` is filled in
      later by the background classifier, if ever; `isActive` false is a soft delete. */
  datatype Post = Post(
    id: Id,
    user: Id,
    imageUrl: string,
    caption: Option<string>,
    category: Option<string>,
    likes: seq<Like>,
    comments: seq<Comment>,
    isActive: bool,
    createdAt: nat)

  /** A body field JavaScript reads as false: absent or the empty string. */
  predicate Falsy(o: Option<string>) {
    o.None? || o.value == ""
  }

  predicate UniquePostIds(posts: seq<Post>) {
    forall i, j :: 0 <= i < j < |posts| ==> posts[i].id != posts[j].id
  }

  /** `Post.findById` and the `!post || !post.isActive` guard every single-post route
      starts with: the index of the post the id names, when it is not soft-deleted. */
  function FindLive(posts: seq<Post>, id: Id): (r: Option<nat>)
    ensures r.Some? ==> r.value < |posts| && posts[r.value].id == id && posts[r.value].isActive
    ensures r.Some? ==> forall j :: 0 <= j < r.value ==> posts[j].id != id
    ensures UniquePostIds(posts) ==>
      (r.None? <==> forall j :: 0 <= j < |posts| && posts[j].id == id ==> !posts[j].isActive)
  {
    match FindFirst(posts, (p: Post) => p.id == id)
    case None => None
    case Some(k) => if posts[k].isActive then Some(k) else None
  }

  // ---------------------------------------------------------------- single posts

  /** `POST /api/posts`: a falsy `imageUrl` is refused; otherwise the caller's post is
      stored with the caption, or `''` when the caption is falsy, and no likes,
      comments or category yet. */
  function Create(posts: seq<Post>, caller: Id, imageUrl: Option<string>, caption: Option<string>,
                  newId: Id, now: nat): (r: Reply<(seq<Post>, Post)>)
    ensures Falsy(imageUrl) <==> r.Fail?
    ensures r.Fail? ==> r == Fail(BAD_REQUEST, ImageRequired)
    ensures r.Done? ==>
      && r.status == CREATED
      && r.data.0 == posts + [r.data.1]
      && r.data.1.id == newId && r.data.1.user == caller && r.data.1.imageUrl == imageUrl.value
      && r.data.1.caption == Some(if Falsy(caption) then "" else caption.value)
      && r.data.1.category.None? && r.data.1.likes == [] && r.data.1.comments == []
      && r.data.1.isActive && r.data.1.createdAt == now
  {
    if Falsy(imageUrl) then Fail(BAD_REQUEST, ImageRequired)
    else
      var post := Post(newId, caller, imageUrl.value, Some(caption.GetOr("")), None, [], [], true, now);
      Done(CREATED, (posts + [post], post))
  }

  /** `POST /api/posts` behind `validatePost`: a present caption longer than 200
      characters once trimmed is refused before the handler runs, and the handler sees
      the trimmed caption. */
  function CreateRoute(posts: seq<Post>, caller: Id, imageUrl: Option<string>, caption: Option<string>,
                       newId: Id, now: nat): (r: Reply<(seq<Post>, Post)>)
    ensures Validation.CaptionErrors(caption) != [] ==> r == Fail(BAD_REQUEST, Validation.ValidationFailed)
    ensures Validation.CaptionErrors(caption) == [] ==>
      r == Create(posts, caller, imageUrl, Validation.SanitizedCaption(caption), newId, now)
    ensures r.Done? ==>
      var c := r.data.1.caption.value;
      Trim(c) == c && Validation.CaptionErrors(Some(c)) == []
  {
    var errors := Validation.CaptionErrors(caption);
    Validation.StoredCaptionPasses(caption);
    Validation.Gate(errors, Create(posts, caller, imageUrl, Validation.SanitizedCaption(caption), newId, now))
  }

  /** `GET /api/posts/:id`. */
  function Get(posts: seq<Post>, id: PathId): (r: Reply<Post>)
    ensures id.NotAnId? ==> r == Fail(SERVER_ERROR, FetchError)
    ensures id.AnId? ==> (r.Done? <==> FindLive(posts, id.id).Some?)
    ensures id.AnId? && r.Fail? ==> r == Fail(NOT_FOUND, PostNotFound)
    ensures r.Done? ==> r.status == OK && r.data in posts && r.data.id == id.id && r.data.isActive
  {
    match id
    case NotAnId => Fail(SERVER_ERROR, FetchError)
    case AnId(pid) =>
      match FindLive(posts, pid)
      case None => Fail(NOT_FOUND, PostNotFound)
      case Some(k) => Done(OK, posts[k])
  }

  /** `PUT /api/posts/:id`: the owner sets the caption to the body's value, `undefined`
      included; nothing else about any post changes. */
  function Update(posts: seq<Post>, caller: Id, id: PathId, caption: Option<string>): (r: Reply<seq<Post>>)
    ensures id.NotAnId? ==> r == Fail(SERVER_ERROR, UpdateError)
    ensures id.AnId? && FindLive(posts, id.id).None? ==> r == Fail(NOT_FOUND, PostNotFound)
    ensures id.AnId? && FindLive(posts, id.id).Some? && posts[FindLive(posts, id.id).value].user != caller ==>
      r == Fail(FORBIDDEN, NotYourPostToUpdate)
    ensures r.Done? <==>
      id.AnId? && FindLive(posts, id.id).Some? && posts[FindLive(posts, id.id).value].user == caller
    ensures r.Done? ==>
      var k := FindLive(posts, id.id).value;
      && r.status == OK && |r.data| == |posts|
      && r.data[k].caption == caption
      && r.data[k].(caption := posts[k].caption) == posts[k]
      && forall j :: 0 <= j < |posts| && j != k ==> r.data[j] == posts[j]
  {
    match id
    case NotAnId => Fail(SERVER_ERROR, UpdateError)
    case AnId(pid) =>
      match FindLive(posts, pid)
      case None => Fail(NOT_FOUND, PostNotFound)
      case Some(k) =>
        if posts[k].user != caller then Fail(FORBIDDEN, NotYourPostToUpdate)
        else Done(OK, posts[k := posts[k].(caption := caption)])
  }

  /** `PUT /api/posts/:id` behind `validatePost`: the caption chain runs before the post
      is looked up, and the owner's post receives the trimmed caption, or `undefined`
      when none was sent. */
  function UpdateRoute(posts: seq<Post>, caller: Id, id: PathId, caption: Option<string>): (r: Reply<seq<Post>>)
    ensures Validation.CaptionErrors(caption) != [] ==> r == Fail(BAD_REQUEST, Validation.ValidationFailed)
    ensures Validation.CaptionErrors(caption) == [] ==>
      r == Update(posts, caller, id, Validation.SanitizedCaption(caption))
    ensures r.Done? ==>
      var c := r.data[FindLive(posts, id.id).value].caption;
      c.Some? ==> Trim(c.value) == c.value && Validation.CaptionErrors(c) == []
  {
    var errors := Validation.CaptionErrors(caption);
    var r := Validation.Gate(errors, Update(posts, caller, id, Validation.SanitizedCaption(caption)));
    TrimIdempotent(Validation.Value(caption));
    r
  }

  /** `DELETE /api/posts/:id`: a soft delete by the owner, which only clears `isActive`. */
  function Delete(posts: seq<Post>, caller: Id, id: PathId): (r: Reply<seq<Post>>)
    ensures id.NotAnId? ==> r == Fail(SERVER_ERROR, DeleteError)
    ensures id.AnId? && FindLive(posts, id.id).None? ==> r == Fail(NOT_FOUND, PostNotFound)
    ensures id.AnId? && FindLive(posts, id.id).Some? && posts[FindLive(posts, id.id).value].user != caller ==>
      r == Fail(FORBIDDEN, NotYourPostToDelete)
    ensures r.Done? <==>
      id.AnId? && FindLive(posts, id.id).Some? && posts[FindLive(posts, id.id).value].user == caller
    ensures r.Done? ==>
      var k := FindLive(posts, id.id).value;
      && r.status == OK && |r.data| == |posts|
      && !r.data[k].isActive
      && r.data[k].(isActive := true) == posts[k]
      && forall j :: 0 <= j < |posts| && j != k ==> r.data[j] == posts[j]
  {
    match id
    case NotAnId => Fail(SERVER_ERROR, DeleteError)
    case AnId(pid) =>
      match FindLive(posts, pid)
      case None => Fail(NOT_FOUND, PostNotFound)
      case Some(k) =>
        if posts[k].user != caller then Fail(FORBIDDEN, NotYourPostToDelete)
        else Done(OK, posts[k := posts[k].(isActive := false)])
  }

  // ---------------------------------------------------------------- likes

  /** The position of the user's first like, found as `likes.findIndex` does. */
  function FirstLike(likes: seq<Like>, user: Id): (r: Option<nat>)
    ensures r.None? <==> Like(user) !in likes
    ensures r.Some? ==> r.value < |likes| && likes[r.value] == Like(user)
    ensures r.Some? ==> Like(user) !in likes[..r.value]
  {
    match FindFirst(likes, (l: Like) => l.user == user)
    case None => None
    case Some(i) =>
      assert Like(user) !in likes[..i] by {
        forall j | 0 <= j < i ensures likes[..i][j] != Like(user) {
          assert likes[..i][j] == likes[j];
        }
      }
      Some(i)
  }

  /** The like toggle on one post's array: the caller's first like is spliced out
      (`liked` false), or, when there is none, one is pushed (`liked` true). */
  function ToggleLike(likes: seq<Like>, user: Id): (r: (seq<Like>, bool))
    ensures r.1 <==> Like(user) !in likes
    ensures r.1 ==> r.0 == likes + [Like(user)]
    ensures !r.1 ==> r.0 == RemoveAt(likes, FirstLike(likes, user).value)
    ensures |r.0| == if r.1 then |likes| + 1 else |likes| - 1
  {
    match FirstLike(likes, user)
    case None => (likes + [Like(user)], true)
    case Some(i) => (RemoveAt(likes, i), false)
  }

  /** The answer of a toggle: the new state and the new like count. */
  datatype LikeAnswer = LikeAnswer(liked: bool, likesCount: nat)

  /** `POST /api/posts/:id/like`. */
  function LikeRoute(posts: seq<Post>, caller: Id, id: PathId): (r: Reply<(seq<Post>, LikeAnswer)>)
    ensures id.NotAnId? ==> r == Fail(SERVER_ERROR, LikeError)
    ensures id.AnId? ==> (r.Done? <==> FindLive(posts, id.id).Some?)
    ensures id.AnId? && r.Fail? ==> r == Fail(NOT_FOUND, PostNotFound)
    ensures r.Done? ==>
      var k := FindLive(posts, id.id).value;
      && r.status == OK && |r.data.0| == |posts|
      && r.data.1.liked == (Like(caller) !in posts[k].likes)
      && r.data.1.likesCount == |r.data.0[k].likes|
      && r.data.0[k].likes == ToggleLike(posts[k].likes, caller).0
      && r.data.0[k].(likes := posts[k].likes) == posts[k]
      && forall j :: 0 <= j < |posts| && j != k ==> r.data.0[j] == posts[j]
  {
    match id
    case NotAnId => Fail(SERVER_ERROR, LikeError)
    case AnId(pid) =>
      match FindLive(posts, pid)
      case None => Fail(NOT_FOUND, PostNotFound)
      case Some(k) =>
        var t := ToggleLike(posts[k].likes, caller);
        Done(OK, (posts[k := posts[k].(likes := t.0)], LikeAnswer(t.1, |t.0|)))
  }

  /** A toggle keeps at most one like per user, and afterwards the user likes the post
      exactly when the toggle answered `liked`. */
  lemma ToggleKeepsOneLikeEach(likes: seq<Like>, user: Id)
    requires NoDuplicates(likes)
    ensures NoDuplicates(ToggleLike(likes, user).0)
    ensures Like(user) in ToggleLike(likes, user).0 <==> ToggleLike(likes, user).1
  {
    var r := ToggleLike(likes, user);
    if !r.1 {
      var i := FirstLike(likes, user).value;
      forall x, y | 0 <= x < y < |r.0| ensures r.0[x] != r.0[y] {
        var x' := if x < i then x else x + 1;
        var y' := if y < i then y else y + 1;
        assert r.0[x] == likes[x'] && r.0[y] == likes[y'];
      }
      forall j | 0 <= j < |r.0| ensures r.0[j] != Like(user) {
        if j < i {
          assert r.0[j] == likes[..i][j];
        } else {
          assert r.0[j] == likes[j + 1];
        }
      }
    }
  }

  /** Liking and then unliking restores the array exactly. */
  lemma LikeThenUnlike(likes: seq<Like>, user: Id)
    requires Like(user) !in likes
    ensures ToggleLike(ToggleLike(likes, user).0, user) == (likes, false)
  {
    var once := likes + [Like(user)];
    assert once[|likes|] == Like(user);
    var twice := ToggleLike(once, user);
    assert !twice.1;
    var i := FirstLike(once, user).value;
    assert i == |likes|;
    assert once[..i] == likes;
    assert twice.0 == likes;
    assert ToggleLike(likes, user).0 == once;
  }

  /** Splicing one element out of an array removes exactly that element from its
      multiset. */
  lemma SpliceMultiset<T>(xs: seq<T>, i: nat)
    requires i < |xs|
    ensures multiset(RemoveAt(xs, i)) + multiset{xs[i]} == multiset(xs)
  {
    assert xs == xs[..i] + [xs[i]] + xs[i + 1..];
  }

  /** Unliking and then liking restores the same likes, with the caller's moved last. */
  lemma UnlikeThenLike(likes: seq<Like>, user: Id)
    requires NoDuplicates(likes) && Like(user) in likes
    ensures ToggleLike(ToggleLike(likes, user).0, user).1
    ensures multiset(ToggleLike(ToggleLike(likes, user).0, user).0) == multiset(likes)
  {
    var once := ToggleLike(likes, user);
    ToggleKeepsOneLikeEach(likes, user);
    SpliceMultiset(likes, FirstLike(likes, user).value);
  }

  /** A toggle by one user leaves every other user's likes alone. */
  lemma ToggleTouchesOnlyTheCaller(likes: seq<Like>, user: Id, other: Id)
    requires other != user
    ensures multiset(ToggleLike(likes, user).0)[Like(other)] == multiset(likes)[Like(other)]
  {
    var r := ToggleLike(likes, user);
    if !r.1 {
      SpliceMultiset(likes, FirstLike(likes, user).value);
    }
  }

  // ---------------------------------------------------------------- comments

  /** The handler of `POST /api/posts/:id/comment`: appends the caller's comment and
      answers with the array's last element, which is that comment. */
  function AddComment(posts: seq<Post>, caller: Id, id: PathId, text: string): (r: Reply<(seq<Post>, Comment)>)
    ensures id.NotAnId? ==> r == Fail(SERVER_ERROR, CommentError)
    ensures id.AnId? ==> (r.Done? <==> FindLive(posts, id.id).Some?)
    ensures id.AnId? && r.Fail? ==> r == Fail(NOT_FOUND, PostNotFound)
    ensures r.Done? ==>
      var k := FindLive(posts, id.id).value;
      && r.status == CREATED && |r.data.0| == |posts|
      && var after := r.data.0[k].comments;
      && |after| == |posts[k].comments| + 1
      && after[..|posts[k].comments|] == posts[k].comments
      && r.data.1 == after[|after| - 1] == Comment(caller, text)
      && r.data.0[k].(comments := posts[k].comments) == posts[k]
      && forall j :: 0 <= j < |posts| && j != k ==> r.data.0[j] == posts[j]
  {
    match id
    case NotAnId => Fail(SERVER_ERROR, CommentError)
    case AnId(pid) =>
      match FindLive(posts, pid)
      case None => Fail(NOT_FOUND, PostNotFound)
      case Some(k) =>
        var comments := posts[k].comments + [Comment(caller, text)];
        assert comments[..|posts[k].comments|] == posts[k].comments;
        Done(CREATED, (posts[k := posts[k].(comments := comments)], comments[|comments| - 1]))
  }

  /** `POST /api/posts/:id/comment` behind `validateComment`: an empty or over-long text is
      refused before the post is looked up, and the stored comment is the trimmed text. */
  function CommentRoute(posts: seq<Post>, caller: Id, id: PathId, text: Option<string>): (r: Reply<(seq<Post>, Comment)>)
    ensures Validation.CommentErrors(text) != [] ==> r == Fail(BAD_REQUEST, Validation.ValidationFailed)
    ensures Validation.CommentErrors(text) == [] ==>
      r == AddComment(posts, caller, id, Validation.SanitizedComment(text))
    ensures r.Done? ==>
      var t := r.data.1.text;
      t != "" && Trim(t) == t && ValidatorLength(t) <= Validation.CommentMax
  {
    var errors := Validation.CommentErrors(text);
    var r := Validation.Gate(errors, AddComment(posts, caller, id, Validation.SanitizedComment(text)));
    TrimIdempotent(Validation.Value(text));
    r
  }

  // ---------------------------------------------------------------- properties of the single-post routes

  /** A post just created is found by its id, provided the id is new. */
  lemma CreatedPostIsVisible(posts: seq<Post>, caller: Id, imageUrl: Option<string>, caption: Option<string>,
                             newId: Id, now: nat)
    requires !Falsy(imageUrl)
    requires forall j :: 0 <= j < |posts| ==> posts[j].id != newId
    ensures Get(Create(posts, caller, imageUrl, caption, newId, now).data.0, AnId(newId))
      == Done(OK, Create(posts, caller, imageUrl, caption, newId, now).data.1)
  {
    var after := Create(posts, caller, imageUrl, caption, newId, now).data.0;
    assert after[|posts|].id == newId && after[|posts|].isActive;
    assert forall j :: 0 <= j < |posts| ==> after[j] == posts[j];
  }

  /** A soft-deleted post is gone for every route that looks it up: reading it again is
      a 404, and so is deleting it a second time. */
  lemma DeletedPostIsGone(posts: seq<Post>, caller: Id, id: Id)
    requires Delete(posts, caller, AnId(id)).Done?
    ensures Get(Delete(posts, caller, AnId(id)).data, AnId(id)) == Fail(NOT_FOUND, PostNotFound)
    ensures Delete(Delete(posts, caller, AnId(id)).data, caller, AnId(id)) == Fail(NOT_FOUND, PostNotFound)
  {
    var k := FindLive(posts, id).value;
    var after := Delete(posts, caller, AnId(id)).data;
    FirstWithIdIsInactive(after, k, id);
  }

  /** An edit that keeps the post's id and leaves it active, and touches no other post,
      leaves the single-post lookup where it was. */
  lemma FindLiveAfterEdit(posts: seq<Post>, after: seq<Post>, k: nat, id: Id)
    requires FindLive(posts, id) == Some(k)
    requires |after| == |posts| && after[k].id == id && after[k].isActive
    requires forall j :: 0 <= j < |posts| && j != k ==> after[j] == posts[j]
    ensures FindLive(after, id) == Some(k)
  {
    assert FindFirst(after, (p: Post) => p.id == id).Some?;
  }

  /** A caption the owner set is the caption the post reads back: the trimmed text, or
      none when none was sent. */
  lemma UpdatedCaptionIsRead(posts: seq<Post>, caller: Id, id: Id, caption: Option<string>)
    requires UpdateRoute(posts, caller, AnId(id), caption).Done?
    ensures var k := FindLive(posts, id).value;
      Get(UpdateRoute(posts, caller, AnId(id), caption).data, AnId(id))
        == Done(OK, posts[k].(caption := Validation.SanitizedCaption(caption)))
  {
    var k := FindLive(posts, id).value;
    FindLiveAfterEdit(posts, UpdateRoute(posts, caller, AnId(id), caption).data, k, id);
  }

  /** A comment just added is read back as the post's last comment, after the earlier
      ones. */
  lemma CommentIsRead(posts: seq<Post>, caller: Id, id: Id, text: Option<string>)
    requires CommentRoute(posts, caller, AnId(id), text).Done?
    ensures var k := FindLive(posts, id).value;
      var read := Get(CommentRoute(posts, caller, AnId(id), text).data.0, AnId(id));
      && read.Done?
      && read.data.comments == posts[k].comments + [Comment(caller, Validation.SanitizedComment(text))]
  {
    var k := FindLive(posts, id).value;
    var after := CommentRoute(posts, caller, AnId(id), text).data.0;
    FindLiveAfterEdit(posts, after, k, id);
    assert after[k].comments == after[k].comments[..|posts[k].comments|] + [after[k].comments[|posts[k].comments|]];
  }

  /** A new post counts once in its author's listing and in the feed, and in no
      category feed: it has no category until the classifier gives it one. */
  lemma CreatedPostIsCounted(posts: seq<Post>, caller: Id, imageUrl: Option<string>, caption: Option<string>,
                             newId: Id, now: nat, fs: seq<Friendship>, category: string,
                             page: Option<int>, limit: Option<int>)
    requires CreateRoute(posts, caller, imageUrl, caption, newId, now).Done?
    requires Skip(ParamOr(page, 1), ParamOr(limit, DefaultLimit)) >= 0
    ensures var after := CreateRoute(posts, caller, imageUrl, caption, newId, now).data.0;
      && UserPosts(after, AnId(caller), page, limit).data.total == UserPosts(posts, AnId(caller), page, limit).data.total + 1
      && Feed(after, page, limit).data.total == Feed(posts, page, limit).data.total + 1
      && CategoryFeed(fs, after, caller, category, page, limit).data.total
           == CategoryFeed(fs, posts, caller, category, page, limit).data.total
  {
    var post := CreateRoute(posts, caller, imageUrl, caption, newId, now).data.1;
    SelectAppend(posts, post, (p: Post) => p.user == caller && p.isActive);
    SelectAppend(posts, post, (p: Post) => p.isActive);
    SelectAppend(posts, post, (p: Post) =>
      p.isActive && p.category == Some(category) && (p.user == caller || AreFriends(fs, caller, p.user)));
  }

  /** When the first post with the id is inactive, the single-post lookup finds nothing. */
  lemma FirstWithIdIsInactive(posts: seq<Post>, k: nat, id: Id)
    requires k < |posts| && posts[k].id == id && !posts[k].isActive
    requires forall j :: 0 <= j < k ==> posts[j].id != id
    ensures FindLive(posts, id).None?
  {
  }

  // ---------------------------------------------------------------- feeds

  /** One page of the matching posts, the page and limit read with their defaults; a
      negative skip makes the query throw and the route answer 500. */
  function PageOf(matches: seq<Post>, page: Option<int>, limit: Option<int>, error: string): (r: Reply<Listing<Post>>)
    ensures var p, l := ParamOr(page, 1), ParamOr(limit, DefaultLimit);
      && (r.Fail? <==> Skip(p, l) < 0)
      && (r.Fail? ==> r == Fail(SERVER_ERROR, error))
      && (r.Done? ==> r.status == OK && r.data.page == p && r.data.total == |matches|
                      && r.data.pages == CeilDiv(|matches|, l))
      && (r.Done? ==> |r.data.items| == PageSize(|matches|, p, l))
      && (r.Done? ==> ReadFrom(r.data.items, matches, Skip(p, l)))
    ensures r.Done? ==> forall x :: x in r.data.items ==> x in matches
  {
    var p, l := ParamOr(page, 1), ParamOr(limit, DefaultLimit);
    match Paginate(matches, p, l)
    case None => Fail(SERVER_ERROR, error)
    case Some(listing) =>
      assert forall j :: 0 <= j < |listing.items| ==> listing.items[j] in matches;
      Done(OK, listing)
  }

  /** `GET /api/posts`: every active post. */
  function Feed(posts: seq<Post>, page: Option<int>, limit: Option<int>): (r: Reply<Listing<Post>>)
    ensures r.Fail? <==> Skip(ParamOr(page, 1), ParamOr(limit, DefaultLimit)) < 0
    ensures r.Fail? ==> r == Fail(SERVER_ERROR, FeedError)
    ensures r.Done? ==> r.data.total == |Select(posts, (p: Post) => p.isActive)|
    ensures r.Done? ==> |r.data.items| == PageSize(r.data.total, ParamOr(page, 1), ParamOr(limit, DefaultLimit))
    ensures r.Done? ==> ReadFrom(r.data.items, Select(posts, (p: Post) => p.isActive),
      Skip(ParamOr(page, 1), ParamOr(limit, DefaultLimit)))
    ensures r.Done? ==> forall x :: x in r.data.items ==> x in posts && x.isActive
  {
    PageOf(Select(posts, (p: Post) => p.isActive), page, limit, FeedError)
  }

  /** Steps 1 and 2 of the category feed: the other party of each of the caller's
      accepted records, in record order, followed by the caller. */
  function Authors(fs: seq<Friendship>, caller: Id): (r: seq<Id>)
    ensures |r| > 0 && r[|r| - 1] == caller
  {
    var accepted := Select(fs, (f: Friendship) => f.status == Accepted && Involves(f, caller));
    seq(|accepted|, i requires 0 <= i < |accepted| => OtherParty(accepted[i], caller)) + [caller]
  }

  /** The category feed's authors are the caller and the caller's friends, as the
      accepted records define them. */
  lemma AuthorsAreCallerAndFriends(fs: seq<Friendship>, caller: Id, v: Id)
    ensures v in Authors(fs, caller) <==> v == caller || AreFriends(fs, caller, v)
  {
    var accepted := Select(fs, (f: Friendship) => f.status == Accepted && Involves(f, caller));
    var others := seq(|accepted|, i requires 0 <= i < |accepted| => OtherParty(accepted[i], caller));
    assert Authors(fs, caller) == others + [caller];
    if v in others {
      var i :| 0 <= i < |others| && others[i] == v;
      var f := accepted[i];
      assert f in accepted;
      var k :| 0 <= k < |fs| && fs[k] == f;
      assert Links(fs[k], caller, v);
    }
    if AreFriends(fs, caller, v) && v != caller {
      var k :| 0 <= k < |fs| && fs[k].status == Accepted && Links(fs[k], caller, v);
      assert fs[k] in accepted;
      var i :| 0 <= i < |accepted| && accepted[i] == fs[k];
      assert others[i] == v;
    }
  }

  /** `GET /api/posts/category/:categoryName`: the active posts of the category written
      by the caller or one of the caller's friends. */
  function CategoryFeed(fs: seq<Friendship>, posts: seq<Post>, caller: Id, category: string,
                        page: Option<int>, limit: Option<int>): (r: Reply<Listing<Post>>)
    ensures r.Fail? <==> Skip(ParamOr(page, 1), ParamOr(limit, DefaultLimit)) < 0
    ensures r.Fail? ==> r == Fail(SERVER_ERROR, CategoryError)
    ensures r.Done? ==> r.data.total == |Select(posts, (p: Post) =>
      p.isActive && p.category == Some(category) && (p.user == caller || AreFriends(fs, caller, p.user)))|
    ensures r.Done? ==> |r.data.items| == PageSize(r.data.total, ParamOr(page, 1), ParamOr(limit, DefaultLimit))
    ensures r.Done? ==> ReadFrom(r.data.items, Select(posts, (p: Post) =>
        p.isActive && p.category == Some(category) && (p.user == caller || AreFriends(fs, caller, p.user))),
      Skip(ParamOr(page, 1), ParamOr(limit, DefaultLimit)))
    ensures r.Done? ==> forall x :: x in r.data.items ==>
      && x in posts && x.isActive && x.category == Some(category)
      && (x.user == caller || AreFriends(fs, caller, x.user))
  {
    var authors := Authors(fs, caller);
    var matches := Select(posts, (p: Post) => p.user in authors && p.category == Some(category) && p.isActive);
    var r := PageOf(matches, page, limit, CategoryError);
    assert r.Done? ==> forall x :: x in r.data.items ==> x.user in authors by {
      if r.Done? {
        forall x | x in r.data.items ensures x.user in authors {
          assert x in matches;
        }
      }
    }
    forall v | v in authors ensures v == caller || AreFriends(fs, caller, v) {
      AuthorsAreCallerAndFriends(fs, caller, v);
    }
    forall j | 0 <= j < |posts| ensures posts[j].user in authors <==>
        (posts[j].user == caller || AreFriends(fs, caller, posts[j].user)) {
      AuthorsAreCallerAndFriends(fs, caller, posts[j].user);
    }
    SelectAgrees(posts, (p: Post) => p.user in authors && p.category == Some(category) && p.isActive,
      (p: Post) => p.isActive && p.category == Some(category) && (p.user == caller || AreFriends(fs, caller, p.user)));
    r
  }

  /** The ids of a populated list, or `None` when one entry populated to `null` and
      reading its `_id` throws. */
  function PresentIds(entries: seq<Option<Id>>): (r: Option<seq<Id>>)
    ensures r.Some? <==> forall i :: 0 <= i < |entries| ==> entries[i].Some?
    ensures r.Some? <==> None !in entries
    ensures r.Some? ==> forall v :: v in r.value <==> Some(v) in entries
    decreases |entries|
  {
    if |entries| == 0 then Some([])
    else
      var rest := PresentIds(entries[1..]);
      assert forall i :: 1 <= i < |entries| ==> entries[i] == entries[1..][i - 1];
      if entries[0].None? || rest.None? then None
      else
        assert forall v :: Some(v) in entries <==> Some(v) == entries[0] || Some(v) in entries[1..];
        Some([entries[0].value] + rest.value)
  }

  /** `GET /api/posts/friends`: the active posts of the caller and of the friends
      `getFriendsList` returns. When that list throws, or holds a friend that populated
      to `null`, the route answers 500. */
  function FriendsFeed(s: Social, posts: seq<Post>, caller: Id, page: Option<int>, limit: Option<int>): (r: Reply<Listing<Post>>)
    ensures r.Fail? ==> r == Fail(SERVER_ERROR, FriendsFeedError)
    ensures FriendsList(s, caller).None? ==> r.Fail?
    ensures FriendsList(s, caller).Some? && None in FriendsList(s, caller).value ==> r.Fail?
    ensures r.Done? <==>
      && FriendsList(s, caller).Some? && None !in FriendsList(s, caller).value
      && Skip(ParamOr(page, 1), ParamOr(limit, DefaultLimit)) >= 0
    ensures r.Done? ==> r.data.total == |Select(posts, (p: Post) =>
      p.isActive && (p.user == caller || (AreFriends(s.friendships, caller, p.user) && UserExists(s.users, p.user))))|
    ensures r.Done? ==> |r.data.items| == PageSize(r.data.total, ParamOr(page, 1), ParamOr(limit, DefaultLimit))
    ensures r.Done? ==> ReadFrom(r.data.items, Select(posts, (p: Post) =>
        p.isActive && (p.user == caller || (AreFriends(s.friendships, caller, p.user) && UserExists(s.users, p.user)))),
      Skip(ParamOr(page, 1), ParamOr(limit, DefaultLimit)))
    ensures r.Done? ==> forall x :: x in r.data.items ==>
      && x in posts && x.isActive
      && (x.user == caller || (AreFriends(s.friendships, caller, x.user) && UserExists(s.users, x.user)))
  {
    match FriendIds(s, caller)
    case None => Fail(SERVER_ERROR, FriendsFeedError)
    case Some(ids) => FriendsPage(s, posts, caller, ids, page, limit)
  }

  /** The ids the friends feed reads off `getFriendsList`: `None` when the list throws or
      holds a `null` entry, else exactly the caller's friends whose accounts exist. */
  function FriendIds(s: Social, caller: Id): (r: Option<seq<Id>>)
    ensures r.Some? <==> FriendsList(s, caller).Some? && None !in FriendsList(s, caller).value
    ensures r.Some? ==> forall v: Id :: v in r.value <==> AreFriends(s.friendships, caller, v) && UserExists(s.users, v)
  {
    match FriendsList(s, caller)
    case None => None
    case Some(friends) =>
      var ids := PresentIds(friends);
      assert ids.Some? ==> forall v: Id :: v in ids.value <==> Some(v) in friends;
      ids
  }

  /** The page of the friends feed once the listed ids, the caller's friends whose
      accounts exist, are known: the active posts of those ids and of the caller. */
  function FriendsPage(s: Social, posts: seq<Post>, caller: Id, ids: seq<Id>, page: Option<int>, limit: Option<int>): (r: Reply<Listing<Post>>)
    requires forall v: Id :: v in ids <==> AreFriends(s.friendships, caller, v) && UserExists(s.users, v)
    ensures r.Fail? <==> Skip(ParamOr(page, 1), ParamOr(limit, DefaultLimit)) < 0
    ensures r.Fail? ==> r == Fail(SERVER_ERROR, FriendsFeedError)
    ensures r.Done? ==> r.data.total == |Select(posts, (p: Post) =>
      p.isActive && (p.user == caller || (AreFriends(s.friendships, caller, p.user) && UserExists(s.users, p.user))))|
    ensures r.Done? ==> |r.data.items| == PageSize(r.data.total, ParamOr(page, 1), ParamOr(limit, DefaultLimit))
    ensures r.Done? ==> ReadFrom(r.data.items, Select(posts, (p: Post) =>
        p.isActive && (p.user == caller || (AreFriends(s.friendships, caller, p.user) && UserExists(s.users, p.user)))),
      Skip(ParamOr(page, 1), ParamOr(limit, DefaultLimit)))
    ensures r.Done? ==> forall x :: x in r.data.items ==>
      && x in posts && x.isActive
      && (x.user == caller || (AreFriends(s.friendships, caller, x.user) && UserExists(s.users, x.user)))
  {
    var authors := ids + [caller];
    FriendsFeedMatches(s, posts, caller, ids);
    PageOf(Select(posts, (p: Post) => p.user in authors && p.isActive), page, limit, FriendsFeedError)
  }

  /** The friends feed's filter over the listed ids selects the same posts as the filter
      over the caller, the friends and their accounts. */
  lemma FriendsFeedMatches(s: Social, posts: seq<Post>, caller: Id, ids: seq<Id>)
    requires forall v: Id :: v in ids <==> AreFriends(s.friendships, caller, v) && UserExists(s.users, v)
    ensures Select(posts, (p: Post) => p.user in ids + [caller] && p.isActive) ==
      Select(posts, (p: Post) =>
        p.isActive && (p.user == caller || (AreFriends(s.friendships, caller, p.user) && UserExists(s.users, p.user))))
  {
    var authors := ids + [caller];
    SelectAgrees(posts, (p: Post) => p.user in authors && p.isActive,
      (p: Post) => p.isActive && (p.user == caller || (AreFriends(s.friendships, caller, p.user) && UserExists(s.users, p.user))));
  }

  /** When every friend's account exists, the friends feed and the category feed draw
      on the same authors: the caller and the caller's friends. */
  lemma FriendsFeedAuthorsAgree(s: Social, caller: Id, v: Id)
    requires FriendsList(s, caller).Some?
    requires forall u: Id :: AreFriends(s.friendships, caller, u) ==> UserExists(s.users, u)
    ensures PresentIds(FriendsList(s, caller).value).Some?
    ensures v in PresentIds(FriendsList(s, caller).value).value + [caller] <==> v in Authors(s.friendships, caller)
  {
    var friends := FriendsList(s, caller).value;
    NoNullFriend(s, caller);
    forall i | 0 <= i < |friends| ensures friends[i].Some? {
      assert friends[i] in friends;
    }
    AuthorsAreCallerAndFriends(s.friendships, caller, v);
  }

  /** When every friend's account exists, no entry of the friends list is `null`. */
  lemma NoNullFriend(s: Social, caller: Id)
    requires FriendsList(s, caller).Some?
    requires forall u: Id :: AreFriends(s.friendships, caller, u) ==> UserExists(s.users, u)
    ensures None !in FriendsList(s, caller).value
  {
  }

  /** `GET /api/posts/user/:userId`: the user's active posts; a path value that is not an
      ObjectId makes the query throw. */
  function UserPosts(posts: seq<Post>, userId: PathId, page: Option<int>, limit: Option<int>): (r: Reply<Listing<Post>>)
    ensures userId.NotAnId? ==> r == Fail(SERVER_ERROR, UserPostsError)
    ensures r.Done? <==> userId.AnId? && Skip(ParamOr(page, 1), ParamOr(limit, DefaultLimit)) >= 0
    ensures r.Fail? ==> r == Fail(SERVER_ERROR, UserPostsError)
    ensures r.Done? ==> r.data.total == |Select(posts, (p: Post) => p.user == userId.id && p.isActive)|
    ensures r.Done? ==> |r.data.items| == PageSize(r.data.total, ParamOr(page, 1), ParamOr(limit, DefaultLimit))
    ensures r.Done? ==> ReadFrom(r.data.items, Select(posts, (p: Post) => p.user == userId.id && p.isActive),
      Skip(ParamOr(page, 1), ParamOr(limit, DefaultLimit)))
    ensures r.Done? ==> forall x :: x in r.data.items ==> x in posts && x.isActive && x.user == userId.id
  {
    match userId
    case NotAnId => Fail(SERVER_ERROR, UserPostsError)
    case AnId(u) => PageOf(Select(posts, (p: Post) => p.user == u && p.isActive), page, limit, UserPostsError)
  }
}

=== FILE: route_consistency.dfy ===
/** The two route families over one friendship collection. The static methods behind
    routes/friendship.js keep at most one record per pair; routes/friends.js lets a pair
    hold a second record (one per direction) after a decline, and keeps a weaker
    invariant: at most one pending-or-accepted record per pair. Each family on its own
    keeps the friends arrays mirroring the accepted records; mixing the two does not. */
module RouteConsistency {
  import opened Wrappers
  import opened Table
  import opened Text
  import opened Http
  import opened UserModel
  import opened FriendshipModel
  import opened FriendshipInvariants
  import FriendsRoutes
  import FriendshipRoutes

  /** No two records in the same direction: the unique index on (requester, recipient). */
  ghost predicate UniqueDirected(fs: seq<Friendship>) {
    forall j, k :: 0 <= j < |fs| && 0 <= k < |fs| && j != k ==>
      !(fs[j].requester == fs[k].requester && fs[j].recipient == fs[k].recipient)
  }

  /** At most one pending-or-accepted record joins a pair. */
  ghost predicate OneLive(fs: seq<Friendship>) {
    forall j, k :: 0 <= j < |fs| && 0 <= k < |fs| && j != k && fs[j].status.Live() && fs[k].status.Live() ==>
      !Links(fs[j], fs[k].requester, fs[k].recipient)
  }

  ghost predicate LooseShape(fs: seq<Friendship>) {
    NoSelf(fs) && UniqueIds(fs) && UniqueDirected(fs) && OneLive(fs)
  }

  /** The invariant routes/friends.js keeps. */
  ghost predicate LooselyConsistent(s: Social) {
    LooseShape(s.friendships) && Mirror(s)
  }

  /** The strict invariant implies the loose one. */
  lemma ConsistentIsLoose(s: Social)
    requires Consistent(s)
    ensures LooselyConsistent(s)
  {
  }

  // ---------------------------------------------------------------- the loose shape under edits

  lemma RemoveAtKeepsLooseShape(fs: seq<Friendship>, k: nat)
    requires k < |fs| && LooseShape(fs)
    ensures LooseShape(RemoveAt(fs, k))
  {
    var fs' := RemoveAt(fs, k);
    assert forall j :: 0 <= j < |fs'| ==> fs'[j] == fs[if j < k then j else j + 1];
  }

  /** A status change that does not revive a dead record keeps the loose shape. */
  lemma RestatusKeepsLooseShape(fs: seq<Friendship>, k: nat, g: Friendship)
    requires k < |fs| && LooseShape(fs)
    requires g.id == fs[k].id && g.requester == fs[k].requester && g.recipient == fs[k].recipient
    requires g.status.Live() ==> fs[k].status.Live()
    ensures LooseShape(fs[k := g])
  {
  }

  /** Only a record that is neither pending nor accepted can sit beside another record of
      its pair: the first record of a pair is the only one in its direction, so when no
      record runs in the new direction, every record of the pair is that first one. */
  lemma AppendKeepsLooseShape(fs: seq<Friendship>, f: Friendship)
    requires LooseShape(fs)
    requires f.requester != f.recipient && FreshId(fs, f.id)
    requires FindDirected(fs, f.requester, f.recipient).None?
    requires FindPair(fs, f.requester, f.recipient).None? ||
      !fs[FindPair(fs, f.requester, f.recipient).value].status.Live()
    ensures LooseShape(fs + [f])
  {
    var fs' := fs + [f];
    assert forall j :: 0 <= j < |fs| ==> fs'[j] == fs[j];
    assert fs'[|fs|] == f;
    forall j | 0 <= j < |fs| && Links(fs[j], f.requester, f.recipient)
      ensures !fs[j].status.Live()
    {
      var k0 := FindPair(fs, f.requester, f.recipient).value;
    }
  }

  /** A pair no record joins has no record in either direction. */
  lemma UnlinkedPair(fs: seq<Friendship>, a: Id, b: Id)
    requires !Linked(fs, a, b)
    ensures FindDirected(fs, a, b).None? && FindPair(fs, a, b).None?
  {
  }

  // ---------------------------------------------------------------- each operation keeps the loose invariant

  /** Appending a pending record under the conditions of `POST /api/friends/request`
      keeps the loose invariant. */
  lemma AppendKeepsLoose(s: Social, f: Friendship)
    requires LooselyConsistent(s)
    requires f.status == Pending && f.requester != f.recipient && FreshId(s.friendships, f.id)
    requires FindDirected(s.friendships, f.requester, f.recipient).None?
    requires FindPair(s.friendships, f.requester, f.recipient).None? ||
      !s.friendships[FindPair(s.friendships, f.requester, f.recipient).value].status.Live()
    ensures LooselyConsistent(Social(s.users, s.friendships + [f]))
  {
    AppendKeepsLooseShape(s.friendships, f);
    AppendUnacceptedKeepsMirror(s, f);
  }

  lemma SendRequestKeepsLoose(s: Social, caller: Id, recipientId: RawId, message: Option<string>, newId: Id, now: nat)
    requires LooselyConsistent(s) && FreshId(s.friendships, newId)
    requires FriendsRoutes.SendRequest(s, caller, recipientId, message, newId, now).Done?
    ensures LooselyConsistent(FriendsRoutes.SendRequest(s, caller, recipientId, message, newId, now).data.0)
  {
    var r := FriendsRoutes.SendRequest(s, caller, recipientId, message, newId, now);
    var t := recipientId.id;
    assert FriendsRoutes.RequestAllowed(s, caller, t, message);
    var f := Friendship(newId, caller, t, Pending, RequestText(message), now, now);
    assert r.data.0 == Social(s.users, s.friendships + [f]);
    AppendKeepsLoose(s, f);
  }

  lemma RouteAcceptKeepsLoose(s: Social, caller: Id, id: PathId, now: nat)
    requires LooselyConsistent(s)
    requires FriendsRoutes.Accept(s, caller, id, now).Done?
    ensures LooselyConsistent(FriendsRoutes.Accept(s, caller, id, now).data.0)
  {
    var k := FindById(s.friendships, id.id).value;
    RestatusKeepsLooseShape(s.friendships, k, ApplyAccept(s, k, now).1);
    ApplyAcceptKeepsMirror(s, k, now);
  }

  /** Deleting through routes/friends.js pulls the arrays exactly when the record was the
      pair's accepted one, which under the loose shape is the only accepted one. */
  lemma RouteDeleteKeepsLoose(s: Social, caller: Id, id: PathId)
    requires LooselyConsistent(s)
    requires FriendsRoutes.Delete(s, caller, id).Done?
    ensures LooselyConsistent(FriendsRoutes.Delete(s, caller, id).data)
  {
    var fs := s.friendships;
    var k := FindById(fs, id.id).value;
    var f := fs[k];
    RemoveAtKeepsLooseShape(fs, k);
    if f.status == Accepted {
      assert f.status.Live();
      PullPairKeepsMirror(s, k, f.requester, f.recipient);
    } else {
      RemoveUnacceptedKeepsMirror(s, k);
    }
  }

  lemma CreateKeepsLoose(s: Social, requester: Id, recipient: Id, message: Option<string>, newId: Id, now: nat)
    requires LooselyConsistent(s) && FreshId(s.friendships, newId)
    requires CreateFriendship(s, requester, recipient, message, newId, now).Ok?
    ensures LooselyConsistent(CreateFriendship(s, requester, recipient, message, newId, now).value.0)
  {
    var r := CreateFriendship(s, requester, recipient, message, newId, now);
    assert !Linked(s.friendships, requester, recipient);
    var f := Friendship(newId, requester, recipient, Pending, RequestText(message), now, now);
    assert r.value.0 == Social(s.users, s.friendships + [f]);
    UnlinkedPair(s.friendships, requester, recipient);
    AppendKeepsLoose(s, f);
  }

  lemma AcceptKeepsLoose(s: Social, friendshipId: Id, user: Id, now: nat)
    requires LooselyConsistent(s)
    requires AcceptFriendship(s, friendshipId, user, now).Ok?
    ensures LooselyConsistent(AcceptFriendship(s, friendshipId, user, now).value.0)
  {
    var k := FindById(s.friendships, friendshipId).value;
    RestatusKeepsLooseShape(s.friendships, k, ApplyAccept(s, k, now).1);
    ApplyAcceptKeepsMirror(s, k, now);
  }

  lemma DeclineKeepsLoose(s: Social, friendshipId: Id, user: Id, now: nat)
    requires LooselyConsistent(s)
    requires DeclineFriendship(s, friendshipId, user, now).Ok?
    ensures LooselyConsistent(DeclineFriendship(s, friendshipId, user, now).value)
  {
    var k := FindById(s.friendships, friendshipId).value;
    var g := s.friendships[k].(status := Declined, updatedAt := now);
    RestatusKeepsLooseShape(s.friendships, k, g);
    RestatusUnacceptedKeepsMirror(s, k, g);
  }

  lemma CancelKeepsLoose(s: Social, friendshipId: Id, user: Id)
    requires LooselyConsistent(s)
    requires CancelFriendship(s, friendshipId, user).Ok?
    ensures LooselyConsistent(CancelFriendship(s, friendshipId, user).value)
  {
    var k := FindById(s.friendships, friendshipId).value;
    RemoveAtKeepsLooseShape(s.friendships, k);
    RemoveUnacceptedKeepsMirror(s, k);
  }

  /** The routes of routes/friends.js that do not create records keep the strict invariant
      too. */
  lemma RouteAcceptKeepsConsistent(s: Social, caller: Id, id: PathId, now: nat)
    requires Consistent(s)
    requires FriendsRoutes.Accept(s, caller, id, now).Done?
    ensures Consistent(FriendsRoutes.Accept(s, caller, id, now).data.0)
  {
    AcceptKeepsConsistent(s, id.id, caller, now);
  }

  lemma RouteDeleteKeepsConsistent(s: Social, caller: Id, id: PathId)
    requires Consistent(s)
    requires FriendsRoutes.Delete(s, caller, id).Done?
    ensures Consistent(FriendsRoutes.Delete(s, caller, id).data)
  {
    var fs := s.friendships;
    var k := FindById(fs, id.id).value;
    var f := fs[k];
    RemoveAtKeepsShape(fs, k);
    if f.status == Accepted {
      PullPairKeepsMirror(s, k, f.requester, f.recipient);
    } else {
      RemoveUnacceptedKeepsMirror(s, k);
    }
  }

  // ---------------------------------------------------------------- runs of operations

  /** A write of either route family, with the arguments the client supplies. */
  datatype Op =
    | StaticCreate(requester: Id, recipient: Id, message: Option<string>)
    | StaticAccept(friendshipId: Id, user: Id)
    | StaticDecline(friendshipId: Id, user: Id)
    | StaticCancel(friendshipId: Id, user: Id)
    | StaticRemove(current: Id, other: Id)
    | RouteSend(caller: Id, recipientId: RawId, message: Option<string>)
    | RouteAccept(caller: Id, id: PathId)
    | RouteDelete(caller: Id, id: PathId)

  /** One more than the largest id in use: a fresh id. */
  function NextId(fs: seq<Friendship>): (r: Id)
    ensures forall k :: 0 <= k < |fs| ==> fs[k].id < r
    ensures FreshId(fs, r)
    decreases |fs|
  {
    if |fs| == 0 then 1
    else
      var rest := NextId(fs[1..]);
      assert forall k :: 1 <= k < |fs| ==> fs[k] == fs[1..][k - 1];
      if fs[0].id < rest then rest else fs[0].id + 1
  }

  /** One write at time `now`; a refused write leaves the state as it was. */
  function Step(s: Social, op: Op, now: nat): Social {
    var newId := NextId(s.friendships);
    match op
    case StaticCreate(a, b, m) =>
      var r := CreateFriendship(s, a, b, m, newId, now);
      if r.Ok? then r.value.0 else s
    case StaticAccept(fid, u) =>
      var r := AcceptFriendship(s, fid, u, now);
      if r.Ok? then r.value.0 else s
    case StaticDecline(fid, u) =>
      var r := DeclineFriendship(s, fid, u, now);
      if r.Ok? then r.value else s
    case StaticCancel(fid, u) =>
      var r := CancelFriendship(s, fid, u);
      if r.Ok? then r.value else s
    case StaticRemove(a, b) =>
      var r := RemoveFriendship(s, a, b);
      if r.Ok? then r.value else s
    case RouteSend(c, t, m) =>
      var r := FriendsRoutes.SendRequest(s, c, t, m, newId, now);
      if r.Done? then r.data.0 else s
    case RouteAccept(c, id) =>
      var r := FriendsRoutes.Accept(s, c, id, now);
      if r.Done? then r.data.0 else s
    case RouteDelete(c, id) =>
      var r := FriendsRoutes.Delete(s, c, id);
      if r.Done? then r.data else s
  }

  /** The writes in order, the i-th at time `now + i`. */
  function Run(s: Social, ops: seq<Op>, now: nat): Social
    decreases |ops|
  {
    if |ops| == 0 then s else Run(Step(s, ops[0], now), ops[1..], now + 1)
  }

  lemma StepKeepsConsistent(s: Social, op: Op, now: nat)
    requires Consistent(s) && !op.RouteSend?
    ensures Consistent(Step(s, op, now))
  {
    var newId := NextId(s.friendships);
    match op
    case StaticCreate(a, b, m) =>
      if CreateFriendship(s, a, b, m, newId, now).Ok? { CreateKeepsConsistent(s, a, b, m, newId, now); }
    case StaticAccept(fid, u) =>
      if AcceptFriendship(s, fid, u, now).Ok? { AcceptKeepsConsistent(s, fid, u, now); }
    case StaticDecline(fid, u) =>
      if DeclineFriendship(s, fid, u, now).Ok? { DeclineKeepsConsistent(s, fid, u, now); }
    case StaticCancel(fid, u) =>
      if CancelFriendship(s, fid, u).Ok? { CancelKeepsConsistent(s, fid, u); }
    case StaticRemove(a, b) =>
      if RemoveFriendship(s, a, b).Ok? { RemoveKeepsConsistent(s, a, b); }
    case RouteAccept(c, id) =>
      if FriendsRoutes.Accept(s, c, id, now).Done? { RouteAcceptKeepsConsistent(s, c, id, now); }
    case RouteDelete(c, id) =>
      if FriendsRoutes.Delete(s, c, id).Done? { RouteDeleteKeepsConsistent(s, c, id); }
  }

  lemma StepKeepsLoose(s: Social, op: Op, now: nat)
    requires LooselyConsistent(s) && !op.StaticRemove?
    ensures LooselyConsistent(Step(s, op, now))
  {
    var newId := NextId(s.friendships);
    match op
    case StaticCreate(a, b, m) =>
      if CreateFriendship(s, a, b, m, newId, now).Ok? { CreateKeepsLoose(s, a, b, m, newId, now); }
    case StaticAccept(fid, u) =>
      if AcceptFriendship(s, fid, u, now).Ok? { AcceptKeepsLoose(s, fid, u, now); }
    case StaticDecline(fid, u) =>
      if DeclineFriendship(s, fid, u, now).Ok? { DeclineKeepsLoose(s, fid, u, now); }
    case StaticCancel(fid, u) =>
      if CancelFriendship(s, fid, u).Ok? { CancelKeepsLoose(s, fid, u); }
    case RouteSend(c, t, m) =>
      if FriendsRoutes.SendRequest(s, c, t, m, newId, now).Done? { SendRequestKeepsLoose(s, c, t, m, newId, now); }
    case RouteAccept(c, id) =>
      if FriendsRoutes.Accept(s, c, id, now).Done? { RouteAcceptKeepsLoose(s, c, id, now); }
    case RouteDelete(c, id) =>
      if FriendsRoutes.Delete(s, c, id).Done? { RouteDeleteKeepsLoose(s, c, id); }
  }

  /** Without `POST /api/friends/request`, every run keeps at most one record per pair and
      the friends arrays in step with the accepted records. */
  lemma {:induction false} RunKeepsConsistent(s: Social, ops: seq<Op>, now: nat)
    requires Consistent(s)
    requires forall i :: 0 <= i < |ops| ==> !ops[i].RouteSend?
    ensures Consistent(Run(s, ops, now))
    decreases |ops|
  {
    if |ops| > 0 {
      StepKeepsConsistent(s, ops[0], now);
      RunKeepsConsistent(Step(s, ops[0], now), ops[1..], now + 1);
    }
  }

  /** Without `removeFriendship`, every run keeps the loose invariant, and with it the
      friends arrays in step with the accepted records. */
  lemma {:induction false} RunKeepsLoose(s: Social, ops: seq<Op>, now: nat)
    requires LooselyConsistent(s)
    requires forall i :: 0 <= i < |ops| ==> !ops[i].StaticRemove?
    ensures LooselyConsistent(Run(s, ops, now))
    decreases |ops|
  {
    if |ops| > 0 {
      StepKeepsLoose(s, ops[0], now);
      RunKeepsLoose(Step(s, ops[0], now), ops[1..], now + 1);
    }
  }

  // ---------------------------------------------------------------- mixing the two families

  /** Two distinct users with no friends, as the run below starts from them. */
  predicate Strangers(u1: User, u2: User) {
    u1.id != u2.id && u1.friends == [] && u2.friends == []
  }

  /** The first user asks the second through routes/friends.js, the second declines, the
      second asks back through routes/friends.js (allowed: the pair's first record is
      declined), the first accepts, and the first removes the friend through
      routes/friendship.js. Record ids are handed out from 1. */
  function DeclinedThenRemoved(a: Id, b: Id): seq<Op> {
    [ RouteSend(a, Given(b), None),
      StaticDecline(1, b),
      RouteSend(b, Given(a), None),
      StaticAccept(2, a),
      StaticRemove(a, b) ]
  }

  // The states the run passes through.
  function Start(u1: User, u2: User): Social { Social([u1, u2], []) }
  function Requested(u1: User, u2: User): Social {
    Social([u1, u2], [Friendship(1, u1.id, u2.id, Pending, "", 0, 0)])
  }
  function Declined1(a: Id, b: Id): Friendship { Friendship(1, a, b, Declined, "", 0, 1) }
  function AfterDecline(u1: User, u2: User): Social { Social([u1, u2], [Declined1(u1.id, u2.id)]) }
  function AskedBack(u1: User, u2: User): Social {
    Social([u1, u2], [Declined1(u1.id, u2.id), Friendship(2, u2.id, u1.id, Pending, "", 2, 2)])
  }
  function Accepted2(a: Id, b: Id): Friendship { Friendship(2, b, a, Accepted, "", 2, 3) }
  function AfterAccept(u1: User, u2: User): Social {
    Social([u1.(friends := [u2.id]), u2.(friends := [u1.id])],
           [Declined1(u1.id, u2.id), Accepted2(u1.id, u2.id)])
  }
  function AfterRemove(u1: User, u2: User): Social { Social([u1, u2], [Accepted2(u1.id, u2.id)]) }

  /** A request the routes of routes/friends.js allow appends a record under the next id. */
  lemma StepSendDone(s: Social, c: Id, t: Id, m: Option<string>, now: nat)
    requires FriendsRoutes.RequestAllowed(s, c, t, m)
    ensures Step(s, RouteSend(c, Given(t), m), now) ==
      Social(s.users, s.friendships + [Friendship(NextId(s.friendships), c, t, Pending, RequestText(m), now, now)])
  {
    var r := FriendsRoutes.SendRequest(s, c, Given(t), m, NextId(s.friendships), now);
    assert r.Done?;
  }

  lemma StepDeclineDone(s: Social, fid: Id, u: Id, now: nat)
    requires DeclineFriendship(s, fid, u, now).Ok?
    ensures Step(s, StaticDecline(fid, u), now) == DeclineFriendship(s, fid, u, now).value
  {
  }

  lemma StepAcceptDone(s: Social, fid: Id, u: Id, now: nat)
    requires AcceptFriendship(s, fid, u, now).Ok?
    ensures Step(s, StaticAccept(fid, u), now) == AcceptFriendship(s, fid, u, now).value.0
  {
  }

  lemma StepRemoveDone(s: Social, a: Id, b: Id, now: nat)
    requires RemoveFriendship(s, a, b).Ok?
    ensures Step(s, StaticRemove(a, b), now) == RemoveFriendship(s, a, b).value
  {
  }

  lemma NoMessage()
    ensures RequestText(None) == ""
  {
    assert Trim("") == "";
  }

  lemma StepRequest(u1: User, u2: User)
    requires Strangers(u1, u2)
    ensures Step(Start(u1, u2), RouteSend(u1.id, Given(u2.id), None), 0) == Requested(u1, u2)
  {
    var s := Start(u1, u2);
    NoMessage();
    assert FindUser(s.users, u2.id) == Some(1) by {
      assert s.users[1].id == u2.id;
    }
    assert FriendsRoutes.RequestAllowed(s, u1.id, u2.id, None);
    StepSendDone(s, u1.id, u2.id, None, 0);
    assert NextId([]) == 1;
    assert [] + [Friendship(1, u1.id, u2.id, Pending, "", 0, 0)] == Requested(u1, u2).friendships;
  }

  lemma StepDecline(u1: User, u2: User)
    requires Strangers(u1, u2)
    ensures Step(Requested(u1, u2), StaticDecline(1, u2.id), 1) == AfterDecline(u1, u2)
  {
    var s := Requested(u1, u2);
    assert FindById(s.friendships, 1) == Some(0);
    StepDeclineDone(s, 1, u2.id, 1);
    assert s.friendships[0 := Declined1(u1.id, u2.id)] == [Declined1(u1.id, u2.id)];
  }

  lemma StepAskBack(u1: User, u2: User)
    requires Strangers(u1, u2)
    ensures Step(AfterDecline(u1, u2), RouteSend(u2.id, Given(u1.id), None), 2) == AskedBack(u1, u2)
  {
    var s := AfterDecline(u1, u2);
    var fs := s.friendships;
    NoMessage();
    assert FindUser(s.users, u1.id) == Some(0) by {
      assert s.users[0].id == u1.id;
    }
    assert FindPair(fs, u2.id, u1.id) == Some(0) by {
      assert Links(fs[0], u2.id, u1.id);
    }
    assert FindDirected(fs, u2.id, u1.id).None?;
    assert FriendsRoutes.RequestAllowed(s, u2.id, u1.id, None);
    StepSendDone(s, u2.id, u1.id, None, 2);
    assert NextId(fs) == 2;
    assert fs + [Friendship(2, u2.id, u1.id, Pending, "", 2, 2)] == AskedBack(u1, u2).friendships;
  }

  /** Pulling the only element leaves nothing. */
  lemma PullOnly(x: Id)
    ensures Pull([x], x) == []
  {
    assert [x][1..] == [];
  }

  /** The two `$addToSet` writes of the acceptance make each user the other's only friend. */
  lemma AddBothWays(u1: User, u2: User)
    requires Strangers(u1, u2)
    ensures AddFriend(AddFriend([u1, u2], u2.id, u1.id), u1.id, u2.id) == AfterAccept(u1, u2).users
  {
    var x := AddFriend([u1, u2], u2.id, u1.id);
    assert AddToSet(u2.friends, u1.id) == [u1.id];
    assert x == [u1, u2.(friends := [u1.id])];
    var y := AddFriend(x, u1.id, u2.id);
    assert AddToSet(u1.friends, u2.id) == [u2.id];
    assert y == [u1.(friends := [u2.id]), u2.(friends := [u1.id])];
  }

  /** The two `$pull` writes of the removal empty both arrays again. */
  lemma PullBothWays(u1: User, u2: User)
    requires Strangers(u1, u2)
    ensures PullFriend(PullFriend(AfterAccept(u1, u2).users, u1.id, u2.id), u2.id, u1.id) == [u1, u2]
  {
    var users := AfterAccept(u1, u2).users;
    var x := PullFriend(users, u1.id, u2.id);
    PullOnly(u2.id);
    assert x == [u1, u2.(friends := [u1.id])];
    var y := PullFriend(x, u2.id, u1.id);
    PullOnly(u1.id);
    assert y == [u1, u2];
  }

  lemma StepAccept(u1: User, u2: User)
    requires Strangers(u1, u2)
    ensures Step(AskedBack(u1, u2), StaticAccept(2, u1.id), 3) == AfterAccept(u1, u2)
  {
    var s := AskedBack(u1, u2);
    assert FindById(s.friendships, 2) == Some(1) by {
      assert s.friendships[0].id == 1 && s.friendships[1].id == 2;
    }
    StepAcceptDone(s, 2, u1.id, 3);
    AddBothWays(u1, u2);
    assert ApplyAccept(s, 1, 3).0 == AfterAccept(u1, u2);
  }

  lemma StepRemove(u1: User, u2: User)
    requires Strangers(u1, u2)
    ensures Step(AfterAccept(u1, u2), StaticRemove(u1.id, u2.id), 4) == AfterRemove(u1, u2)
  {
    var s := AfterAccept(u1, u2);
    assert FindPair(s.friendships, u1.id, u2.id) == Some(0) by {
      assert Links(s.friendships[0], u1.id, u2.id);
    }
    StepRemoveDone(s, u1.id, u2.id, 4);
    PullBothWays(u1, u2);
    assert RemoveAt(s.friendships, 0) == [Accepted2(u1.id, u2.id)];
  }

  /** A run starting with `op` takes that step first. */
  lemma RunCons(s: Social, op: Op, rest: seq<Op>, now: nat)
    ensures Run(s, [op] + rest, now) == Run(Step(s, op, now), rest, now + 1)
  {
    assert ([op] + rest)[1..] == rest;
  }

  /** The first three writes of the run lead to `AskedBack`. */
  lemma FirstThree(u1: User, u2: User)
    requires Strangers(u1, u2)
    ensures Run(Start(u1, u2), DeclinedThenRemoved(u1.id, u2.id)[..3], 0) == AskedBack(u1, u2)
  {
    var ops := DeclinedThenRemoved(u1.id, u2.id);
    assert ops[..3] == [ops[0]] + ([ops[1]] + ([ops[2]] + []));
    StepRequest(u1, u2);
    RunCons(Start(u1, u2), ops[0], [ops[1]] + ([ops[2]] + []), 0);
    StepDecline(u1, u2);
    RunCons(Requested(u1, u2), ops[1], [ops[2]] + [], 1);
    StepAskBack(u1, u2);
    RunCons(AfterDecline(u1, u2), ops[2], [], 2);
  }

  /** The whole run ends in `AfterRemove`. */
  lemma WholeRun(u1: User, u2: User)
    requires Strangers(u1, u2)
    ensures Run(Start(u1, u2), DeclinedThenRemoved(u1.id, u2.id), 0) == AfterRemove(u1, u2)
  {
    var ops := DeclinedThenRemoved(u1.id, u2.id);
    var tail := [ops[3]] + ([ops[4]] + []);
    assert ops == [ops[0]] + ([ops[1]] + ([ops[2]] + tail));
    StepRequest(u1, u2);
    RunCons(Start(u1, u2), ops[0], [ops[1]] + ([ops[2]] + tail), 0);
    StepDecline(u1, u2);
    RunCons(Requested(u1, u2), ops[1], [ops[2]] + tail, 1);
    StepAskBack(u1, u2);
    RunCons(AfterDecline(u1, u2), ops[2], tail, 2);
    StepAccept(u1, u2);
    RunCons(AskedBack(u1, u2), ops[3], [ops[4]] + [], 3);
    StepRemove(u1, u2);
    RunCons(AfterAccept(u1, u2), ops[4], [], 4);
  }

  /** Two users without friends start out consistent. */
  lemma StartConsistent(u1: User, u2: User)
    requires Strangers(u1, u2)
    ensures Consistent(Start(u1, u2))
  {
  }

  /** A request repeated in the opposite direction after a decline creates a second record
      for the pair, which the strict invariant forbids. */
  lemma ReRequestAfterDeclineDuplicatesPair(u1: User, u2: User)
    requires Strangers(u1, u2)
    ensures !UniquePairs(Run(Start(u1, u2), DeclinedThenRemoved(u1.id, u2.id)[..3], 0).friendships)
  {
    FirstThree(u1, u2);
    var fs := AskedBack(u1, u2).friendships;
    assert Links(fs[0], fs[1].requester, fs[1].recipient);
  }

  /** Mixing the families breaks the mirror: `removeFriendship` deletes the pair's first
      record (the declined one), pulls both arrays, and leaves the accepted record behind,
      so the two are friends by their records but not by their arrays. */
  lemma MixingBreaksMirror(u1: User, u2: User)
    requires Strangers(u1, u2)
    ensures var s := Run(Start(u1, u2), DeclinedThenRemoved(u1.id, u2.id), 0);
      && AreFriends(s.friendships, u1.id, u2.id)
      && |s.users| == 2 && s.users[0].id == u1.id && u2.id !in s.users[0].friends
      && !Mirror(s)
  {
    WholeRun(u1, u2);
    var s := AfterRemove(u1, u2);
    assert s.friendships[0].status == Accepted && Links(s.friendships[0], u1.id, u2.id);
  }
}

=== FILE: table.dfy ===
/** A MongoDB collection as a sequence of documents in natural (insertion) order, and the
    query primitives the routes use: `findOne` is the first match, `find` keeps every match
    in order, `countDocuments` counts them. */
module Table {
  import opened Wrappers

  /** Every document carries an ObjectId; the model numbers them. */
  type Id = nat

  /** `findOne(filter)`: the index of the first document satisfying the filter. */
  function FindFirst<T>(rows: seq<T>, p: T -> bool): (r: Option<nat>)
    ensures r.Some? ==> r.value < |rows| && p(rows[r.value])
    ensures r.Some? ==> forall j :: 0 <= j < r.value ==> !p(rows[j])
    ensures r.None? <==> forall j :: 0 <= j < |rows| ==> !p(rows[j])
    decreases |rows|
  {
    if |rows| == 0 then None
    else if p(rows[0]) then Some(0)
    else match FindFirst(rows[1..], p)
      case None => None
      case Some(k) => Some(k + 1)
  }

  /** `find(filter)`: every matching document, in natural order. A matching document
      occurs in the result as often as in the collection, and SelectConcat states the
      order. */
  function Select<T(!new)>(rows: seq<T>, p: T -> bool): (r: seq<T>)
    ensures |r| <= |rows|
    ensures forall x :: x in r <==> x in rows && p(x)
    ensures forall x :: multiset(r)[x] == if p(x) then multiset(rows)[x] else 0
    decreases |rows|
  {
    if |rows| == 0 then []
    else
      var rest := Select(rows[1..], p);
      assert rows == [rows[0]] + rows[1..];
      assert forall x :: x in rows <==> x == rows[0] || x in rows[1..];
      if p(rows[0]) then [rows[0]] + rest else rest
  }

  /** A single document is selected exactly when it matches. */
  lemma SelectOne<T(!new)>(x: T, p: T -> bool)
    ensures Select([x], p) == if p(x) then [x] else []
  {
    assert [x][1..] == [];
  }

  /** Selecting from a concatenation selects from each part, in order; with SelectOne,
      this pins `find` down as the order-keeping filter. */
  lemma {:induction false} SelectConcat<T(!new)>(a: seq<T>, b: seq<T>, p: T -> bool)
    ensures Select(a + b, p) == Select(a, p) + Select(b, p)
    decreases |a|
  {
    if |a| == 0 {
      assert a + b == b;
    } else {
      assert (a + b)[1..] == a[1..] + b;
      SelectConcat(a[1..], b, p);
    }
  }

  /** Two filters that agree on every document select the same documents. */
  lemma {:induction false} SelectAgrees<T(!new)>(rows: seq<T>, p: T -> bool, q: T -> bool)
    requires forall j :: 0 <= j < |rows| ==> p(rows[j]) == q(rows[j])
    ensures Select(rows, p) == Select(rows, q)
    decreases |rows|
  {
    if |rows| > 0 {
      assert forall j :: 1 <= j < |rows| ==> rows[1..][j - 1] == rows[j];
      SelectAgrees(rows[1..], p, q);
    }
  }

  /** Replacing one document changes the count of matches by what the old and the new
      document contribute. */
  lemma SelectUpdate<T(!new)>(rows: seq<T>, k: nat, y: T, p: T -> bool)
    requires k < |rows|
    ensures |Select(rows[k := y], p)| + (if p(rows[k]) then 1 else 0)
         == |Select(rows, p)| + (if p(y) then 1 else 0)
  {
    assert rows == rows[..k] + [rows[k]] + rows[k + 1..];
    assert rows[k := y] == rows[..k] + [y] + rows[k + 1..];
    SelectConcat(rows[..k] + [rows[k]], rows[k + 1..], p);
    SelectConcat(rows[..k], [rows[k]], p);
    SelectConcat(rows[..k] + [y], rows[k + 1..], p);
    SelectConcat(rows[..k], [y], p);
  }

  /** `countDocuments(filter)`. */
  function Count<T(!new)>(rows: seq<T>, p: T -> bool): nat
  {
    |Select(rows, p)|
  }

  /** A filter no document satisfies selects nothing. */
  lemma SelectNone<T(!new)>(rows: seq<T>, p: T -> bool)
    requires forall j :: 0 <= j < |rows| ==> !p(rows[j])
    ensures Select(rows, p) == []
  {
  }

  /** Selecting after appending a document selects it last, if it matches. */
  lemma SelectAppend<T(!new)>(rows: seq<T>, x: T, p: T -> bool)
    ensures Select(rows + [x], p) == Select(rows, p) + (if p(x) then [x] else [])
  {
    SelectConcat(rows, [x], p);
    SelectOne(x, p);
  }

  /** The document at index k removed, the others kept in order. */
  function RemoveAt<T>(rows: seq<T>, k: nat): (r: seq<T>)
    requires k < |rows|
    ensures |r| == |rows| - 1
    ensures forall j :: 0 <= j < k ==> r[j] == rows[j]
    ensures forall j :: k <= j < |r| ==> r[j] == rows[j + 1]
  {
    rows[..k] + rows[k + 1..]
  }

  /** Every document satisfying the filter replaced by `f` of it: an update by `_id`
      (there is at most one document with a given `_id`). */
  function UpdateWhere<T>(rows: seq<T>, p: T -> bool, f: T -> T): (r: seq<T>)
    ensures |r| == |rows|
    ensures forall j :: 0 <= j < |rows| ==> r[j] == (if p(rows[j]) then f(rows[j]) else rows[j])
  {
    seq(|rows|, j requires 0 <= j < |rows| => if p(rows[j]) then f(rows[j]) else rows[j])
  }

  // ---------------------------------------------------------------- array update operators

  predicate NoDuplicates<T(==)>(xs: seq<T>) {
    forall i, j :: 0 <= i < j < |xs| ==> xs[i] != xs[j]
  }

  /** `$addToSet`: appends the value unless the array already holds it. */
  function AddToSet<T(==,!new)>(xs: seq<T>, x: T): (r: seq<T>)
    ensures forall y :: y in r <==> y in xs || y == x
    ensures x in xs ==> r == xs
    ensures NoDuplicates(xs) ==> NoDuplicates(r)
  {
    if x in xs then xs else xs + [x]
  }

  /** `$pull`: removes every occurrence of the value, keeping the rest in order. */
  function Pull<T(==,!new)>(xs: seq<T>, x: T): (r: seq<T>)
    ensures forall y :: y in r <==> y in xs && y != x
    ensures x !in xs ==> r == xs
    ensures NoDuplicates(xs) ==> NoDuplicates(r)
    decreases |xs|
  {
    if |xs| == 0 then []
    else
      var rest := Pull(xs[1..], x);
      assert forall y :: y in xs <==> y == xs[0] || y in xs[1..];
      if xs[0] == x then rest
      else
        assert NoDuplicates(xs) ==> xs[0] !in xs[1..] && NoDuplicates([xs[0]] + rest);
        [xs[0]] + rest
  }

  /** Pulling a value that was just added to a set that lacked it restores the array. */
  lemma PullUndoesAddToSet<T(!new)>(xs: seq<T>, x: T)
    requires x !in xs
    ensures Pull(AddToSet(xs, x), x) == xs
  {
    PullAppended(xs, x);
  }

  lemma {:induction false} PullAppended<T(!new)>(xs: seq<T>, x: T)
    requires x !in xs
    ensures Pull(xs + [x], x) == xs
    decreases |xs|
  {
    if |xs| > 0 {
      assert (xs + [x])[1..] == xs[1..] + [x];
      PullAppended(xs[1..], x);
    }
  }
}

=== FILE: text.dfy ===
/** Character classes, trimming, lengths and decimal numerals, as the JavaScript
    runtime, Mongoose and express-validator see them. Strings are sequences of Unicode
    scalar values. */
module Text {

  /** White space as `String.prototype.trim` and the regular-expression class `\s` see it:
      the WhiteSpace and LineTerminator code points of ECMAScript. */
  const Spaces: set<char> := {
    ' ', '\t', '\n', '\r', '\U{000B}', '\U{000C}', '\U{00A0}', '\U{1680}',
    '\U{2000}', '\U{2001}', '\U{2002}', '\U{2003}', '\U{2004}', '\U{2005}',
    '\U{2006}', '\U{2007}', '\U{2008}', '\U{2009}', '\U{200A}',
    '\U{2028}', '\U{2029}', '\U{202F}', '\U{205F}', '\U{3000}', '\U{FEFF}' }

  predicate IsSpace(c: char) { c in Spaces }

  /** The line terminators, which the regular-expression `.` does not match. */
  predicate IsLineTerminator(c: char) {
    c == '\n' || c == '\r' || c == '\U{2028}' || c == '\U{2029}'
  }

  predicate IsDigit(c: char) { '0' <= c <= '9' }
  predicate IsLower(c: char) { 'a' <= c <= 'z' }
  predicate IsUpper(c: char) { 'A' <= c <= 'Z' }

  /** The regular-expression class `[a-zA-Z0-9_]` (the same as `\w`). */
  predicate IsWordChar(c: char) { IsLower(c) || IsUpper(c) || IsDigit(c) || c == '_' }

  predicate AllDigits(s: string) { forall i :: 0 <= i < |s| ==> IsDigit(s[i]) }
  predicate AllWordChars(s: string) { forall i :: 0 <= i < |s| ==> IsWordChar(s[i]) }

  /** The first index at or after `i` that does not hold white space (or `|s|`). */
  function SpaceEnd(s: string, i: nat): (n: nat)
    requires i <= |s|
    ensures i <= n <= |s|
    ensures forall j :: i <= j < n ==> IsSpace(s[j])
    ensures n == |s| || !IsSpace(s[n])
    decreases |s| - i
  {
    if i < |s| && IsSpace(s[i]) then SpaceEnd(s, i + 1) else i
  }

  /** The last index at or before `j` that is not preceded by white space (or 0). */
  function SpaceStart(s: string, j: nat): (n: nat)
    requires j <= |s|
    ensures n <= j
    ensures forall k :: n <= k < j ==> IsSpace(s[k])
    ensures n == 0 || !IsSpace(s[n - 1])
  {
    if j > 0 && IsSpace(s[j - 1]) then SpaceStart(s, j - 1) else j
  }

  /** Removes leading white space; what is removed is all white space and what is left
      does not start with it. */
  function TrimStart(s: string): (r: string)
    ensures |r| <= |s| && r == s[|s| - |r|..]
    ensures forall i :: 0 <= i < |s| - |r| ==> IsSpace(s[i])
    ensures r == [] || !IsSpace(r[0])
  {
    s[SpaceEnd(s, 0)..]
  }

  /** Removes trailing white space. */
  function TrimEnd(s: string): (r: string)
    ensures |r| <= |s| && r == s[..|r|]
    ensures forall i :: |r| <= i < |s| ==> IsSpace(s[i])
    ensures r == [] || !IsSpace(r[|r| - 1])
  {
    s[..SpaceStart(s, |s|)]
  }

  /** `String.prototype.trim` (and express-validator's `trim()` with no argument). */
  function Trim(s: string): (r: string)
    ensures |r| <= |s|
    ensures r == [] || (!IsSpace(r[0]) && !IsSpace(r[|r| - 1]))
  {
    var t := TrimStart(s);
    var r := TrimEnd(t);
    assert r != [] ==> r[0] == t[0];
    r
  }

  /** Where the trimmed text starts in the input. */
  function TrimOffset(s: string): (i: nat)
    ensures i <= |s|
  {
    |s| - |TrimStart(s)|
  }

  /** Trimming leaves a contiguous piece of the input, surrounded only by white space,
      that neither starts nor ends with white space. */
  lemma TrimShape(s: string)
    ensures var r, i := Trim(s), TrimOffset(s);
      && i + |r| <= |s| && s[i..i + |r|] == r
      && (forall j :: 0 <= j < i ==> IsSpace(s[j]))
      && (forall j :: i + |r| <= j < |s| ==> IsSpace(s[j]))
      && (r == [] || (!IsSpace(r[0]) && !IsSpace(r[|r| - 1])))
  {
    var t := TrimStart(s);
    var r := TrimEnd(t);
    var i := |s| - |t|;
    SliceOfSuffix(s, i, |r|);
    forall j | i + |r| <= j < |s|
      ensures IsSpace(s[j])
    {
      assert s[j] == t[j - i];
    }
  }

  /** A prefix of a suffix is a slice. */
  lemma SliceOfSuffix(s: string, i: nat, n: nat)
    requires i + n <= |s|
    ensures s[i..][..n] == s[i..i + n]
  {
  }

  /** Trimming a trimmed string changes nothing. */
  lemma TrimIdempotent(s: string)
    ensures Trim(Trim(s)) == Trim(s)
  {
    TrimShape(s);
    var r := Trim(s);
    assert TrimStart(r) == r;
    assert TrimEnd(r) == r;
  }

  /** A string with no white space at either end is its own trim. */
  lemma TrimOfTrimmed(s: string)
    requires s == [] || (!IsSpace(s[0]) && !IsSpace(s[|s| - 1]))
    ensures Trim(s) == s
  {
  }

  /** `s.length` in JavaScript: UTF-16 code units, two for a code point above U+FFFF.
      Mongoose's `minlength` / `maxlength` measure this. */
  function Utf16Length(s: string): (n: nat)
    ensures |s| <= n <= 2 * |s|
  {
    if |s| == 0 then 0
    else (if s[0] as int > 0xFFFF then 2 else 1) + Utf16Length(s[1..])
  }

  /** Strings made of characters of the Basic Multilingual Plane have as many UTF-16 units as
      characters. */
  lemma {:induction false} Utf16LengthOfBmp(s: string)
    requires forall i :: 0 <= i < |s| ==> s[i] as int <= 0xFFFF
    ensures Utf16Length(s) == |s|
  {
    if |s| > 0 {
      Utf16LengthOfBmp(s[1..]);
    }
  }

  predicate IsVariationSelector(c: char) { c == '\U{FE0E}' || c == '\U{FE0F}' }

  /** The length express-validator's `isLength` compares: code points, not counting the
      presentation selectors U+FE0E and U+FE0F. */
  function ValidatorLength(s: string): (n: nat)
    ensures n <= |s|
  {
    if |s| == 0 then 0
    else (if IsVariationSelector(s[0]) then 0 else 1) + ValidatorLength(s[1..])
  }

  /** Without presentation selectors, express-validator's length is the number of characters. */
  lemma {:induction false} ValidatorLengthPlain(s: string)
    requires forall i :: 0 <= i < |s| ==> !IsVariationSelector(s[i])
    ensures ValidatorLength(s) == |s|
  {
    if |s| > 0 {
      ValidatorLengthPlain(s[1..]);
    }
  }

  /** ASCII lower-casing, as Mongoose's `lowercase: true` does for ASCII letters. */
  function ToLower(s: string): (r: string)
    ensures |r| == |s|
    ensures forall i :: 0 <= i < |s| ==> !IsUpper(r[i])
    ensures forall i :: 0 <= i < |s| ==> (IsUpper(s[i]) ==> r[i] as int == s[i] as int + 32)
    ensures forall i :: 0 <= i < |s| ==> (!IsUpper(s[i]) ==> r[i] == s[i])
  {
    seq(|s|, i requires 0 <= i < |s| => if IsUpper(s[i]) then (s[i] as int + 32) as char else s[i])
  }

  /** Lower-casing twice is lower-casing once. */
  lemma ToLowerIdempotent(s: string)
    ensures ToLower(ToLower(s)) == ToLower(s)
  {
  }

  function DigitChar(d: nat): (c: char)
    requires d < 10
    ensures IsDigit(c)
  {
    ('0' as int + d) as char
  }

  /** The decimal numeral of `n`, as `Number.prototype.toString()` writes an integer. */
  function Decimal(n: nat): (r: string)
    ensures |r| >= 1 && AllDigits(r)
    decreases n
  {
    if n < 10 then [DigitChar(n)] else Decimal(n / 10) + [DigitChar(n % 10)]
  }

  /** The value of a string of decimal digits. */
  function DecimalValue(s: string): nat
    requires AllDigits(s)
  {
    if |s| == 0 then 0
    else 10 * DecimalValue(s[..|s| - 1]) + (s[|s| - 1] as int - '0' as int)
  }

  /** Reading back the numeral of `n` gives `n`. */
  lemma {:induction false} DecimalRoundTrip(n: nat)
    ensures DecimalValue(Decimal(n)) == n
    decreases n
  {
    if n >= 10 {
      DecimalRoundTrip(n / 10);
      var s := Decimal(n);
      assert s[..|s| - 1] == Decimal(n / 10);
    }
  }

  function Pow10(k: nat): (p: nat)
    ensures p >= 1
  {
    if k == 0 then 1 else 10 * Pow10(k - 1)
  }

  /** A number with k digits has a numeral of length k. */
  lemma {:induction false} DecimalLength(n: nat, k: nat)
    requires k >= 1 && Pow10(k - 1) <= n < Pow10(k)
    ensures |Decimal(n)| == k
    decreases k
  {
    if k == 1 {
      assert n < 10;
    } else {
      assert n >= 10;
      DecimalLength(n / 10, k - 1);
    }
  }
}

=== FILE: user_model.dfy ===
/** The User document (models/User.js): its fields and schema constraints, the two
    pre-save hooks, the `toJSON` and `toPublicProfile` projections, and the one-time
    codes. bcrypt is idealised: a hash remembers what it hashes and nothing else. */
module UserModel {
  import opened Wrappers
  import opened Table
  import opened Text

  /** The password field: `Plain` after a route assigns it and before the document is
      saved, `Hashed` once the pre-save hook has run. */
  datatype Password = Plain(text: string) | Hashed(digest: string)

  datatype User = User(
    id: Id,
    username: string,
    email: string,
    password: Password,
    profilePicture: Option<string>,    // default null
    displayName: Option<string>,
    bio: Option<string>,
    location: Option<string>,
    website: Option<string>,
    friends: seq<Id>,
    friendsCount: int,
    postsCount: int,
    isVerified: bool,
    isPrivate: bool,
    isActive: bool,
    emailVerified: bool,
    emailVerificationToken: Option<string>,
    emailVerificationExpires: Option<int>,
    resetPasswordToken: Option<string>,
    resetPasswordExpires: Option<int>,
    lastLogin: nat,
    lastSeen: nat,
    createdAt: nat)

  const UsernameMinLength := 3
  const UsernameMaxLength := 20
  const PasswordMinLength := 6
  const DisplayNameMaxLength := 50
  const BioMaxLength := 150
  const LocationMaxLength := 100
  const WebsiteMaxLength := 200

  /** One-time codes live ten minutes (milliseconds). */
  const CodeLifetime := 10 * 60 * 1000

  /** The value the schema stores for a username (`trim: true`). */
  function StoredUsername(name: string): string { Trim(name) }

  /** The value the schema stores for an email (`lowercase: true, trim: true`). */
  function StoredEmail(email: string): string { Trim(ToLower(email)) }

  predicate OptionalFits(o: Option<string>, max: nat) {
    o.None? || Utf16Length(o.value) <= max
  }

  /** The schema validators a save runs (the email pattern is not modelled). The
      password length is checked on the plain text, before the hashing hook. */
  predicate SatisfiesSchema(u: User)
    ensures SatisfiesSchema(u) ==> 2 <= |u.username| <= UsernameMaxLength
  {
    && UsernameMinLength <= Utf16Length(u.username) <= UsernameMaxLength
    && (u.password.Plain? ==> Utf16Length(u.password.text) >= PasswordMinLength)
    && OptionalFits(u.displayName, DisplayNameMaxLength)
    && OptionalFits(u.bio, BioMaxLength)
    && OptionalFits(u.location, LocationMaxLength)
    && OptionalFits(u.website, WebsiteMaxLength)
  }

  /** The unique indexes on `_id`, `username` and `email`. */
  predicate UniqueKeys(users: seq<User>) {
    forall i, j :: 0 <= i < j < |users| ==>
      users[i].id != users[j].id && users[i].username != users[j].username
      && users[i].email != users[j].email
  }

  /** The two `pre('save')` hooks. A password the route assigned is hashed; a password
      read from the database is left alone. When the friends array was modified,
      `friendsCount` becomes its length. */
  function Save(u: User, friendsModified: bool): (r: User)
    ensures r.password.Hashed?
    ensures u.password.Hashed? ==> r.password == u.password
    ensures friendsModified ==> r.friendsCount == |r.friends|
    ensures !friendsModified ==> r.friendsCount == u.friendsCount
    ensures r.(password := u.password, friendsCount := u.friendsCount) == u
  {
    var hashed := match u.password
      case Plain(t) => Hashed(t)
      case Hashed(h) => Hashed(h);
    u.(password := hashed, friendsCount := if friendsModified then |u.friends| else u.friendsCount)
  }

  /** `comparePassword`: a candidate matches the hash of the same text. A plain-text
      value is not a hash and matches nothing. */
  predicate ComparePassword(candidate: string, stored: Password)
    ensures stored.Plain? ==> !ComparePassword(candidate, stored)
    ensures ComparePassword(candidate, stored) <==> stored == Hashed(candidate)
  {
    stored.Hashed? && stored.digest == candidate
  }

  /** Saving twice hashes once: the hook never hashes a hash. */
  lemma SaveHashesOnce(u: User, friendsModified: bool)
    ensures Save(Save(u, friendsModified), friendsModified) == Save(u, friendsModified)
  {
  }

  /** A password assigned and saved is the one `comparePassword` accepts afterwards, and
      no other. */
  lemma SavedPasswordMatches(u: User, p: string, candidate: string, friendsModified: bool)
    ensures ComparePassword(candidate, Save(u.(password := Plain(p)), friendsModified).password)
      <==> candidate == p
  {
  }

  // ---------------------------------------------------------------- projections

  /** The JSON values a user document holds. */
  datatype Json = JNull | JBool(b: bool) | JNum(n: int) | JStr(s: string) | JIds(ids: seq<Id>)

  /** The field names of a user document. */
  datatype Key =
    | IdKey | Username | Email | PasswordKey | ProfilePicture | DisplayName | Bio | Location
    | Website | Friends | FriendsCount | PostsCount | IsVerified | IsPrivate | IsActive
    | EmailVerified | EmailVerificationToken | EmailVerificationExpires
    | ResetPasswordToken | ResetPasswordExpires | LastLogin | LastSeen | CreatedAt

  function OptStr(o: Option<string>): Json {
    if o.Some? then JStr(o.value) else JNull
  }

  /** A string field that is `undefined` is absent from the object. */
  function Present(o: Option<string>): Option<Json> {
    if o.Some? then Some(JStr(o.value)) else None
  }

  function PresentNum(o: Option<int>): Option<Json> {
    if o.Some? then Some(JNum(o.value)) else None
  }

  function PasswordJson(p: Password): Json {
    match p
    case Plain(t) => JStr(t)
    case Hashed(h) => JStr(h)
  }

  /** `toObject()`, field by field: the value the stored document holds under a field
      name, or `None` when the field is absent. */
  function ToObject(u: User, k: Key): Option<Json> {
    match k
    case IdKey => Some(JNum(u.id))
    case Username => Some(JStr(u.username))
    case Email => Some(JStr(u.email))
    case PasswordKey => Some(PasswordJson(u.password))
    case ProfilePicture => Some(OptStr(u.profilePicture))
    case DisplayName => Present(u.displayName)
    case Bio => Present(u.bio)
    case Location => Present(u.location)
    case Website => Present(u.website)
    case Friends => Some(JIds(u.friends))
    case FriendsCount => Some(JNum(u.friendsCount))
    case PostsCount => Some(JNum(u.postsCount))
    case IsVerified => Some(JBool(u.isVerified))
    case IsPrivate => Some(JBool(u.isPrivate))
    case IsActive => Some(JBool(u.isActive))
    case EmailVerified => Some(JBool(u.emailVerified))
    case EmailVerificationToken => Present(u.emailVerificationToken)
    case EmailVerificationExpires => PresentNum(u.emailVerificationExpires)
    case ResetPasswordToken => Present(u.resetPasswordToken)
    case ResetPasswordExpires => PresentNum(u.resetPasswordExpires)
    case LastLogin => Some(JNum(u.lastLogin))
    case LastSeen => Some(JNum(u.lastSeen))
    case CreatedAt => Some(JNum(u.createdAt))
  }

  /** The secrets: the password hash and the two one-time codes with their expiries. */
  const SensitiveFields: set<Key> := {
    PasswordKey, ResetPasswordToken, ResetPasswordExpires,
    EmailVerificationToken, EmailVerificationExpires}

  const PublicFields: set<Key> := {
    IdKey, Username, DisplayName, ProfilePicture, Bio, Location, Website,
    FriendsCount, PostsCount, IsVerified, IsPrivate, CreatedAt}

  /** `toJSON`, field by field: `toObject()` with five fields deleted. It never shows a
      secret and shows every other field as stored. */
  function ToJson(u: User, k: Key): (r: Option<Json>)
    ensures k in SensitiveFields ==> r.None?
    ensures k !in SensitiveFields ==> r == ToObject(u, k)
  {
    match k
    case PasswordKey => None
    case ResetPasswordToken => None
    case ResetPasswordExpires => None
    case EmailVerificationToken => None
    case EmailVerificationExpires => None
    case _ => ToObject(u, k)
  }

  /** `toPublicProfile`, field by field: the twelve listed fields, read from the document;
      `undefined` ones are absent. */
  function PublicProfile(u: User, k: Key): (r: Option<Json>)
    ensures k !in PublicFields ==> r.None?
    ensures k == Email || k == PasswordKey || k == Friends ==> r.None?
  {
    match k
    case IdKey => Some(JNum(u.id))
    case Username => Some(JStr(u.username))
    case DisplayName => Present(u.displayName)
    case ProfilePicture => Some(OptStr(u.profilePicture))
    case Bio => Present(u.bio)
    case Location => Present(u.location)
    case Website => Present(u.website)
    case FriendsCount => Some(JNum(u.friendsCount))
    case PostsCount => Some(JNum(u.postsCount))
    case IsVerified => Some(JBool(u.isVerified))
    case IsPrivate => Some(JBool(u.isPrivate))
    case CreatedAt => Some(JNum(u.createdAt))
    case _ => None
  }

  /** The public profile is the full object cut down to the public fields. */
  lemma PublicProfileIsRestriction(u: User, k: Key)
    ensures PublicProfile(u, k) == (if k in PublicFields then ToObject(u, k) else None)
  {
  }

  /** Two users that differ only in their secrets have the same `toJSON`. */
  lemma ToJsonIgnoresSecrets(u: User, v: User, k: Key)
    requires v == u.(password := v.password,
                     emailVerificationToken := v.emailVerificationToken,
                     emailVerificationExpires := v.emailVerificationExpires,
                     resetPasswordToken := v.resetPasswordToken,
                     resetPasswordExpires := v.resetPasswordExpires)
    ensures ToJson(u, k) == ToJson(v, k)
  {
  }

  /** The public profile depends only on public fields: the email, the password, the
      codes, the friends array and the account flags never reach it. */
  lemma PublicProfileIgnoresPrivate(u: User, v: User, k: Key)
    requires v.id == u.id && v.username == u.username && v.displayName == u.displayName
    requires v.profilePicture == u.profilePicture && v.bio == u.bio
    requires v.location == u.location && v.website == u.website
    requires v.friendsCount == u.friendsCount && v.postsCount == u.postsCount
    requires v.isVerified == u.isVerified && v.isPrivate == u.isPrivate && v.createdAt == u.createdAt
    ensures PublicProfile(u, k) == PublicProfile(v, k)
  {
  }

  // ---------------------------------------------------------------- one-time codes

  /** `Math.floor(100000 + Math.random() * 900000).toString()`, where `draw` stands for
      `Math.floor(Math.random() * 900000)`. */
  function SixDigitCode(draw: nat): (code: string)
    requires draw < 900000
    ensures |code| == 6 && AllDigits(code)
    ensures DecimalValue(code) == 100000 + draw
    ensures 100000 <= DecimalValue(code) <= 999999
  {
    var n := 100000 + draw;
    assert Pow10(5) == 100000 && Pow10(6) == 1000000;
    DecimalLength(n, 6);
    DecimalRoundTrip(n);
    Decimal(n)
  }

  /** `User.findById`: the first user with the id. */
  function FindUser(users: seq<User>, id: Id): (r: Option<nat>)
    ensures r.None? <==> forall j :: 0 <= j < |users| ==> users[j].id != id
    ensures r.Some? ==> r.value < |users| && users[r.value].id == id
    ensures r.Some? ==> forall j :: 0 <= j < r.value ==> users[j].id != id
  {
    FindFirst(users, (u: User) => u.id == id)
  }

  /** Some user has the id: a reference to it populates to a document, not `null`. */
  ghost predicate UserExists(users: seq<User>, id: Id) {
    exists j :: 0 <= j < |users| && users[j].id == id
  }

  /** Applies `f` to the user with the given id: `findByIdAndUpdate`, which bypasses the
      save hooks and changes nothing when no user has the id. */
  /** `findById` depends only on the ids, position by position. */
  lemma FindUserSameIds(a: seq<User>, b: seq<User>, id: Id)
    requires |a| == |b|
    requires forall j :: 0 <= j < |a| ==> a[j].id == b[j].id
    ensures FindUser(a, id) == FindUser(b, id)
  {
  }

  function UpdateUser(users: seq<User>, id: Id, f: User -> User): (r: seq<User>)
    ensures |r| == |users|
    ensures forall j :: 0 <= j < |users| ==> r[j] == (if users[j].id == id then f(users[j]) else users[j])
  {
    UpdateWhere(users, (u: User) => u.id == id, f)
  }

  /** `User.createEmailVerificationToken`: stores a fresh six-digit code that expires ten
      minutes from `now` and returns it. */
  function CreateEmailVerificationToken(users: seq<User>, userId: Id, draw: nat, now: int): (r: (seq<User>, string))
    requires draw < 900000
    ensures |r.1| == 6 && AllDigits(r.1) && 100000 <= DecimalValue(r.1) <= 999999
    ensures |r.0| == |users|
    ensures forall j :: 0 <= j < |users| ==>
      if users[j].id == userId then
        r.0[j] == users[j].(emailVerificationToken := Some(r.1),
                            emailVerificationExpires := Some(now + CodeLifetime))
      else r.0[j] == users[j]
  {
    var code := SixDigitCode(draw);
    (UpdateUser(users, userId, (u: User) =>
      u.(emailVerificationToken := Some(code), emailVerificationExpires := Some(now + CodeLifetime))), code)
  }

  /** `User.createPasswordResetToken`: the same, for the reset fields. */
  function CreatePasswordResetToken(users: seq<User>, userId: Id, draw: nat, now: int): (r: (seq<User>, string))
    requires draw < 900000
    ensures |r.1| == 6 && AllDigits(r.1) && 100000 <= DecimalValue(r.1) <= 999999
    ensures |r.0| == |users|
    ensures forall j :: 0 <= j < |users| ==>
      if users[j].id == userId then
        r.0[j] == users[j].(resetPasswordToken := Some(r.1),
                            resetPasswordExpires := Some(now + CodeLifetime))
      else r.0[j] == users[j]
  {
    var code := SixDigitCode(draw);
    (UpdateUser(users, userId, (u: User) =>
      u.(resetPasswordToken := Some(code), resetPasswordExpires := Some(now + CodeLifetime))), code)
  }
}

=== FILE: validation.dfy ===
/** The request validators of middleware/validation.js and `handleValidationErrors`.
    Each express-validator chain runs every validator on its field and records one
    error per failing validator (no chain bails early); sanitizers such as `trim()`
    change the value the later validators and the handler see. An absent field reads
    as the empty string, except in an `optional()` chain, which skips it. `isEmail` is a
    parameter; `normalizeEmail` only rewrites the value and is left to the caller. */
module Validation {
  import opened Wrappers
  import opened Text
  import opened Http

  const ValidationFailed := "Validation failed"

  /** The request fields the chains read. */
  datatype Field =
    | Username | Email | Password | Caption | CommentText | NotificationId
    | CurrentPassword | NewPassword | ConfirmPassword | Token | Code | Query

  /** One entry of `errors.array()`. */
  datatype FieldError = FieldError(field: Field, msg: string)

  // The messages the chains attach with `withMessage` (or throw from `custom`).
  const UsernameLengthMsg := "Username must be between 3 and 20 characters"
  const UsernameCharsMsg := "Username can only contain letters, numbers, and underscores"
  const EmailMsg := "Please provide a valid email"
  const PasswordLengthMsg := "Password must be at least 6 characters long"
  const PasswordPatternMsg := "Password must contain at least one uppercase letter, one lowercase letter, and one number"
  const PasswordRequiredMsg := "Password is required"
  const CaptionLengthMsg := "Caption cannot exceed 200 characters"
  const CommentRequiredMsg := "Comment text is required"
  const CommentLengthMsg := "Comment cannot exceed 100 characters"
  const NotificationIdMsg := "Invalid notification ID format"
  const CurrentPasswordMsg := "Current password is required"
  const NewPasswordLengthMsg := "New password must be at least 6 characters long"
  const NewPasswordPatternMsg := "New password must contain at least one uppercase letter, one lowercase letter, and one number"
  const ConfirmMsg := "Password confirmation does not match new password"
  const TokenMsg := "Reset token is required"
  const CodeRequiredMsg := "Verification code is required"
  const CodeLengthMsg := "Verification code must be 6 digits"
  const CodeNumericMsg := "Verification code must be numeric"
  const QueryMsg := "Search query must be at least 2 characters long"

  const UsernameMin := 3
  const UsernameMax := 20
  const PasswordMin := 6
  const CaptionMax := 200
  const CommentMax := 100
  const CodeLength := 6
  const QueryMin := 2

  /** The string a chain sees: an absent field reads as the empty string. */
  function Value(o: Option<string>): string { o.GetOr("") }

  /** One validator: no error when the check passes, its message when it fails. */
  function Check(ok: bool, field: Field, msg: string): (r: seq<FieldError>)
    ensures ok <==> r == []
    ensures !ok ==> r == [FieldError(field, msg)]
  {
    if ok then [] else [FieldError(field, msg)]
  }

  /** `handleValidationErrors`: any recorded error answers 400 and the handler's outcome,
      state change included, is discarded; with no error the handler's answer stands. */
  function Gate<T>(errors: seq<FieldError>, handled: Reply<T>): (r: Reply<T>)
    ensures errors != [] ==> r == Fail(BAD_REQUEST, ValidationFailed)
    ensures errors == [] ==> r == handled
  {
    if errors != [] then Fail(BAD_REQUEST, ValidationFailed) else handled
  }

  // ---------------------------------------------------------------- the regular expressions

  /** `/^[a-zA-Z0-9_]+$/`. */
  predicate WordPattern(s: string) {
    |s| > 0 && AllWordChars(s)
  }

  /** The text before the first line terminator, all of `s` when it has none: the part
      a `.*` anchored at the start can reach. */
  function FirstLine(s: string): (r: string)
    ensures |r| <= |s| && r == s[..|r|]
    ensures forall i :: 0 <= i < |r| ==> !IsLineTerminator(r[i])
    ensures |r| == |s| || IsLineTerminator(s[|r|])
    decreases |s|
  {
    if |s| == 0 || IsLineTerminator(s[0]) then []
    else [s[0]] + FirstLine(s[1..])
  }

  predicate HasLower(s: string) { exists i :: 0 <= i < |s| && IsLower(s[i]) }
  predicate HasUpper(s: string) { exists i :: 0 <= i < |s| && IsUpper(s[i]) }
  predicate HasDigit(s: string) { exists i :: 0 <= i < |s| && IsDigit(s[i]) }

  /** `/^(?=.*[a-z])(?=.*[A-Z])(?=.*\d)/`: each lookahead scans from the start with `.*`,
      which stops at a line terminator. */
  predicate PasswordPattern(s: string) {
    var line := FirstLine(s);
    HasLower(line) && HasUpper(line) && HasDigit(line)
  }

  /** validator.js `isNumeric` with its default options: `/^[+-]?([0-9]*[.])?[0-9]+$/`. */
  predicate IsNumeric(s: string)
    ensures IsNumeric(s) ==> |s| > 0
    ensures |s| > 0 && AllDigits(s) ==> IsNumeric(s)
  {
    var t := if |s| > 0 && (s[0] == '+' || s[0] == '-') then s[1..] else s;
    |t| > 0 &&
    (AllDigits(t) || exists d :: 0 <= d < |t| - 1 && t[d] == '.' && AllDigits(t[..d]) && AllDigits(t[d + 1..]))
  }

  // ---------------------------------------------------------------- the chains

  /** `body('username').trim().isLength({min: 3, max: 20}).matches(/^[a-zA-Z0-9_]+$/)`. */
  function UsernameErrors(username: Option<string>): (r: seq<FieldError>)
    ensures |r| <= 2
    ensures forall e :: e in r ==> e.field == Username
    ensures r == [] <==>
      var u := Trim(Value(username));
      UsernameMin <= ValidatorLength(u) <= UsernameMax && WordPattern(u)
  {
    var u := Trim(Value(username));
    Check(UsernameMin <= ValidatorLength(u) <= UsernameMax, Username, UsernameLengthMsg)
      + Check(WordPattern(u), Username, UsernameCharsMsg)
  }

  /** The password rules shared by registration and the two password changes. */
  function PasswordRuleErrors(password: Option<string>, field: Field, lengthMsg: string, patternMsg: string): (r: seq<FieldError>)
    ensures forall e :: e in r ==> e.field == field
    ensures r == [] <==> ValidatorLength(Value(password)) >= PasswordMin && PasswordPattern(Value(password))
  {
    var p := Value(password);
    Check(ValidatorLength(p) >= PasswordMin, field, lengthMsg) + Check(PasswordPattern(p), field, patternMsg)
  }

  /** `validateRegister`. */
  function RegisterErrors(username: Option<string>, email: Option<string>, password: Option<string>,
                          isEmail: string -> bool): (r: seq<FieldError>)
    ensures r == [] <==>
      && UsernameErrors(username) == []
      && isEmail(Value(email))
      && PasswordRuleErrors(password, Password, PasswordLengthMsg, PasswordPatternMsg) == []
  {
    UsernameErrors(username)
      + Check(isEmail(Value(email)), Email, EmailMsg)
      + PasswordRuleErrors(password, Password, PasswordLengthMsg, PasswordPatternMsg)
  }

  /** `validateLogin`. */
  function LoginErrors(email: Option<string>, password: Option<string>, isEmail: string -> bool): (r: seq<FieldError>)
    ensures r == [] <==> isEmail(Value(email)) && password.Some? && password.value != ""
  {
    Check(isEmail(Value(email)), Email, EmailMsg) + Check(Value(password) != "", Password, PasswordRequiredMsg)
  }

  /** `validatePost`: an absent caption is skipped; a present one is trimmed and may not
      exceed 200 characters. */
  function CaptionErrors(caption: Option<string>): (r: seq<FieldError>)
    ensures caption.None? ==> r == []
    ensures caption.Some? ==> (r == [] <==> ValidatorLength(Trim(caption.value)) <= CaptionMax)
  {
    if caption.None? then []
    else Check(ValidatorLength(Trim(caption.value)) <= CaptionMax, Caption, CaptionLengthMsg)
  }

  /** The caption the post routes receive after `validatePost`. */
  function SanitizedCaption(caption: Option<string>): (r: Option<string>)
    ensures r.None? <==> caption.None?
  {
    if caption.None? then None else Some(Trim(caption.value))
  }

  /** `validateComment`: the text is trimmed, must not be empty and may not exceed 100
      characters. */
  function CommentErrors(text: Option<string>): (r: seq<FieldError>)
    ensures r == [] <==> Trim(Value(text)) != "" && ValidatorLength(Trim(Value(text))) <= CommentMax
  {
    var t := Trim(Value(text));
    Check(t != "", CommentText, CommentRequiredMsg) + Check(ValidatorLength(t) <= CommentMax, CommentText, CommentLengthMsg)
  }

  /** The comment text the route receives after `validateComment`. */
  function SanitizedComment(text: Option<string>): string {
    Trim(Value(text))
  }

  /** `validateNotificationId`: `param('id').isMongoId()`. */
  function NotificationIdErrors(id: PathId): (r: seq<FieldError>)
    ensures r == [] <==> id.AnId?
  {
    Check(id.AnId?, NotificationId, NotificationIdMsg)
  }

  /** The `custom` check on `confirmPassword`: it must be strictly equal to
      `newPassword`, so two absent fields agree. */
  function ConfirmErrors(confirm: Option<string>, newPassword: Option<string>): (r: seq<FieldError>)
  {
    Check(confirm == newPassword, ConfirmPassword, ConfirmMsg)
  }

  /** `validateChangePassword`. */
  function ChangePasswordErrors(current: Option<string>, newPassword: Option<string>,
                                confirm: Option<string>): (r: seq<FieldError>)
    ensures r == [] <==>
      && Value(current) != ""
      && PasswordRuleErrors(newPassword, NewPassword, NewPasswordLengthMsg, NewPasswordPatternMsg) == []
      && confirm == newPassword
  {
    Check(Value(current) != "", CurrentPassword, CurrentPasswordMsg)
      + PasswordRuleErrors(newPassword, NewPassword, NewPasswordLengthMsg, NewPasswordPatternMsg)
      + ConfirmErrors(confirm, newPassword)
  }

  /** `validateForgotPassword`. */
  function ForgotPasswordErrors(email: Option<string>, isEmail: string -> bool): (r: seq<FieldError>)
    ensures r == [] <==> isEmail(Value(email))
  {
    Check(isEmail(Value(email)), Email, EmailMsg)
  }

  /** `validateResetPassword`. */
  function ResetPasswordErrors(token: Option<string>, newPassword: Option<string>,
                               confirm: Option<string>): (r: seq<FieldError>)
    ensures r == [] <==>
      && Value(token) != ""
      && PasswordRuleErrors(newPassword, NewPassword, NewPasswordLengthMsg, NewPasswordPatternMsg) == []
      && confirm == newPassword
  {
    Check(Value(token) != "", Token, TokenMsg)
      + PasswordRuleErrors(newPassword, NewPassword, NewPasswordLengthMsg, NewPasswordPatternMsg)
      + ConfirmErrors(confirm, newPassword)
  }

  /** `validateEmailVerification` as written: not empty, six characters, and numeric in
      the sense of `isNumeric`, which admits a sign and a decimal point. */
  function CodeErrorsAsWritten(code: Option<string>): (r: seq<FieldError>)
    ensures r == [] <==>
      Value(code) != "" && ValidatorLength(Value(code)) == CodeLength && IsNumeric(Value(code))
  {
    var c := Value(code);
    Check(c != "", Code, CodeRequiredMsg)
      + Check(ValidatorLength(c) == CodeLength, Code, CodeLengthMsg)
      + Check(IsNumeric(c), Code, CodeNumericMsg)
  }

  /** A verification code as the messages and the code generator describe it: six
      decimal digits. */
  predicate ValidCode(c: string) {
    |c| == CodeLength && AllDigits(c)
  }

  /** `validateEmailVerification` with the numeric check read as "digits only". */
  function CodeErrors(code: Option<string>): (r: seq<FieldError>)
    ensures r == [] <==>
      Value(code) != "" && ValidatorLength(Value(code)) == CodeLength && AllDigits(Value(code))
  {
    var c := Value(code);
    Check(c != "", Code, CodeRequiredMsg)
      + Check(ValidatorLength(c) == CodeLength, Code, CodeLengthMsg)
      + Check(AllDigits(c), Code, CodeNumericMsg)
  }

  /** `validateUserSearch`: an absent query is skipped; a present one is trimmed and
      needs two characters. */
  function QueryErrors(q: Option<string>): (r: seq<FieldError>)
    ensures q.None? ==> r == []
    ensures q.Some? ==> (r == [] <==> ValidatorLength(Trim(q.value)) >= QueryMin)
  {
    if q.None? then [] else Check(ValidatorLength(Trim(q.value)) >= QueryMin, Query, QueryMsg)
  }

  // ---------------------------------------------------------------- what the chains accept

  /** No word character is a presentation selector, so `isLength` counts a word-pattern
      string character by character. */
  lemma WordLength(s: string)
    requires AllWordChars(s)
    ensures ValidatorLength(s) == |s|
  {
    ValidatorLengthPlain(s);
  }

  /** A username passes exactly when, trimmed, it is 3 to 20 letters, digits or
      underscores. */
  lemma UsernameRule(username: Option<string>)
    ensures UsernameErrors(username) == [] <==>
      var u := Trim(Value(username));
      UsernameMin <= |u| <= UsernameMax && AllWordChars(u)
  {
    var u := Trim(Value(username));
    if AllWordChars(u) {
      WordLength(u);
    }
  }

  /** On a single-line password the lookaheads see every character: the password passes
      exactly when it has six characters (not counting presentation selectors) and a
      lower-case letter, an upper-case letter and a digit somewhere. */
  lemma PasswordRuleOnOneLine(password: string, field: Field, lengthMsg: string, patternMsg: string)
    requires forall i :: 0 <= i < |password| ==> !IsLineTerminator(password[i])
    ensures PasswordRuleErrors(Some(password), field, lengthMsg, patternMsg) == [] <==>
      ValidatorLength(password) >= PasswordMin && HasLower(password) && HasUpper(password) && HasDigit(password)
  {
    assert FirstLine(password) == password;
  }

  /** The lookaheads stop at the first line break: a first line without a lower-case
      letter fails the pattern whatever follows the break. */
  lemma PasswordPatternStopsAtLineBreak(first: string, rest: string)
    requires forall i :: 0 <= i < |first| ==> !IsLineTerminator(first[i]) && !IsLower(first[i])
    ensures !PasswordPattern(first + ['\n'] + rest)
  {
    var s := first + ['\n'] + rest;
    FirstLineOfBreak(first, rest);
    assert FirstLine(s) == first;
  }

  lemma {:induction false} FirstLineOfBreak(first: string, rest: string)
    requires forall i :: 0 <= i < |first| ==> !IsLineTerminator(first[i])
    ensures FirstLine(first + ['\n'] + rest) == first
    decreases |first|
  {
    var s := first + ['\n'] + rest;
    if |first| == 0 {
      assert s[0] == '\n';
    } else {
      assert s[1..] == first[1..] + ['\n'] + rest;
      FirstLineOfBreak(first[1..], rest);
      assert first == [first[0]] + first[1..];
    }
  }

  /** The caption the routes store passes the same chain again and is its own
      sanitization: validating and trimming are idempotent. */
  lemma CaptionSanitizationStable(caption: Option<string>)
    ensures CaptionErrors(SanitizedCaption(caption)) == CaptionErrors(caption)
    ensures SanitizedCaption(SanitizedCaption(caption)) == SanitizedCaption(caption)
  {
    if caption.Some? {
      TrimIdempotent(caption.value);
    }
  }

  /** A caption that passes the chain is stored trimmed, or as `''` when absent, and
      that stored text passes the chain again. */
  lemma StoredCaptionPasses(caption: Option<string>)
    ensures CaptionErrors(caption) == [] ==>
      var c := Value(SanitizedCaption(caption)); Trim(c) == c && CaptionErrors(Some(c)) == []
  {
    TrimIdempotent(Value(caption));
  }

  /** White space around a search query changes nothing: the query and its trimmed form
      pass or fail together. */
  lemma QueryIgnoresSurroundingSpace(q: string)
    ensures QueryErrors(Some(Trim(q))) == QueryErrors(Some(q))
  {
    TrimIdempotent(q);
  }

  /** An accepted comment reaches the route non-empty, without surrounding white space
      and within 100 characters. */
  lemma AcceptedComment(text: Option<string>)
    requires CommentErrors(text) == []
    ensures var t := SanitizedComment(text);
      && |t| > 0 && !IsSpace(t[0]) && !IsSpace(t[|t| - 1])
      && ValidatorLength(t) <= CommentMax
      && CommentErrors(Some(t)) == []
  {
    TrimShape(Value(text));
    TrimIdempotent(Value(text));
  }

  /** Every code the six-digit rule admits passes the corrected chain, and the corrected
      chain admits nothing else. */
  lemma CodeRule(code: Option<string>)
    ensures CodeErrors(code) == [] <==> ValidCode(Value(code))
  {
    var c := Value(code);
    if AllDigits(c) {
      ValidatorLengthPlain(c);
    }
  }

  /** The corrected chain is stricter than the original: what it accepts, the original
      accepts too. */
  lemma CorrectedCodeIsStricter(code: Option<string>)
    requires CodeErrors(code) == []
    ensures CodeErrorsAsWritten(code) == []
  {
    var c := Value(code);
    assert |c| > 0;
    assert !(|c| > 0 && (c[0] == '+' || c[0] == '-'));
  }

  /** The chain as written lets a signed five-digit number through as a code: `+` and
      five digits is six characters and `isNumeric` accepts it, although it is not six
      digits. */
  lemma SignedCodePassesAsWritten(digits: string)
    requires |digits| == 5 && AllDigits(digits)
    ensures CodeErrorsAsWritten(Some(['+'] + digits)) == []
    ensures !ValidCode(['+'] + digits)
    ensures CodeErrors(Some(['+'] + digits)) != []
  {
    var c := ['+'] + digits;
    assert forall i :: 0 <= i < |c| ==> !IsVariationSelector(c[i]) by {
      forall i | 0 <= i < |c| ensures !IsVariationSelector(c[i]) {
        if i > 0 {
          assert c[i] == digits[i - 1];
        }
      }
    }
    ValidatorLengthPlain(c);
    assert c[1..] == digits;
    assert !IsDigit(c[0]);
    CodeRule(Some(c));
  }
}

=== FILE: wrappers.dfy ===
/** Option and Result: the two failure-carrying shapes the model uses in place of
    JavaScript's `undefined` / `null` and thrown errors. */
module Wrappers {

  /** An optional value; `None` stands for a field that is absent (undefined). */
  datatype Option<+T> = None | Some(value: T) {

    /** The value, or `fallback` when absent (JavaScript's `x || fallback` on non-falsy x). */
    function GetOr(fallback: T): T {
      match this
      case Some(v) => v
      case None => fallback
    }
  }

  /** The outcome of an operation that either returns a value or throws. */
  datatype Result<+T, +E> = Ok(value: T) | Err(error: E)
}
